=== FILE: README.md ===
# Dota hero guessing game: a Dafny model of its game logic

The game is a browser page (`app.js`). The player types Dota 2 hero names
until they hit the secret hero. Each guess adds a row of hints to the table:

- gender;
- types;
- roles;
- primary attribute;
- attack type;
- complexity;
- release year, with an arrow towards the secret's year.

There are two modes:

- **Daily** gives the same hero to everyone on a UTC day. A finished daily game stays finished until the local date changes.
- **Classic** draws a random hero.

Hard mode allows six attempts. The hero catalogue is a JSON list. Records
stored locally override its fields, and every record is repaired into a
uniform hero before play. The name box resolves typed text to a hero and
offers up to eight ranked suggestions.

The model keeps that logic as pure functions over immutable data:

| module | file | what it holds |
|---|---|---|
| `Wrappers` | wrappers.dfy | `Option` |
| `Text` | text.dfy | `normalize`, the letters-only form, initials, trimming and searching in strings |
| `Json` | json.dfy | JSON values, JavaScript truthiness, `String(v)` and `Number(v)` for integers |
| `Heroes` | heroes.dfy | the `Hero` record, `mapComplexity`, and the repair of raw records into heroes (app.js:130-140) |
| `Resolver` | resolver.dfy | `findHeroByName` and the suggestion scores, order and cut |
| `Evaluator` | evaluator.dfy | the gender helpers, the hint row of `renderGuessRow`, `letterMatches` |
| `Secret` | secret.dfy | the daily hero and the random hero |
| `Storage` | storage.dfy | settings and daily progress records, the date key, the countdown text |
| `Overrides` | overrides.dfy | the override merge and the roster built from the catalogue |
| `Session` | session.dfy | the game state and its transitions: start, guess, Enter, surrender, mode and hard-mode controls |

The clock, `Math.random` and browser storage are parameters. The current
instant, today's local date key and a random value in [0, 1) arrive in an
`Env`. Storage contents are optional, already parsed JSON values.

## Model

| member | source | states |
|---|---|---|
| Text.Lower | app.js:321 | lower-casing keeps the length and maps each character on its own |
| Text.Trim | app.js:321 | the result has no whitespace at either end and is the middle of the input with only whitespace cut away |
| Text.IndexOf | app.js:384 | `indexOf`: -1 or a position where the query occurs, with no earlier occurrence |
| Text.IndexFrom | app.js:384 | the first occurrence at or after a start position, or -1 |
| Text.StripDiacritics | app.js:317 | what remains is drawn from the input and holds no diacritic; a single character is dropped exactly when it is a diacritic and kept otherwise |
| Text.StripDiacriticsAppend | app.js:317 | stripping works piece by piece: the strip of a concatenation is the concatenation of the strips, so every non-diacritic is kept in order |
| Text.FoldDashes | app.js:318 | every dash-family character becomes '-', everything else stays put |
| Text.FoldApostrophes | app.js:319 | every apostrophe-family character becomes '\'', everything else stays put |
| Text.CollapseSingleSpaced | app.js:320 | after collapsing, whitespace occurs only as single ' ' characters |
| Text.CollapseKeepsFolded | app.js:320 | collapsing whitespace adds no dash, apostrophe or diacritic |
| Text.CollapseSpacesKeeps | app.js:320 | a single-spaced string is left alone by collapsing |
| Text.CollapseSpaceRun | app.js:320 | a leading run of whitespace becomes exactly one ' ', followed by the collapse of the text after the run |
| Text.CollapseKeepsOther | app.js:320 | a character that is not whitespace is kept, in front of the collapse of the rest |
| Text.CollapseRuns | app.js:320 | two non-empty whitespace runs in the same place collapse to the same text |
| Text.Normalize | app.js:311-325 | the result is normal: no diacritic, dash or apostrophe variant, single spaces, no space at either end, lower case; empty input gives '' |
| Text.NormalizeKeepsNormal | app.js:311-325 | a normal string is a fixed point of `normalize` |
| Text.NormalizeIdempotent | app.js:311-325 | `normalize(normalize(s)) == normalize(s)` |
| Text.TrimNormalize | app.js:359 | the extra `.trim()` after `normalize` changes nothing |
| Text.LowerTrim | app.js:321 | lower-casing commutes with trimming |
| Text.NormalizeViaKeys | app.js:311-325 | `normalize` is trimming the collapsed per-character keys (case, dash and apostrophe folded) of the diacritic-stripped text, so the fold order in the source does not matter |
| Text.NormalizeVariants | app.js:311-325 | two texts whose characters agree place by place up to letter case, dash spelling, apostrophe spelling or whitespace character (diacritics in the same places) have the same normal form |
| Text.NormalizeIgnoresCase | app.js:311-321 | lower-casing a text first does not change its normal form |
| Text.NormalizeExtraSpace | app.js:320-321 | any non-empty run of whitespace normalises like a single space |
| Text.KeepLowerAlnum | app.js:329 | keeps exactly the characters in `[a-z0-9]`, never grows |
| Text.Letters | app.js:327-330 | the letters-only form holds only `[a-z0-9]`, exactly the alphanumerics of the normal form |
| Text.LettersIdempotent | app.js:327-330 | taking the letters-only form twice is taking it once |
| Text.Words | app.js:333-336 | every token of the split is a non-empty run of `[a-z0-9]` |
| Text.WordsJoinToLetters | app.js:333-336 | the tokens joined back together are exactly the alphanumerics of the input |
| Text.GetInitials | app.js:332-338 | one initial per word of the normalised name, that word's first character, always in `[a-z0-9]` |
| Text.InitialsEmptyIffNoLetters | app.js:327-338 | a name has initials exactly when its letters-only form is non-empty |
| Text.WordsOfJoin | app.js:333-336 | the split is maximal: splitting words joined by any character outside `[a-z0-9]` gives back exactly those words |
| Text.InitialsOfWords | app.js:332-338 | the initials of words joined by single spaces are the words' first characters |
| Json.NatToText | app.js:202 | decimal text of a number: digits only, no leading zero |
| Json.DigitsValueOfNatToText | app.js:202 | the decimal text of a number reads back as that number |
| Json.ParseIntToText | app.js:551-552 | `Number(String(n)) == n` for every integer |
| Json.ParseNumber | app.js:551-552 | blank text is 0, a run of digits is its decimal value, and any number read is an optionally signed run of digits after trimming |
| Json.ToText | app.js:555-557 | text stays itself, a number's text reads back as the number, and only text and arrays can print as '' |
| Json.ToNumber | app.js:551-553 | `null` is 0, booleans are 0 and 1, numbers are themselves, anything else converts through its text |
| Heroes.FirstTruthyIndex | app.js:131-139 | the first key in the fallback list whose value is truthy, and none before it; none at all when no value is truthy |
| Heroes.Label | app.js:459 | a `null` label shows nothing and a text label shows itself |
| Heroes.MapComplexity | app.js:33-41 | `'-'` for missing, blank or dash text; otherwise the stems `легк`, `сред`, `слож`, checked in that order, give `Easy`, `Medium`, `Hard`; text with no stem and no English bucket word passes through untouched |
| Heroes.MapComplexityEasy | app.js:37 | text that trims and lower-cases to `easy` is `Easy` |
| Heroes.MapComplexityMedium | app.js:38 | `medium` and `normal` are `Medium` |
| Heroes.MapComplexityHard | app.js:39 | `hard` is `Hard` |
| Heroes.MapComplexityIdempotent | app.js:33-41 | bucketing twice is bucketing once |
| Heroes.NormalizeRecord | app.js:130-140 | a repaired hero has a truthy year and a non-empty complexity that is a bucket or the raw complexity text |
| Heroes.NormalizeRecordFallbacks | app.js:130-133 | a hero with no name is `Unknown`, a text name is kept, a missing gender is `'—'`, the attack is set exactly when the record has one |
| Heroes.NormalizeRecordBucketed | app.js:137-138 | a repaired hero has a truthy year and a non-empty complexity that bucketing leaves unchanged |
| Heroes.NormalizeRecordStable | app.js:130-140 | storing a repaired hero as a record and repairing it again gives the same hero |
| Resolver.FindIndex | app.js:341-352 | the first roster position whose hero matches the query, with no match before it; none when nothing matches |
| Resolver.FindHeroByName | app.js:341-352 | a found hero is on the roster and matches; nothing is found exactly when no hero matches |
| Resolver.FindDependsOnNormalForm | app.js:342-343 | two queries with the same normal form resolve to the same hero |
| Resolver.FindNormalizedQuery | app.js:342-343 | normalising the query first changes nothing |
| Resolver.FindOwnName | app.js:344-350 | every hero is found by its own name, at its position or earlier |
| Resolver.FindWithoutLetters | app.js:348 | a query with no letters or digits matches only by normal form |
| Resolver.MatchesByLetters | app.js:341-352 | with letters in the query a hero matches exactly when its name has the same letters; without, exactly when the normal forms agree |
| Resolver.Tier | app.js:367-400 | each branch in the source's order: 1000 exactly for the query itself; a prefix scores 900 minus the name length at position 0; otherwise a word start after a space or dash (in a name with a separator after its first character) scores 800, any other occurrence 700, both at the first occurrence; otherwise 600 with no position when the initials start with the query, and -1 when they do not |
| Resolver.ScoreHero | app.js:367-400 | a hero scored against a query keeps its normalised name as sort key and gets that name's tier: 1000 exactly for the query itself, 900 minus the length for a prefix, 800 for a word start, 700 for another occurrence, otherwise 600 or -1 by its initials; a known position is an occurrence of the query |
| Resolver.ScoreKeeps | app.js:373-401 | for names up to 900 characters, a hero survives the filter exactly when its name contains the query or its initials start with it |
| Resolver.WordStartRanksFirst | app.js:381-390 | among names that are not the query and do not start with it, a word-start match outscores every name without one |
| Resolver.InnerMatchRanksAboveInitials | app.js:386-397 | among names that are not the query and do not start with it, a name containing the query outscores one that matches by initials only |
| Resolver.LexCompare | app.js:405 | a three-way comparison that is 0 exactly on equal strings |
| Resolver.LexCompareFlip | app.js:405 | swapping the arguments negates the comparison |
| Resolver.Compare | app.js:402-406 | a higher score comes first; on equal scores two different known positions order by position; on equal scores with equal or unknown positions the normalised names decide; 0 only for equal scores |
| Resolver.CompareFlip | app.js:402-406 | swapping the entries negates the comparison |
| Resolver.BeforeTotal | app.js:402-406 | of two entries one may stand first, and standing first implies a score at least as high |
| Resolver.Insert | app.js:402-406 | inserting into a sorted list keeps it sorted and adds exactly that entry |
| Resolver.Sort | app.js:402-406 | the result is sorted and is a permutation of the input |
| Resolver.SortedScores | app.js:403 | in a sorted list scores never increase |
| Resolver.KeepScored | app.js:401 | keeps exactly the entries with a non-negative score |
| Resolver.Ranked | app.js:367-406 | the ranking is sorted, holds exactly the scored roster entries with a non-negative score, each a roster hero with its own score |
| Resolver.Truncate | app.js:407 | at most 8 entries, a prefix of the list, all of it when short |
| Resolver.SuggestRanked | app.js:359-407 | for a query with a normal form, the suggestions are the first eight entries of the ranking of that normal form |
| Resolver.TruncateKeepsBest | app.js:407 | cutting a score-ordered list keeps an entry unless all eight kept entries score at least as high |
| Resolver.RankedHolds | app.js:367-406 | every roster hero with a non-negative score is in the ranking |
| Resolver.Suggest | app.js:358-407 | nothing for a blank query; otherwise at most 8 entries in comparator order |
| Resolver.SuggestEntries | app.js:367-401 | every suggestion is a roster hero with its own non-negative score |
| Resolver.SuggestScoresDescend | app.js:402-407 | suggestion scores never increase down the list |
| Resolver.SuggestComplete | app.js:401-407 | a hero that scores is suggested unless eight entries scoring at least as high are shown |
| Resolver.SuggestExactFirst | app.js:373-407 | when a hero's normal name is the query, the first suggestion is an exact match scoring 1000 |
| Evaluator.CanonicalGender | app.js:43-50 | none for empty, blank, dash, `нет` or `none`; the English and Russian spellings fold to `male` and `female`; anything else is its trimmed lower-case text |
| Evaluator.DisplayGender | app.js:52-59 | `Male` and `Female` for the two canonical genders; otherwise the trimmed text, or '-' when that is empty |
| Evaluator.CanonicalGenderIdempotent | app.js:43-50 | a canonical gender reads back as itself |
| Evaluator.DisplayKeepsCanonical | app.js:43-59 | reading the displayed gender back through `canonicalGender` gives the original's canonical gender |
| Evaluator.GenderMatchIsCanonical | app.js:498 | two genders match exactly when both have the same canonical value; the test is symmetric |
| Evaluator.GenderSpellingsMatch | app.js:48-49 | `M` matches `Мужской`, and `F` matches `женщина` |
| Evaluator.GenderPill | app.js:494-500 | highlighted exactly when both genders have the same canonical value; the text shown reads back as the guess's canonical gender |
| Evaluator.ListPills | app.js:504-519 | an empty list shows one plain '-'; otherwise one pill per guessed label, highlighted exactly when the secret's list has it |
| Evaluator.Shown | app.js:526 | `table[v] || v || '-'`: never empty, the value itself without a table entry, '-' for a missing value |
| Evaluator.AttrPill | app.js:522-527 | highlighted exactly for equal set values; a known code shows its label, any other set value itself, no value '-' |
| Evaluator.AttackPill | app.js:529-533 | highlighted exactly for equal set values; shows the set value or '-' |
| Evaluator.AttrPillMeaning | app.js:524-527 | the attribute pill is highlighted exactly for equal set values and spells out `STR`, `AGI`, `INT` and `UNI` |
| Evaluator.ComplexityPill | app.js:536-540 | the pill shows the guess's complexity, or '-' when it has none, and is highlighted exactly when the secret has a complexity equal to that text |
| Evaluator.YearMarker | app.js:550-560 | an arrow only when both years are present, not the placeholder, and numeric; up means the guess is earlier, down later |
| Evaluator.YearPill | app.js:545-561 | highlighted exactly when both years are present and identical; the text is the guessed year (or '-') with the arrow, and no arrow for a non-numeric year |
| Evaluator.YearMarkerFlip | app.js:550-560 | swapping guess and secret swaps the up and down arrows |
| Evaluator.YearMarkerNumbers | app.js:550-560 | for numeric years the arrow points up exactly when the guess is earlier and down exactly when it is later; a zero year gets none |
| Evaluator.YearMarkerText | app.js:550-560 | numeric text years get the same arrow as the numbers |
| Evaluator.Evaluate | app.js:464-561 | the row carries the guessed name, and each cell is highlighted by its own rule: gender by canonical value, list labels by membership, attribute and attack by equal set values, complexity by text, year by identity |
| Evaluator.EvaluateSelf | app.js:464-560 | evaluating a hero against itself highlights each cell exactly when the hero has a value there (years by value, so an array or object year stays dark) |
| Evaluator.EvaluateSelfAllMatched | app.js:464-560 | a hero with every field set highlights its whole row against itself |
| Evaluator.MatchSymmetric | app.js:496-548 | gender, attribute, attack and year highlights do not depend on which hero is the guess |
| Evaluator.LetterMatches | app.js:448-453 | the count of distinct ASCII letters, ignoring case, that the two names share |
| Secret.JsRem | app.js:275 | JavaScript `%`: strictly between -n and n, congruent to the operand, the ordinary remainder for non-negative operands and the negated remainder of the magnitude for negative ones |
| Secret.DailyIndexIsModulo | app.js:275 | `((days % n) + n) % n` is the non-negative remainder of the day count and lies in [0, n) for any sign of `days` |
| Secret.DailyIndexRotates | app.js:275 | from one day to the next the daily index moves one place, wrapping at the end of the roster |
| Secret.DayCountIsFloor | app.js:271-274 | the day count is the floor of the days since 2024-01-01 UTC |
| Secret.GetDailyHero | app.js:269-277 | no hero exactly when the roster is empty; otherwise a roster hero |
| Secret.SameDaySameHero | app.js:269-277 | two instants of one UTC day give the same daily hero |
| Secret.DailyHeroPosition | app.js:269-277 | the daily hero is the entry at the day count modulo the roster length |
| Secret.PickRandom | app.js:265-267 | a roster hero for a non-empty roster, none for an empty one |
| Secret.PickRandomReachesAll | app.js:265-267 | every hero can be drawn |
| Storage.LoadSettings | app.js:146-156 | a stored `classic` or `daily` mode and a stored boolean hard mode are adopted; a setting changes only when storage holds a valid value for it |
| Storage.SettingsRoundTrip | app.js:146-162 | saved settings load back unchanged |
| Storage.LoadSettingsIgnoresJunk | app.js:149-153 | nothing stored, or something that is not a record, leaves the settings alone |
| Storage.LoadDailyProgress | app.js:207-218 | progress is returned exactly when the stored record's date is today's key |
| Storage.ProgressRoundTrip | app.js:207-227 | saved progress counts as finished exactly on its own date and with a non-empty status |
| Storage.PadStart2 | app.js:201-202 | text of two or more characters is kept; shorter text gets '0's in front up to two characters |
| Storage.Pad2Reads | app.js:201-202 | a number below 100 pads to two digits that read back as the number |
| Storage.DateKeyReads | app.js:199-205 | the date key reads back as its year, month and day |
| Storage.DateKeyInjective | app.js:199-205 | different dates have different keys |
| Storage.DateKey | app.js:199-205 | for an in-range month and day the key is the year's text followed by `-MM-DD` |
| Storage.FormatRemaining | app.js:170-176 | at least eight characters; for a non-negative duration the last two fields are two characters after a colon each; below 100 hours exactly `HH:MM:SS` |
| Storage.FormatRemainingReads | app.js:170-176 | for a non-negative duration the text reads back as hours, minutes below 60 and seconds below 60 adding up to the whole seconds |
| Overrides.Merge | app.js:93-109 | each field of the merge is the override's value when that value replaces, else the base value; the name is never replaced |
| Overrides.MergeKeepsName | app.js:96 | the merged record has the base name and so the same key |
| Overrides.MergeIdempotent | app.js:93-109 | merging the same override twice is merging it once |
| Overrides.MergeEmptyOverride | app.js:97-107 | an override of only empty arrays, nulls and blank or placeholder strings changes nothing |
| Overrides.Put | app.js:87 | `Map.set`: an existing key keeps its place, a new key is appended, keys stay distinct and other entries stay put |
| Overrides.PutLookup | app.js:87 | after `set`, the key reads the new record and every other key reads as before |
| Overrides.BuildBaseLookup | app.js:87 | every key of the catalogue map reads the last catalogue record with that key |
| Overrides.BuildBase | app.js:87 | keys are distinct, there are no more entries than records, and the last record reads back under its own key |
| Overrides.NameKey | app.js:87-90 | the key is a normal form: that of a text name, '' for a missing name |
| Overrides.Meaningful | app.js:97-108 | text replaces exactly when it does not trim to '', '-' or '—'; booleans, numbers and objects always replace, even `false` and `0`; any other replacing value is truthy |
| Overrides.ApplyOverride | app.js:89-111 | a `null` override, and only that, abandons the load; otherwise the map keeps distinct keys and does not shrink |
| Overrides.BlankOverrideSkipped | app.js:90-91 | an override whose name normalises to '' changes nothing |
| Overrides.OverrideOnlyIsUnknown | app.js:92-110 | an override for a name missing from the catalogue adds one record, which is repaired with the name `Unknown` |
| Overrides.OverrideKnownKeepsName | app.js:92-110 | an override for a catalogue name merges in place and keeps the catalogue name |
| Overrides.ApplyOverrideTwice | app.js:89-111 | applying the same override again changes nothing more |
| Overrides.ApplyOverrides | app.js:88-112 | the whole load fails exactly when an override is `null` |
| Overrides.LoadRoster | app.js:86-113 | without an override array, one hero per distinct catalogue key |
| Overrides.LoadRosterWithoutOverrides | app.js:86-113 | without overrides each hero is the repair of the last catalogue record with its key |
| Overrides.NullOverrideEmptiesRoster | app.js:71-121 | a `null` override leaves the roster empty |
| Session.StartNew | app.js:280-309 | an empty roster only sets the failure message; otherwise the secret is a roster hero, attempts restart at 0 and the board is cleared; the game is over at once exactly when today's daily game is already finished, and then the board holds only the secret's own row and says the day is completed |
| Session.StartNewDailySecret | app.js:285 | in daily mode the secret is the daily hero |
| Session.Boot | app.js:127-145 | the start-up game satisfies the invariant, with the repaired roster and the loaded settings |
| Session.ProcessGuessWithHero | app.js:575-605 | roster, settings, secret and saved settings are untouched |
| Session.GuessAfterGameOver | app.js:607-608 | a finished game ignores guesses |
| Session.UnresolvedGuessOnlyMessage | app.js:607-612 | blank or unknown input changes the message and nothing else |
| Session.ResolvedGuess | app.js:578-600 | a resolved guess adds one attempt and its row first; the game ends exactly on the secret's name or on the sixth hard-mode attempt; normal mode ends only on a win |
| Session.ResolvedGuessRecords | app.js:581-594 | a finished daily game stores `win` or `lose` for today; classic mode and unfinished games leave storage alone |
| Session.ProcessGuess | app.js:607-614 | a finished game ignores input; blank input only asks for a name; input that names no hero only says so; input that names a hero is `processGuessWithHero` applied to the hero found; roster, settings and secret never change |
| Session.EnterKey | app.js:653-671 | Enter does exactly what the Guess button does |
| Session.Surrender | app.js:678-688 | with a secret, surrender ends the game, puts the secret's own row first, says the hero was given up, stores `surrender` for today in daily mode and counts no attempt, even after a win; without a secret it does nothing |
| Session.SurrenderAfterWin | app.js:678-688 | surrender after a daily win overwrites the stored `win` with `surrender` |
| Session.SelectMode | app.js:690-705 | the chosen mode is set and saved; hard mode is unchanged |
| Session.ToggleHard | app.js:707-714 | the switch sets and saves hard mode |
| Session.ToggleHardSurvivesReload | app.js:707-714 | saved settings are what a reload picks up |
| Session.StartNewInv | app.js:280-309 | starting a game establishes the invariant |
| Session.ProcessGuessWithHeroInv | app.js:575-605 | a guess keeps the invariant, including "a running hard-mode game has attempts left" |
| Session.ProcessGuessInv | app.js:607-614 | typed input keeps the invariant |
| Session.SurrenderInv | app.js:678-688 | surrender keeps the invariant |
| Session.SelectModeInv | app.js:690-705 | the mode buttons keep the invariant |
| Session.ToggleHardInv | app.js:707-714 | the hard-mode switch keeps the invariant |
| Session.FoundHeroHasSecret | app.js:575-613 | a typed name that resolves always meets a secret |
| Session.HardModeEnds | app.js:588-594 | in hard mode, as many resolved guesses as there are attempts left end the game |
| Session.PlayAfterGameOver | app.js:576 | once over, a game stays as it is |
| Session.NormalModeWrongGuesses | app.js:578-601 | wrong guesses in normal mode each count one attempt and one row and never end the game |
| Session.FinishedDailyStaysFinished | app.js:292-302 | a daily game won, lost or given up today shows finished again on restart |
| Session.WinThenRestartBlocked | app.js:292-302 | winning the daily game and restarting the same day shows it finished |
| Session.NextDayPlaysAgain | app.js:292-303 | progress from another day does not block a new game |

## Left out

- Unicode NFD decomposition is not modelled. `\p{Diacritic}` is taken from the Unicode property table up to U+0362: the spacing accents `^`, `` ` ``, `¨`, `¯`, `´`, `·`, `¸`, the modifier letters and combining marks U+02B0-034E, U+0350-0357 and U+035D-0362. Diacritics in later blocks (Greek, Cyrillic, Hebrew and beyond) are not in the set. Because U+02BC and `` ` `` are diacritics, the source strips them before the apostrophe fold, and so does the model. `toLowerCase` covers ASCII and Cyrillic U+0410-042F (plus U+0400-040F). The exact tables belong to the host library.
- Resolver.LexCompare: `localeCompare` is taken as code-point order, since Dafny characters are Unicode scalar values. Locale collation is not modelled. Code-point order also differs from UTF-16 code-unit order when a character outside the Basic Multilingual Plane meets one in U+E000-U+FFFF.
- Resolver.ScoreHero, Resolver.Tier: JavaScript strings are sequences of UTF-16 code units, while Dafny strings are sequences of scalar values. `900 - name.length`, `startsWith` and the `indexOf` position count a character outside the Basic Multilingual Plane as two units in the source and as one in the model.
- `Number(v)` is modelled for integers written in decimal, with optional sign and surrounding whitespace. Fractions, exponents, hexadecimal and `Infinity` read as not-a-number. Years are integers.
- `String(v)` is modelled for integers, text, booleans, `null` and arrays joined with commas. Objects become `[object Object]`.
- Evaluator.AttrPill, Evaluator.AttackPill: the `attrMap[...]` and `attackMap[...]` lookups (app.js:524, 531) also find inherited properties such as `constructor`, which would show the function's text. The model only knows the table entries: the four attribute codes, and `Melee` and `Ranged`, which map to themselves.
- Heroes.NormalizeRecord: the name, gender, attribute, attack type, complexity, internal name and list labels are converted to text with `String` at repair, while the source keeps the raw JSON values. The pills compare those values with `===` (app.js:525, 532, 539, 581) and `includes` (app.js:507, 517). So strict equality across types is not modelled: the number `1` and the text `"1"` match in the model but not in the source. Nor is reference identity: two separate equal arrays or objects match in the model and not in the source. Only `year` keeps its raw value and is compared with strict equality.
- Typed hero fields: a list field that holds something other than an array is read as empty. `.includes` and `.length` on such a value are not modelled.
- Evaluator.EvaluateSelf, Evaluator.YearPill: year equality on two arrays or two objects is false, as for distinct JavaScript objects. Reference identity is not modelled. The source compares the winning hero's own year object with itself (app.js:297, 681), where `===` holds, but the model does not highlight that year.
- Catalogue entries are assumed to be JSON objects. `null` or primitive entries make the source throw on `h.name`.
- A stored override list that is not an array is ignored, as in the source. A `null` entry makes every fetch path fail alike, so the roster ends empty.
- `server.py`, `fetch` and its fallback paths, `localStorage` reads and writes, `JSON.parse` of stored text, timers, `getMsToNextLocalMidnight`, all DOM work, the icon fallback chain, arrow and Tab navigation in the suggestion list, the hero gallery, and `saveHeroes`. These are I/O and user interface. Their inputs and outputs are parameters or fields of the game record.
- The message line is a tag carrying its values (names, attempts, hard mode), not the English text.
- `letterMatches` is computed in the source and passed to `renderGuessRow`, which never reads it. The model proves its count but does not put it in the hint row.
- Session.ProcessGuessWithHero: when there is no secret, the source throws on `secret.name` before any change, so the model leaves the game unchanged. Session.FoundHeroHasSecret shows that typed input cannot reach this case.
- Resolver.ScoreKeeps: names longer than 900 characters get a negative prefix score and are filtered out; the lemma is stated for names up to 900 characters.
- Resolver.Sort: the source sorts with `Array.prototype.sort`, which is stable. The model uses an insertion sort with the same comparator, and the contracts state sortedness and permutation only. Stability is not stated. Entries that tie under the comparator have the same score, position and normalised name, such as several `Unknown` heroes from override-only entries, so the order among such ties is not promised. When the comparator is inconsistent (match positions of -1 mixed with known ones), the JavaScript order depends on the engine and is not modelled.
- Storage.FormatRemainingReads: stated for non-negative durations, the only ones the countdown passes in.
- Storage.DateKeyReads: stated for non-negative years and in-range months and days, which is what `Date` yields.

=== FILE: evaluator.dfy ===
/** The hint row a guess produces: the match decisions and texts of
    `renderGuessRow` (app.js:464-573) with the gender helpers (app.js:43-59),
    the label tables (app.js:30-31) and `letterMatches` (app.js:448-453). */
module Evaluator {
  import opened Wrappers
  import opened Json
  import Text
  import opened Heroes

  // ---------------------------------------------------------------------
  // Gender
  // ---------------------------------------------------------------------

  /** `canonicalGender` (app.js:43-50): blank or "no gender" spellings give
      `null`, the English and Russian spellings of male and female give
      `'male'` and `'female'`, anything else its trimmed lower-case text. */
  function CanonicalGender(g: string): (r: Option<string>)
    ensures r.Some? ==> r.value != []
    ensures g == [] ==> r.None?
    ensures var s := Text.Lower(Text.Trim(g));
      g != [] && (IsDashOrEmpty(s) || s == "нет" || s == "none") ==> r.None?
    ensures var s := Text.Lower(Text.Trim(g));
      g != [] && s in MaleSpellings ==> r == Some("male")
    ensures var s := Text.Lower(Text.Trim(g));
      g != [] && s in FemaleSpellings ==> r == Some("female")
    ensures var s := Text.Lower(Text.Trim(g));
      (g != [] && !IsDashOrEmpty(s) && s !in {"нет", "none"} && s !in MaleSpellings
       && s !in FemaleSpellings) ==> r == Some(s)
  {
    if g == [] then None
    else
      var s := Text.Lower(Text.Trim(g));
      if IsDashOrEmpty(s) || s == "нет" || s == "none" then None
      else if s in MaleSpellings then Some("male")
      else if s in FemaleSpellings then Some("female")
      else Some(s)
  }

  /** The spellings `canonicalGender` reads as male and as female. */
  const MaleSpellings: set<string> := {"male", "m", "мужской", "мужчина"}
  const FemaleSpellings: set<string> := {"female", "f", "женский", "женщина"}

  /** Canonical values are fixed points: reading a canonical gender again
      gives it back. */
  lemma CanonicalGenderIdempotent(g: string)
    ensures CanonicalGender(g).Some? ==> CanonicalGender(CanonicalGender(g).value) == CanonicalGender(g)
  {
    var c := CanonicalGender(g);
    if c == Some("male") {
      LowerTrimMale();
    } else if c == Some("female") {
      LowerTrimFemale();
    } else if c.Some? {
      Text.LowerTrimStable(g);
    }
  }

  /** `displayGender` (app.js:52-59). */
  function DisplayGender(g: string): (r: string)
    ensures r != []
    ensures CanonicalGender(g) == Some("male") ==> r == "Male"
    ensures CanonicalGender(g) == Some("female") ==> r == "Female"
    ensures CanonicalGender(g) != Some("male") && CanonicalGender(g) != Some("female") ==>
      r == if Text.Trim(g) == [] then "-" else Text.Trim(g)
  {
    var c := CanonicalGender(g);
    if c == Some("male") then "Male"
    else if c == Some("female") then "Female"
    else if g == [] then "-"
    else
      var s := Text.Trim(g);
      if s == [] then "-" else s
  }

  lemma TrimTwice(g: string)
    ensures Text.Trim(Text.Trim(g)) == Text.Trim(g)
  {
    Text.TrimKeeps(Text.Trim(g));
  }

  lemma LowerTrimMale()
    ensures Text.Lower(Text.Trim("Male")) == "male"
    ensures Text.Lower(Text.Trim("male")) == "male"
  {
    Text.TrimKeeps("Male");
    Text.TrimKeeps("male");
    var l := Text.Lower("Male");
    assert l[0] == 'm' && l[1] == 'a' && l[2] == 'l' && l[3] == 'e';
    var l' := Text.Lower("male");
    assert l'[0] == 'm' && l'[1] == 'a' && l'[2] == 'l' && l'[3] == 'e';
  }

  lemma LowerTrimFemale()
    ensures Text.Lower(Text.Trim("Female")) == "female"
    ensures Text.Lower(Text.Trim("female")) == "female"
  {
    Text.TrimKeeps("Female");
    Text.TrimKeeps("female");
    var l := Text.Lower("Female");
    assert l[0] == 'f' && l[1] == 'e' && l[2] == 'm' && l[3] == 'a' && l[4] == 'l' && l[5] == 'e';
    var l' := Text.Lower("female");
    assert l'[0] == 'f' && l'[1] == 'e' && l'[2] == 'm' && l'[3] == 'a' && l'[4] == 'l' && l'[5] == 'e';
  }

  /** A gender shown as its trimmed text reads back alike. */
  lemma DisplayTrimmed(g: string)
    requires g != [] && Text.Trim(g) != []
    requires CanonicalGender(g) != Some("male") && CanonicalGender(g) != Some("female")
    ensures DisplayGender(g) == Text.Trim(g)
    ensures CanonicalGender(Text.Trim(g)) == CanonicalGender(g)
  {
    TrimTwice(g);
  }

  /** A blank gender shows as '-', which has no canonical value. */
  lemma DisplayDash(g: string)
    requires g == [] || Text.Trim(g) == []
    ensures CanonicalGender(g).None?
    ensures DisplayGender(g) == "-"
    ensures CanonicalGender("-").None?
  {
    Text.TrimKeeps("-");
  }

  /** The displayed gender means the same gender: reading the text shown
      back through `canonicalGender` gives the canonical value of the
      original. */
  lemma DisplayKeepsCanonical(g: string)
    ensures CanonicalGender(DisplayGender(g)) == CanonicalGender(g)
  {
    var c := CanonicalGender(g);
    if c == Some("male") {
      LowerTrimMale();
    } else if c == Some("female") {
      LowerTrimFemale();
    } else if g == [] || Text.Trim(g) == [] {
      DisplayDash(g);
    } else {
      DisplayTrimmed(g);
    }
  }

  /** Two genders match when both have a canonical value and the values agree. */
  function GenderMatch(a: string, b: string): (r: bool) {
    CanonicalGender(a).Some? && CanonicalGender(b).Some? && CanonicalGender(a) == CanonicalGender(b)
  }

  /** Two genders match exactly when they read as the same canonical
      value, in either order. */
  lemma GenderMatchIsCanonical(a: string, b: string)
    ensures GenderMatch(a, b) <==> CanonicalGender(a).Some? && CanonicalGender(a) == CanonicalGender(b)
    ensures GenderMatch(a, b) == GenderMatch(b, a)
  {
  }

  /** Spelling variants match: `'M'` and `'Мужской'` are the same gender,
      and `'F'` and `'женщина'` are too. */
  lemma GenderSpellingsMatch()
    ensures GenderMatch("M", "Мужской")
    ensures GenderMatch("F", "женщина")
  {
    SpelledMale();
    SpelledFemale();
  }

  lemma SpelledMale()
    ensures Text.Lower(Text.Trim("M")) == "m"
    ensures Text.Lower(Text.Trim("Мужской")) == "мужской"
  {
    Text.TrimKeeps("M");
    Text.TrimKeeps("Мужской");
    var m := Text.Lower("Мужской");
    assert m[0] == 'м' && m[1] == 'у' && m[2] == 'ж' && m[3] == 'с' && m[4] == 'к' && m[5] == 'о' && m[6] == 'й';
    assert Text.Lower("M")[0] == 'm';
  }

  lemma SpelledFemale()
    ensures Text.Lower(Text.Trim("F")) == "f"
    ensures Text.Lower(Text.Trim("женщина")) == "женщина"
  {
    Text.TrimKeeps("F");
    Text.TrimKeeps("женщина");
    var w := Text.Lower("женщина");
    assert w[0] == 'ж' && w[1] == 'е' && w[2] == 'н' && w[3] == 'щ' && w[4] == 'и' && w[5] == 'н' && w[6] == 'а';
    assert Text.Lower("F")[0] == 'f';
  }

  // ---------------------------------------------------------------------
  // Pills
  // ---------------------------------------------------------------------

  /** A labelled cell of the hint row, highlighted when it matches. */
  datatype Pill = Pill(text: string, matched: bool)

  /** The pills of a list attribute (types, roles): one per guessed label,
      highlighted when the secret has it; an empty list shows one plain '-'. */
  function ListPills(guess: seq<string>, secret: seq<string>): (r: seq<Pill>)
    ensures guess == [] ==> r == [Pill("-", false)]
    ensures guess != [] ==> |r| == |guess|
    ensures guess != [] ==> forall i :: 0 <= i < |guess| ==> r[i].text == guess[i] && (r[i].matched <==> guess[i] in secret)
  {
    if guess == [] then [Pill("-", false)]
    else seq(|guess|, i requires 0 <= i < |guess| => Pill(guess[i], guess[i] in secret))
  }

  /** `attrMap` (app.js:30). */
  function AttrLabel(a: string): Option<string> {
    if a == "STR" then Some("Strength")
    else if a == "AGI" then Some("Agility")
    else if a == "INT" then Some("Intelligence")
    else if a == "UNI" then Some("Universal")
    else None
  }

  /** `attackMap` (app.js:31). */
  function AttackLabel(a: string): Option<string> {
    if a == "Melee" || a == "Ranged" then Some(a) else None
  }

  /** A nullable text field is set (truthy). */
  predicate IsSet(v: Option<string>) {
    v.Some? && v.value != []
  }

  /** `table[v] || v || '-'`. */
  function Shown(v: Option<string>, tag: Option<string>): (r: string)
    ensures r != []
    ensures tag.None? && IsSet(v) ==> r == v.value
    ensures tag.None? && !IsSet(v) ==> r == "-"
  {
    if tag.Some? && tag.value != [] then tag.value
    else if IsSet(v) then v.value
    else "-"
  }

  /** `a && b && a === b` for nullable text. */
  function SameSet(a: Option<string>, b: Option<string>): (r: bool) {
    IsSet(a) && IsSet(b) && a.value == b.value
  }

  /** The attribute pill (app.js:524-527): a known code is spelled out, any
      other set value shown as is, no value as '-'; highlighted when both
      heroes have the same set value. */
  function AttrPill(guess: Option<string>, secret: Option<string>): (p: Pill)
    ensures p.matched <==> IsSet(guess) && guess == secret
    ensures guess.Some? && AttrLabel(guess.value).Some? ==> p.text == AttrLabel(guess.value).value
    ensures (guess.None? || AttrLabel(guess.value).None?) ==> p.text == if IsSet(guess) then guess.value else "-"
  {
    var tag := if guess.Some? then AttrLabel(guess.value) else None;
    Pill(Shown(guess, tag), SameSet(guess, secret))
  }

  /** The attack-type pill (app.js:530-533): `attackMap` maps each known type
      to itself, so the pill shows the set value or '-'. */
  function AttackPill(guess: Option<string>, secret: Option<string>): (p: Pill)
    ensures p.matched <==> IsSet(guess) && guess == secret
    ensures p.text == if IsSet(guess) then guess.value else "-"
  {
    var tag := if guess.Some? then AttackLabel(guess.value) else None;
    Pill(Shown(guess, tag), SameSet(guess, secret))
  }

  /** The complexity pill (app.js:536-540): raw text equality, so two
      placeholders `'-'` match. */
  function ComplexityPill(guess: string, secret: string): (p: Pill)
    ensures p.text != []
    ensures p.text == if guess == [] then "-" else guess
    ensures p.matched <==> secret != [] && p.text == secret
  {
    var comp := if guess == [] then "-" else guess;
    Pill(comp, secret != [] && comp == secret)
  }

  /** An attribute pill spells out the short codes and highlights equal
      set values. */
  lemma AttrPillMeaning(guess: Option<string>, secret: Option<string>)
    ensures AttrPill(guess, secret).matched <==> IsSet(guess) && guess == secret
    ensures guess == Some("STR") ==> AttrPill(guess, secret).text == "Strength"
    ensures guess == Some("AGI") ==> AttrPill(guess, secret).text == "Agility"
    ensures guess == Some("INT") ==> AttrPill(guess, secret).text == "Intelligence"
    ensures guess == Some("UNI") ==> AttrPill(guess, secret).text == "Universal"
    ensures IsSet(guess) && guess.value !in {"STR", "AGI", "INT", "UNI"} ==> AttrPill(guess, secret).text == guess.value
    ensures !IsSet(guess) ==> AttrPill(guess, secret).text == "-"
  {
  }

  // ---------------------------------------------------------------------
  // Year
  // ---------------------------------------------------------------------

  /** `a === b` on JSON values: primitives compare by value; two arrays or
      objects read separately are never identical. */
  predicate StrictEquals(a: Json, b: Json) {
    match (a, b)
    case (JNull, JNull) => true
    case (JBool(x), JBool(y)) => x == y
    case (JNum(x), JNum(y)) => x == y
    case (JStr(x), JStr(y)) => x == y
    case _ => false
  }

  /** The release-year direction marker. */
  datatype Marker = Later | Earlier | NoMarker

  /** The marker of app.js:548-558: both years present, neither the
      placeholder `'-'`, both numeric: `↑` when the secret is later, `↓`
      when it is earlier. */
  function YearMarker(guess: Json, secret: Json): (m: Marker)
    ensures m != NoMarker ==> Truthy(guess) && Truthy(secret) && guess != JStr("-") && secret != JStr("-")
    ensures ToNumber(guess).None? || ToNumber(secret).None? ==> m == NoMarker
    ensures m == Later ==> ToNumber(guess).Some? && ToNumber(secret).Some? && ToNumber(guess).value < ToNumber(secret).value
    ensures m == Earlier ==> ToNumber(guess).Some? && ToNumber(secret).Some? && ToNumber(guess).value > ToNumber(secret).value
  {
    if Truthy(guess) && Truthy(secret) && guess != JStr("-") && secret != JStr("-") then
      match (ToNumber(guess), ToNumber(secret))
      case (Some(g), Some(s)) => if g < s then Later else if g > s then Earlier else NoMarker
      case _ => NoMarker
    else NoMarker
  }

  /** The text of a marker. */
  function MarkerText(m: Marker): string {
    match m
    case Later => " ↑"
    case Earlier => " ↓"
    case NoMarker => ""
  }

  /** The year pill (app.js:543-560): the guessed year (or '-') followed by
      the marker; highlighted when both years are present and identical. */
  function YearPill(guess: Json, secret: Json): (p: Pill)
    ensures p.matched <==> Truthy(guess) && Truthy(secret) && StrictEquals(guess, secret)
    ensures !Truthy(guess) ==> p.text == "-"
    ensures p.text == ToText(if Truthy(guess) then guess else JStr("-")) + MarkerText(YearMarker(guess, secret))
    ensures ToNumber(guess).None? ==> p.text == ToText(if Truthy(guess) then guess else JStr("-"))
  {
    var year := if Truthy(guess) then guess else JStr("-");
    Pill(ToText(year) + MarkerText(YearMarker(guess, secret)),
         Truthy(guess) && Truthy(secret) && StrictEquals(guess, secret))
  }

  /** Swapping guess and secret swaps the arrows. */
  lemma YearMarkerFlip(guess: Json, secret: Json)
    ensures YearMarker(guess, secret) == Later <==> YearMarker(secret, guess) == Earlier
    ensures YearMarker(guess, secret) == NoMarker <==> YearMarker(secret, guess) == NoMarker
  {
  }

  /** For numeric years the arrow points from the guess to the secret; a
      year of 0 counts as missing. */
  lemma YearMarkerNumbers(g: int, s: int)
    ensures g != 0 && s != 0 ==> (YearMarker(JNum(g), JNum(s)) == Later <==> g < s)
    ensures g != 0 && s != 0 ==> (YearMarker(JNum(g), JNum(s)) == Earlier <==> g > s)
    ensures g == 0 || s == 0 || g == s ==> YearMarker(JNum(g), JNum(s)) == NoMarker
  {
  }

  /** The text of an integer is neither blank nor the placeholder. */
  lemma IntTextNotPlaceholder(n: int)
    ensures IntToText(n) != [] && IntToText(n) != "-"
  {
    if n < 0 {
      assert |IntToText(n)| >= 2;
    } else {
      assert '0' <= IntToText(n)[0] <= '9';
    }
  }

  /** Numeric text years compare as numbers: `"2010"` against `"2012"`
      points up. */
  lemma YearMarkerText(g: int, s: int)
    requires g != 0 && s != 0
    ensures YearMarker(JStr(IntToText(g)), JStr(IntToText(s))) == YearMarker(JNum(g), JNum(s))
  {
    ParseIntToText(g);
    ParseIntToText(s);
    IntTextNotPlaceholder(g);
    IntTextNotPlaceholder(s);
    MarkerOfNumbers(JStr(IntToText(g)), JStr(IntToText(s)), g, s);
    MarkerOfNumbers(JNum(g), JNum(s), g, s);
  }

  /** Two present, non-placeholder years that convert to numbers are
      marked by comparing those numbers. */
  lemma MarkerOfNumbers(a: Json, b: Json, g: int, s: int)
    requires Truthy(a) && Truthy(b) && a != JStr("-") && b != JStr("-")
    requires ToNumber(a) == Some(g) && ToNumber(b) == Some(s)
    ensures YearMarker(a, b) == if g < s then Later else if g > s then Earlier else NoMarker
  {
  }

  // ---------------------------------------------------------------------
  // The row
  // ---------------------------------------------------------------------

  /** One row of the guesses table. */
  datatype HintRow = HintRow(
    name: string,
    gender: Pill,
    types: seq<Pill>,
    roles: seq<Pill>,
    attr: Pill,
    attack: Pill,
    complexity: Pill,
    year: Pill)

  /** The gender pill (app.js:496-500): the displayed gender, which reads
      back as the same canonical value, highlighted when both genders have
      the same canonical value. */
  function GenderPill(guess: string, secret: string): (p: Pill)
    ensures p.matched <==> CanonicalGender(guess).Some? && CanonicalGender(guess) == CanonicalGender(secret)
    ensures CanonicalGender(p.text) == CanonicalGender(guess)
    ensures guess == [] ==> p.text == "—"
  {
    var raw := if guess == [] then "—" else guess;
    DisplayKeepsCanonical(raw);
    Text.TrimKeeps("—");
    Pill(DisplayGender(raw), GenderMatch(guess, secret))
  }

  /** The hint row for `guess` against `secret` (app.js:464-573). */
  function Evaluate(guess: Hero, secret: Hero): (r: HintRow)
    ensures r.name == guess.name
    ensures r.gender.matched <==> CanonicalGender(guess.gender).Some? && CanonicalGender(guess.gender) == CanonicalGender(secret.gender)
    ensures guess.types != [] ==> (|r.types| == |guess.types| &&
      forall i :: 0 <= i < |guess.types| ==> r.types[i].text == guess.types[i] && (r.types[i].matched <==> guess.types[i] in secret.types))
    ensures guess.roles != [] ==> (|r.roles| == |guess.roles| &&
      forall i :: 0 <= i < |guess.roles| ==> r.roles[i].text == guess.roles[i] && (r.roles[i].matched <==> guess.roles[i] in secret.roles))
    ensures r.attr.matched <==> IsSet(guess.attr) && guess.attr == secret.attr
    ensures r.attack.matched <==> IsSet(guess.attack) && guess.attack == secret.attack
    ensures r.complexity.matched <==> secret.complexity != [] && (if guess.complexity == [] then "-" else guess.complexity) == secret.complexity
    ensures r.year.matched <==> Truthy(guess.year) && Truthy(secret.year) && StrictEquals(guess.year, secret.year)
  {
    HintRow(
      name := guess.name,
      gender := GenderPill(guess.gender, secret.gender),
      types := ListPills(guess.types, secret.types),
      roles := ListPills(guess.roles, secret.roles),
      attr := AttrPill(guess.attr, secret.attr),
      attack := AttackPill(guess.attack, secret.attack),
      complexity := ComplexityPill(guess.complexity, secret.complexity),
      year := YearPill(guess.year, secret.year))
  }

  /** Whether every pill of a row is highlighted. */
  predicate AllMatched(row: HintRow) {
    && row.gender.matched
    && (forall i :: 0 <= i < |row.types| ==> row.types[i].matched)
    && (forall i :: 0 <= i < |row.roles| ==> row.roles[i].matched)
    && row.attr.matched && row.attack.matched && row.complexity.matched && row.year.matched
  }

  /** Evaluating a hero against itself highlights each cell exactly when the
      hero has a value there: no gender, attribute or attack type means no
      highlight in that cell, and an empty list shows its plain '-'. Years
      are compared by value, and an array or object year never equals
      another, so under this model it does not light up even against
      itself. In the game the winning row compares one object with itself,
      so `===` holds for such a year; the model leaves that identity out. */
  lemma EvaluateSelf(h: Hero)
    ensures Evaluate(h, h).gender.matched <==> CanonicalGender(h.gender).Some?
    ensures h.types != [] ==> forall i :: 0 <= i < |h.types| ==> Evaluate(h, h).types[i].matched
    ensures h.roles != [] ==> forall i :: 0 <= i < |h.roles| ==> Evaluate(h, h).roles[i].matched
    ensures Evaluate(h, h).attr.matched <==> IsSet(h.attr)
    ensures Evaluate(h, h).attack.matched <==> IsSet(h.attack)
    ensures Evaluate(h, h).complexity.matched <==> h.complexity != []
    ensures Evaluate(h, h).year.matched <==> Truthy(h.year) && !h.year.JArr? && !h.year.JObj?
    ensures Evaluate(h, h).year.text == ToText(if Truthy(h.year) then h.year else JStr("-"))
  {
    var r := Evaluate(h, h);
    assert YearMarker(h.year, h.year) == NoMarker;
    assert r.year.text == ToText(if Truthy(h.year) then h.year else JStr("-")) + [];
  }

  /** A hero with every value present lights up the whole row when guessed
      against itself. */
  lemma EvaluateSelfAllMatched(h: Hero)
    requires CanonicalGender(h.gender).Some? && h.types != [] && h.roles != []
    requires IsSet(h.attr) && IsSet(h.attack) && h.complexity != []
    requires Truthy(h.year) && !h.year.JArr? && !h.year.JObj?
    ensures AllMatched(Evaluate(h, h))
  {
    EvaluateSelf(h);
  }

  /** Whether a cell matches does not depend on which hero is the guess
      (the list cells do: they are per guessed tag). */
  lemma MatchSymmetric(a: Hero, b: Hero)
    ensures Evaluate(a, b).gender.matched == Evaluate(b, a).gender.matched
    ensures Evaluate(a, b).attr.matched == Evaluate(b, a).attr.matched
    ensures Evaluate(a, b).attack.matched == Evaluate(b, a).attack.matched
    ensures Evaluate(a, b).year.matched == Evaluate(b, a).year.matched
    ensures a.complexity != [] && b.complexity != [] ==>
      Evaluate(a, b).complexity.matched == Evaluate(b, a).complexity.matched
  {
  }

  // ---------------------------------------------------------------------
  // Shared letters
  // ---------------------------------------------------------------------

  predicate IsAsciiLetter(c: char) {
    'a' <= c <= 'z' || 'A' <= c <= 'Z'
  }

  function AsciiLower(c: char): char {
    if 'A' <= c <= 'Z' then (c as int + 32) as char else c
  }

  /** The letter a character contributes: its lower case, if it is an
      ASCII letter. */
  function LetterOf(c: char): set<char> {
    if IsAsciiLetter(c) then {AsciiLower(c)} else {}
  }

  /** The distinct lower-cased ASCII letters of `s`. */
  function LetterSet(s: string): set<char> {
    if s == [] then {} else LetterSet(s[..|s| - 1]) + LetterOf(s[|s| - 1])
  }

  /** How many of the letters of `s` are in `other`. */
  function Shared(s: string, other: set<char>): nat {
    |LetterSet(s) * other|
  }

  /** One step of the loop: the letters seen grow by the next character's
      letter, and the shared count by one exactly when that letter is new
      and shared. */
  lemma LetterStep(a: string, i: nat, seen: set<char>, other: set<char>)
    requires i < |a| && seen == LetterSet(a[..i])
    ensures LetterSet(a[..i + 1]) == seen + LetterOf(a[i])
    ensures Shared(a[..i + 1], other) ==
      Shared(a[..i], other) + (if IsAsciiLetter(a[i]) && AsciiLower(a[i]) !in seen && AsciiLower(a[i]) in other then 1 else 0)
  {
    assert a[..i + 1][..i] == a[..i];
    if IsAsciiLetter(a[i]) {
      var l := AsciiLower(a[i]);
      if l in seen {
        assert seen + {l} == seen;
      } else if l in other {
        assert (seen + {l}) * other == seen * other + {l};
        assert l !in seen * other;
      } else {
        assert (seen + {l}) * other == seen * other;
      }
    } else {
      assert seen + LetterOf(a[i]) == seen;
    }
  }

  /** One character of `a` folded into the letters seen and the count. */
  method LetterMatchesStep(a: string, i: nat, seen: set<char>, setB: set<char>, n: nat)
    returns (seen': set<char>, n': nat)
    requires i < |a| && seen == LetterSet(a[..i]) && n == Shared(a[..i], setB)
    ensures seen' == LetterSet(a[..i + 1]) && n' == Shared(a[..i + 1], setB)
  {
    LetterStep(a, i, seen, setB);
    n' := n;
    if IsAsciiLetter(a[i]) && AsciiLower(a[i]) !in seen && AsciiLower(a[i]) in setB {
      n' := n + 1;
    }
    seen' := seen + LetterOf(a[i]);
  }

  /** `letterMatches` (app.js:448-453): how many distinct ASCII letters,
      ignoring case, the two names share. */
  method LetterMatches(a: string, b: string) returns (n: nat)
    ensures n == |LetterSet(a) * LetterSet(b)|
  {
    var setB := LetterSet(b);
    var seen: set<char> := {};
    n := 0;
    var i := 0;
    while i < |a|
      invariant 0 <= i <= |a|
      invariant seen == LetterSet(a[..i])
      invariant n == Shared(a[..i], setB)
    {
      seen, n := LetterMatchesStep(a, i, seen, setB, n);
      i := i + 1;
    }
    assert a[..|a|] == a;
  }
}

=== FILE: heroes.dfy ===
/** Hero records: the typed roster entry the game plays with, and the
    repair step that turns a raw catalogue record into one (app.js:130-140),
    including the complexity bucketing of `mapComplexity` (app.js:33-41). */
module Heroes {
  import opened Wrappers
  import opened Json
  import Text

  /** A raw catalogue or override record: a JSON object. A missing key
      reads as `undefined`, which behaves like `null` here. */
  type Record = map<string, Json>

  /** A roster entry after repair. `year` keeps the raw JSON value because
      the game compares years with `===` and parses them with `Number`. */
  datatype Hero = Hero(
    name: string,
    gender: string,
    types: seq<string>,
    roles: seq<string>,
    attr: Option<string>,
    attack: Option<string>,
    complexity: string,
    year: Json,
    internal: Option<string>)

  /** `h[k]`. */
  function Field(h: Record, k: string): Json {
    if k in h then h[k] else JNull
  }

  /** The position among `keys` of the first truthy field, if any. */
  function FirstTruthyIndex(h: Record, keys: seq<string>): (r: Option<nat>)
    ensures r.None? ==> forall i :: 0 <= i < |keys| ==> !Truthy(Field(h, keys[i]))
    ensures r.Some? ==> r.value < |keys| && Truthy(Field(h, keys[r.value]))
    ensures r.Some? ==> forall j :: 0 <= j < r.value ==> !Truthy(Field(h, keys[j]))
  {
    if keys == [] then None
    else if Truthy(Field(h, keys[0])) then Some(0)
    else
      match FirstTruthyIndex(h, keys[1..])
      case Some(i) => Some(i + 1)
      case None => None
  }

  /** `h[k0] || h[k1] || ...` without a final fallback: the first truthy
      field among `keys`, if any. */
  function FirstTruthy(h: Record, keys: seq<string>): (r: Option<Json>)
    ensures r.Some? ==> Truthy(r.value)
  {
    match FirstTruthyIndex(h, keys)
    case Some(i) => Some(Field(h, keys[i]))
    case None => None
  }

  /** A text field: the first truthy value converted with `String`, or `fallback`. */
  function TextOr(h: Record, keys: seq<string>, fallback: string): string {
    match FirstTruthy(h, keys)
    case Some(v) => ToText(v)
    case None => fallback
  }

  /** A nullable text field: the first truthy value converted with `String`, or `null`. */
  function TextOrNull(h: Record, keys: seq<string>): Option<string> {
    match FirstTruthy(h, keys)
    case Some(v) => Some(ToText(v))
    case None => None
  }

  /** The text a label pill shows: setting `textContent` to `null` shows
      nothing, any other value shows as `String` gives it. */
  function Label(v: Json): (r: string)
    ensures v.JNull? ==> r == []
    ensures v.JStr? ==> r == v.s
  {
    if v.JNull? then [] else ToText(v)
  }

  /** A list field: the first truthy value, which the game treats as an
      array of labels; no value gives `[]`. */
  function ListOrEmpty(h: Record, keys: seq<string>): seq<string> {
    match FirstTruthy(h, keys)
    case Some(JArr(items)) => seq(|items|, i requires 0 <= i < |items| => Label(items[i]))
    case _ => []
  }

  /** The three buckets and the placeholder `mapComplexity` produces. */
  predicate IsBucket(s: string) {
    s == "Easy" || s == "Medium" || s == "Hard" || s == "-"
  }

  /** Text the game treats as "no value": empty, `'-'` or `'—'`. */
  predicate IsDashOrEmpty(s: string) {
    s == [] || s == "-" || s == "—"
  }

  /** `mapComplexity` (app.js:33-41): Russian stems or English words pick a
      bucket, the stems checked in the order `легк`, `сред`, `слож`; blank
      or dash text is '-'; anything else passes through as given, untrimmed. */
  function MapComplexity(raw: string): (r: string)
    ensures IsBucket(r) || r == raw
    ensures r != []
    ensures raw == [] ==> r == "-"
    ensures raw != [] && IsDashOrEmpty(Text.Lower(Text.Trim(raw))) ==> r == "-"
    ensures var s := Text.Lower(Text.Trim(raw));
      raw != [] && !IsDashOrEmpty(s) && Text.Contains(s, "легк") ==> r == "Easy"
    ensures var s := Text.Lower(Text.Trim(raw));
      raw != [] && !IsDashOrEmpty(s) && !Text.Contains(s, "легк") && Text.Contains(s, "сред") ==> r == "Medium"
    ensures var s := Text.Lower(Text.Trim(raw));
      (raw != [] && !IsDashOrEmpty(s) && !Text.Contains(s, "легк") && !Text.Contains(s, "сред")
       && Text.Contains(s, "слож")) ==> r == "Hard"
    ensures var s := Text.Lower(Text.Trim(raw));
      (raw != [] && !IsDashOrEmpty(s) && !Text.Contains(s, "легк") && !Text.Contains(s, "сред")
       && !Text.Contains(s, "слож") && s !in {"easy", "medium", "normal", "hard"}) ==> r == raw
  {
    if raw == [] then "-"
    else
      var s := Text.Lower(Text.Trim(raw));
      EnglishLacksStems();
      if IsDashOrEmpty(s) then "-"
      else if Text.Contains(s, "легк") || s == "easy" then "Easy"
      else if Text.Contains(s, "сред") || s == "medium" || s == "normal" then "Medium"
      else if Text.Contains(s, "слож") || s == "hard" then "Hard"
      else raw
  }

  /** No ASCII text contains a word that starts with a non-ASCII letter. */
  lemma AsciiLacksStem(s: string, t: string)
    requires forall i :: 0 <= i < |s| ==> s[i] < '\U{80}'
    requires t != [] && t[0] >= '\U{80}'
    ensures !Text.Contains(s, t)
  {
    forall k | 0 <= k && k + |t| <= |s| ensures !Text.OccursAt(s, t, k) {
      assert s[k..k + |t|][0] != t[0];
    }
  }

  /** The English bucket words contain none of the later Russian stems. */
  lemma EnglishLacksStems()
    ensures !Text.Contains("easy", "сред") && !Text.Contains("easy", "слож")
    ensures !Text.Contains("medium", "слож") && !Text.Contains("normal", "слож")
  {
    AsciiLacksStem("easy", "сред");
    AsciiLacksStem("easy", "слож");
    AsciiLacksStem("medium", "слож");
    AsciiLacksStem("normal", "слож");
  }

  /** The English words pick their bucket whatever their case and padding. */
  lemma MapComplexityEasy(raw: string)
    ensures Text.Lower(Text.Trim(raw)) == "easy" ==> MapComplexity(raw) == "Easy"
  {
    var s := Text.Lower(Text.Trim(raw));
    if s == "easy" {
      assert raw != [];
      AsciiLacksStem(s, "легк");
    }
  }

  lemma MapComplexityMedium(raw: string)
    ensures Text.Lower(Text.Trim(raw)) in {"medium", "normal"} ==> MapComplexity(raw) == "Medium"
  {
    var s := Text.Lower(Text.Trim(raw));
    if s == "medium" || s == "normal" {
      assert raw != [];
      AsciiLacksStem(s, "легк");
      AsciiLacksStem(s, "сред");
    }
  }

  lemma MapComplexityHard(raw: string)
    ensures Text.Lower(Text.Trim(raw)) == "hard" ==> MapComplexity(raw) == "Hard"
  {
    var s := Text.Lower(Text.Trim(raw));
    if s == "hard" {
      assert raw != [];
      AsciiLacksStem(s, "легк");
      AsciiLacksStem(s, "сред");
      AsciiLacksStem(s, "слож");
    }
  }

  lemma LowerTrimEasy()
    ensures Text.Lower(Text.Trim("Easy")) == "easy"
  {
    Text.TrimKeeps("Easy");
    var l := Text.Lower("Easy");
    assert l[0] == 'e' && l[1] == 'a' && l[2] == 's' && l[3] == 'y';
  }

  lemma LowerTrimMedium()
    ensures Text.Lower(Text.Trim("Medium")) == "medium"
  {
    Text.TrimKeeps("Medium");
    var l := Text.Lower("Medium");
    assert l[0] == 'm' && l[1] == 'e' && l[2] == 'd' && l[3] == 'i' && l[4] == 'u' && l[5] == 'm';
  }

  lemma LowerTrimHard()
    ensures Text.Lower(Text.Trim("Hard")) == "hard"
  {
    Text.TrimKeeps("Hard");
    var l := Text.Lower("Hard");
    assert l[0] == 'h' && l[1] == 'a' && l[2] == 'r' && l[3] == 'd';
  }

  lemma LowerTrimDash()
    ensures Text.Lower(Text.Trim("-")) == "-"
  {
    Text.TrimKeeps("-");
  }

  /** Bucketing is stable: a bucketed complexity buckets to itself. */
  lemma MapComplexityIdempotent(raw: string)
    ensures MapComplexity(MapComplexity(raw)) == MapComplexity(raw)
  {
    var r := MapComplexity(raw);
    if r == "Easy" {
      LowerTrimEasy();
      MapComplexityEasy(r);
    } else if r == "Medium" {
      LowerTrimMedium();
      MapComplexityMedium(r);
    } else if r == "Hard" {
      LowerTrimHard();
      MapComplexityHard(r);
    } else if r == "-" {
      LowerTrimDash();
    }
  }

  // The field names the repair reads, in the order of their `||` chains.
  const NameKeys: seq<string> := ["name"]
  const GenderKeys: seq<string> := ["gender"]
  const TypesKeys: seq<string> := ["types", "videos"]
  const RolesKeys: seq<string> := ["roles", "positions"]
  const AttrKeys: seq<string> := ["attr", "atribut", "attribute"]
  const AttackKeys: seq<string> := ["attack"]
  const ComplexityKeys: seq<string> := ["complexity", "сложность", "complexity"]
  const YearKeys: seq<string> := ["year", "год"]
  const InternalKeys: seq<string> := ["internal"]

  /** The record repair of app.js:130-140, with the legacy field names
      (`videos`, `positions`, `atribut`, `attribute`, `сложность`, `год`)
      and the fallbacks `'Unknown'`, `'—'`, `[]`, `null` and `'-'`. */
  function NormalizeRecord(h: Record): (r: Hero)
    ensures Truthy(r.year)
    ensures r.complexity != [] && (IsBucket(r.complexity) || r.complexity == TextOr(h, ComplexityKeys, "-"))
  {
    Hero(
      name := TextOr(h, NameKeys, "Unknown"),
      gender := TextOr(h, GenderKeys, "—"),
      types := ListOrEmpty(h, TypesKeys),
      roles := ListOrEmpty(h, RolesKeys),
      attr := TextOrNull(h, AttrKeys),
      attack := TextOrNull(h, AttackKeys),
      complexity := MapComplexity(TextOr(h, ComplexityKeys, "-")),
      year := FirstTruthy(h, YearKeys).GetOr(JStr("-")),
      internal := TextOrNull(h, InternalKeys))
  }

  /** What the repair guarantees of every record, however malformed: a
      missing name becomes the placeholder `'Unknown'`, a present string
      name is kept, a missing gender becomes `'—'`, a missing attack type
      becomes `null`. */
  lemma NormalizeRecordFallbacks(h: Record)
    ensures !Truthy(Field(h, "name")) ==> NormalizeRecord(h).name == "Unknown"
    ensures Field(h, "name").JStr? && Field(h, "name").s != [] ==> NormalizeRecord(h).name == Field(h, "name").s
    ensures !Truthy(Field(h, "gender")) ==> NormalizeRecord(h).gender == "—"
    ensures NormalizeRecord(h).attack.Some? <==> Truthy(Field(h, "attack"))
  {
    var r := NormalizeRecord(h);
    assert r.name == TextOr(h, NameKeys, "Unknown") && r.gender == TextOr(h, GenderKeys, "—");
    assert r.attack == TextOrNull(h, AttackKeys);
    SingleKeyText(h, "name", "Unknown");
    SingleKeyText(h, "gender", "—");
    SingleKeyNullable(h, "attack");
  }

  /** A text field read from one key: the fallback when it is falsy, the
      text itself when it is non-empty text. */
  lemma SingleKeyText(h: Record, k: string, fallback: string)
    ensures !Truthy(Field(h, k)) ==> TextOr(h, [k], fallback) == fallback
    ensures Field(h, k).JStr? && Field(h, k).s != [] ==> TextOr(h, [k], fallback) == Field(h, k).s
  {
    assert [k][0] == k;
  }

  /** A nullable text field read from one key is set exactly when the value is truthy. */
  lemma SingleKeyNullable(h: Record, k: string)
    ensures TextOrNull(h, [k]).Some? <==> Truthy(Field(h, k))
  {
    assert [k][0] == k;
  }

  /** The repaired year is always truthy, and the repaired complexity is
      non-empty and already bucketed. */
  lemma NormalizeRecordBucketed(h: Record)
    ensures Truthy(NormalizeRecord(h).year)
    ensures NormalizeRecord(h).complexity != []
    ensures MapComplexity(NormalizeRecord(h).complexity) == NormalizeRecord(h).complexity
  {
    MapComplexityIdempotent(TextOr(h, ComplexityKeys, "-"));
  }

  /** No field among `keys` holds an array. */
  predicate NotArrays(h: Record, keys: seq<string>) {
    forall i :: 0 <= i < |keys| ==> !Field(h, keys[i]).JArr?
  }

  /** No text field holds an array (an empty array is truthy but prints as
      nothing, so it would not survive a second repair). */
  predicate TextFieldsNotArrays(h: Record) {
    && NotArrays(h, NameKeys) && NotArrays(h, GenderKeys) && NotArrays(h, AttrKeys)
    && NotArrays(h, AttackKeys) && NotArrays(h, ComplexityKeys) && NotArrays(h, InternalKeys)
  }

  /** A nullable text value as stored. */
  function TextOrNullValue(t: Option<string>): Json {
    if t.Some? then JStr(t.value) else JNull
  }

  /** A list of labels as stored. */
  function LabelsValue(ls: seq<string>): (v: Json)
    ensures v.JArr? && |v.items| == |ls|
    ensures forall i :: 0 <= i < |ls| ==> v.items[i] == JStr(ls[i])
  {
    JArr(seq(|ls|, i requires 0 <= i < |ls| => JStr(ls[i])))
  }

  /** A repaired hero written back as a record, as it would be stored. */
  function ToRecord(x: Hero): Record {
    map[
      "name" := JStr(x.name),
      "gender" := JStr(x.gender),
      "types" := LabelsValue(x.types),
      "roles" := LabelsValue(x.roles),
      "attr" := TextOrNullValue(x.attr),
      "attack" := TextOrNullValue(x.attack),
      "complexity" := JStr(x.complexity),
      "year" := x.year,
      "internal" := TextOrNullValue(x.internal)]
  }

  /** Reading a record in which only the first of `keys` can be present. */
  lemma ReadBack(r: Record, keys: seq<string>)
    requires |keys| > 0
    requires forall i :: 1 <= i < |keys| ==> keys[i] == keys[0] || keys[i] !in r
    ensures FirstTruthy(r, keys) == if Truthy(Field(r, keys[0])) then Some(Field(r, keys[0])) else None
  {
    var k := FirstTruthyIndex(r, keys);
    if k.Some? {
      assert Field(r, keys[k.value]) == Field(r, keys[0]);
    }
  }

  lemma TextOrStable(h: Record, r: Record, keys: seq<string>, fallback: string)
    requires fallback != [] && NotArrays(h, keys)
    requires |keys| > 0 && forall i :: 1 <= i < |keys| ==> keys[i] == keys[0] || keys[i] !in r
    requires Field(r, keys[0]) == JStr(TextOr(h, keys, fallback))
    ensures TextOr(r, keys, fallback) == TextOr(h, keys, fallback)
  {
    var k := FirstTruthyIndex(h, keys);
    assert k.Some? ==> ToText(Field(h, keys[k.value])) != [];
    ReadBack(r, keys);
  }

  lemma TextOrNullStable(h: Record, r: Record, keys: seq<string>)
    requires NotArrays(h, keys)
    requires |keys| > 0 && forall i :: 1 <= i < |keys| ==> keys[i] !in r
    requires Field(r, keys[0]) == TextOrNullValue(TextOrNull(h, keys))
    ensures TextOrNull(r, keys) == TextOrNull(h, keys)
  {
    var k := FirstTruthyIndex(h, keys);
    assert k.Some? ==> ToText(Field(h, keys[k.value])) != [];
    ReadBack(r, keys);
  }

  lemma ListStable(h: Record, r: Record, keys: seq<string>)
    requires |keys| > 0 && forall i :: 1 <= i < |keys| ==> keys[i] !in r
    requires Field(r, keys[0]) == LabelsValue(ListOrEmpty(h, keys))
    ensures ListOrEmpty(r, keys) == ListOrEmpty(h, keys)
  {
    ReadBack(r, keys);
  }

  lemma ComplexityStable(h: Record, r: Record)
    requires Field(r, "complexity") == JStr(NormalizeRecord(h).complexity)
    requires "сложность" !in r
    ensures MapComplexity(TextOr(r, ComplexityKeys, "-")) == NormalizeRecord(h).complexity
  {
    var c := NormalizeRecord(h).complexity;
    NormalizeRecordBucketed(h);
    BucketReadsBack(c, r);
  }

  /** A stored non-empty bucket reads back as itself. */
  lemma BucketReadsBack(c: string, r: Record)
    requires c != [] && MapComplexity(c) == c
    requires Field(r, "complexity") == JStr(c) && "сложность" !in r
    ensures MapComplexity(TextOr(r, ComplexityKeys, "-")) == c
  {
    ReadBack(r, ComplexityKeys);
  }

  lemma YearStable(h: Record, r: Record)
    requires Field(r, "year") == NormalizeRecord(h).year
    requires "год" !in r
    ensures FirstTruthy(r, YearKeys).GetOr(JStr("-")) == NormalizeRecord(h).year
  {
    NormalizeRecordBucketed(h);
    ReadBack(r, YearKeys);
  }

  /** What a stored hero reads back as, field by field; the legacy field
      names are absent. */
  lemma ToRecordReads(x: Hero)
    ensures Field(ToRecord(x), "name") == JStr(x.name)
    ensures Field(ToRecord(x), "gender") == JStr(x.gender)
    ensures Field(ToRecord(x), "types") == LabelsValue(x.types)
    ensures Field(ToRecord(x), "roles") == LabelsValue(x.roles)
    ensures Field(ToRecord(x), "attr") == TextOrNullValue(x.attr)
    ensures Field(ToRecord(x), "attack") == TextOrNullValue(x.attack)
    ensures Field(ToRecord(x), "complexity") == JStr(x.complexity)
    ensures Field(ToRecord(x), "year") == x.year
    ensures Field(ToRecord(x), "internal") == TextOrNullValue(x.internal)
    ensures "videos" !in ToRecord(x) && "positions" !in ToRecord(x)
    ensures "atribut" !in ToRecord(x) && "attribute" !in ToRecord(x)
    ensures "сложность" !in ToRecord(x) && "год" !in ToRecord(x)
  {
  }

  lemma NameStable(h: Record, r: Record)
    requires TextFieldsNotArrays(h)
    requires Field(r, "name") == JStr(NormalizeRecord(h).name)
    ensures NormalizeRecord(r).name == NormalizeRecord(h).name
  {
    TextOrStable(h, r, NameKeys, "Unknown");
  }

  lemma GenderStable(h: Record, r: Record)
    requires TextFieldsNotArrays(h)
    requires Field(r, "gender") == JStr(NormalizeRecord(h).gender)
    ensures NormalizeRecord(r).gender == NormalizeRecord(h).gender
  {
    TextOrStable(h, r, GenderKeys, "—");
  }

  lemma AttrStable(h: Record, r: Record)
    requires TextFieldsNotArrays(h)
    requires Field(r, "attr") == TextOrNullValue(NormalizeRecord(h).attr)
    requires "atribut" !in r && "attribute" !in r
    ensures NormalizeRecord(r).attr == NormalizeRecord(h).attr
  {
    TextOrNullStable(h, r, AttrKeys);
  }

  lemma AttackStable(h: Record, r: Record)
    requires TextFieldsNotArrays(h)
    requires Field(r, "attack") == TextOrNullValue(NormalizeRecord(h).attack)
    ensures NormalizeRecord(r).attack == NormalizeRecord(h).attack
  {
    TextOrNullStable(h, r, AttackKeys);
  }

  lemma InternalStable(h: Record, r: Record)
    requires TextFieldsNotArrays(h)
    requires Field(r, "internal") == TextOrNullValue(NormalizeRecord(h).internal)
    ensures NormalizeRecord(r).internal == NormalizeRecord(h).internal
  {
    TextOrNullStable(h, r, InternalKeys);
  }

  lemma ListsStable(h: Record, r: Record)
    requires Field(r, "types") == LabelsValue(NormalizeRecord(h).types)
    requires Field(r, "roles") == LabelsValue(NormalizeRecord(h).roles)
    requires "videos" !in r && "positions" !in r
    ensures NormalizeRecord(r).types == NormalizeRecord(h).types
    ensures NormalizeRecord(r).roles == NormalizeRecord(h).roles
  {
    ListStable(h, r, TypesKeys);
    ListStable(h, r, RolesKeys);
  }

  /** Repair is a fixed point: storing a repaired hero and repairing it
      again gives the same hero. */
  lemma NormalizeRecordStable(h: Record)
    requires TextFieldsNotArrays(h)
    ensures NormalizeRecord(ToRecord(NormalizeRecord(h))) == NormalizeRecord(h)
  {
    var x := NormalizeRecord(h);
    var r := ToRecord(x);
    ToRecordReads(x);
    NameStable(h, r);
    GenderStable(h, r);
    AttrStable(h, r);
    AttackStable(h, r);
    InternalStable(h, r);
    ListsStable(h, r);
    ComplexityStable(h, r);
    YearStable(h, r);
  }
}

=== FILE: json.dfy ===
/** The JSON values the game reads from its catalogue and from browser
    storage, with the JavaScript conversions the code applies to them:
    truthiness, `String(v)` and `Number(v)`. */
module Json {
  import opened Wrappers
  import Text

  /** A parsed JSON value. Numbers are integers here. */
  datatype Json =
    | JNull
    | JBool(b: bool)
    | JNum(n: int)
    | JStr(s: string)
    | JArr(items: seq<Json>)
    | JObj(fields: map<string, Json>)

  /** JavaScript truthiness: `null`, `false`, `0` and `''` are falsy; every
      array and object is truthy, even an empty one. */
  predicate Truthy(v: Json) {
    match v
    case JNull => false
    case JBool(b) => b
    case JNum(n) => n != 0
    case JStr(s) => s != []
    case JArr(_) => true
    case JObj(_) => true
  }

  /** The decimal digit for `d`. */
  function DigitChar(d: nat): (c: char)
    requires d < 10
    ensures '0' <= c <= '9' && c as int - '0' as int == d
  {
    (d + '0' as int) as char
  }

  /** The decimal representation of a natural number, without leading zeros. */
  function NatToText(n: nat): (r: string)
    ensures |r| > 0
    ensures forall i :: 0 <= i < |r| ==> '0' <= r[i] <= '9'
    ensures |r| > 1 ==> r[0] != '0'
  {
    if n < 10 then [DigitChar(n)] else NatToText(n / 10) + [DigitChar(n % 10)]
  }

  /** `String(n)` for an integer. */
  function IntToText(n: int): string {
    if n < 0 then "-" + NatToText(-n) else NatToText(n)
  }

  /** Whether every character is a decimal digit. */
  predicate AllDigits(s: string) {
    forall i :: 0 <= i < |s| ==> '0' <= s[i] <= '9'
  }

  /** The value of a string of decimal digits. */
  function DigitsValue(s: string): nat
    requires AllDigits(s)
  {
    if s == [] then 0 else DigitsValue(s[..|s| - 1]) * 10 + (s[|s| - 1] as int - '0' as int)
  }

  /** Reading back a decimal representation gives the number. */
  lemma {:induction false} DigitsValueOfNatToText(n: nat)
    ensures DigitsValue(NatToText(n)) == n
  {
    if n >= 10 {
      var t := NatToText(n);
      assert t[..|t| - 1] == NatToText(n / 10);
      DigitsValueOfNatToText(n / 10);
    }
  }

  /** The value of a non-empty run of decimal digits, or `NaN`. */
  function Unsigned(t: string): Option<int> {
    if t != [] && AllDigits(t) then Some(DigitsValue(t)) else None
  }

  /** `Number(t)` for text without surrounding whitespace. */
  function ParseTrimmed(t: string): Option<int> {
    if t == [] then Some(0)
    else if t[0] == '-' then (match Unsigned(t[1..]) case Some(v) => Some(-v) case None => None)
    else if t[0] == '+' then Unsigned(t[1..])
    else Unsigned(t)
  }

  /** `Number(s)` for a string, restricted to integers: surrounding
      whitespace is ignored, blank text is 0, an optional sign may precede
      the digits; anything else is `NaN` (`None`). */
  function ParseNumber(s: string): (r: Option<int>)
    ensures Text.Trim(s) == [] ==> r == Some(0)
    ensures Text.Trim(s) != [] && AllDigits(Text.Trim(s)) ==> r == Some(DigitsValue(Text.Trim(s)))
    ensures var t := Text.Trim(s);
      r.Some? && t != [] ==> AllDigits(t) || ((t[0] == '-' || t[0] == '+') && |t| > 1 && AllDigits(t[1..]))
  {
    ParseTrimmed(Text.Trim(s))
  }

  /** Text without whitespace is its own trim. */
  lemma TrimWithoutSpaces(t: string)
    requires forall i :: 0 <= i < |t| ==> !Text.IsSpace(t[i])
    ensures Text.Trim(t) == t
  {
    Text.TrimKeeps(t);
  }

  lemma ParseDigits(d: string, v: nat)
    requires |d| > 0 && AllDigits(d) && DigitsValue(d) == v
    ensures ParseNumber(d) == Some(v)
  {
    Text.TrimKeeps(d);
    assert d[0] != '-' && d[0] != '+';
  }

  lemma ParseNegativeDigits(d: string, v: nat)
    requires |d| > 0 && AllDigits(d) && DigitsValue(d) == v
    ensures ParseNumber("-" + d) == Some(-(v as int))
  {
    var m := "-" + d;
    assert m[1..] == d && m[|m| - 1] == d[|d| - 1];
    Text.TrimKeeps(m);
    assert Unsigned(m[1..]) == Some(v);
  }

  /** `Number(String(n))` is `n`: integers survive a round trip through text. */
  lemma ParseIntToText(n: int)
    ensures ParseNumber(IntToText(n)) == Some(n)
  {
    if n < 0 {
      var d := NatToText(-n);
      DigitsValueOfNatToText(-n);
      ParseNegativeDigits(d, -n);
    } else {
      var d := NatToText(n);
      DigitsValueOfNatToText(n);
      ParseDigits(d, n);
    }
  }

  /** `String(v)`. Inside an array `null` prints as nothing and the items
      are joined with commas. */
  function ToText(v: Json): (r: string)
    ensures v.JStr? ==> r == v.s
    ensures v.JNum? ==> ParseNumber(r) == Some(v.n)
    ensures !v.JArr? && !v.JStr? ==> r != []
    decreases v
  {
    match v
    case JNull => "null"
    case JBool(b) => if b then "true" else "false"
    case JNum(n) =>
      ParseIntToText(n);
      IntToText(n)
    case JStr(s) => s
    case JArr(items) => JoinItems(items)
    case JObj(_) => "[object Object]"
  }

  /** `Array.prototype.join(',')` over the items of an array. */
  function JoinItems(items: seq<Json>): string
    decreases items
  {
    if items == [] then []
    else
      var head := if items[0] == JNull then "" else ToText(items[0]);
      if |items| == 1 then head else head + "," + JoinItems(items[1..])
  }

  /** `Number(v)`: the number a JSON value converts to, or `None` for `NaN`. */
  function ToNumber(v: Json): (r: Option<int>)
    ensures v.JNum? ==> r == Some(v.n)
    ensures v.JNull? ==> r == Some(0)
    ensures v.JBool? ==> r == Some(if v.b then 1 else 0)
    ensures !v.JNull? && !v.JBool? ==> r == ParseNumber(ToText(v))
  {
    match v
    case JNull => Some(0)
    case JBool(b) => Some(if b then 1 else 0)
    case JNum(n) => Some(n)
    case JStr(s) => ParseNumber(s)
    case _ => ParseNumber(ToText(v))
  }
}

=== FILE: overrides.dfy ===
/** Assembling the roster (app.js:86-113, 127-140): catalogue records are
    keyed by their normalised name in an insertion-ordered map, stored
    overrides are merged field by field into the record with the same key
    (or into an empty record), and every record is repaired into a hero. */
module Overrides {
  import opened Wrappers
  import opened Json
  import Text
  import opened Heroes

  /** `normalize(h.name)`: the key of a record; `normalize` gives `''` for
      a falsy value. */
  function NameKey(r: Record): (key: string)
    ensures Text.IsNormal(key)
    ensures !Truthy(Field(r, "name")) ==> key == []
    ensures Field(r, "name").JStr? ==> key == Text.Normalize(Field(r, "name").s)
  {
    var v := Field(r, "name");
    if Truthy(v) then Text.Normalize(ToText(v)) else []
  }

  /** Whether an override value replaces the base value (app.js:97-108):
      a non-empty array, or a string that does not trim to `''`, `'-'` or
      `'—'`, or any other non-null value. */
  function Meaningful(v: Json): (r: bool)
    ensures v.JStr? ==> (r <==> !IsDashOrEmpty(Text.Trim(v.s)))
    ensures r && (v.JNull? || v.JStr? || v.JArr?) ==> Truthy(v)
    ensures v.JBool? || v.JNum? || v.JObj? ==> r
  {
    match v
    case JNull => false
    case JArr(items) => |items| > 0
    case JStr(s) => !IsDashOrEmpty(Text.Trim(s))
    case _ => true
  }

  /** Whether `o` replaces the field `k`. */
  predicate Replaces(o: Record, k: string) {
    k != "name" && k in o && Meaningful(o[k])
  }

  /** `Object.assign({}, base)` followed by the override loop
      (app.js:93-109). */
  function Merge(base: Record, o: Record): (r: Record)
    ensures forall k :: Field(r, k) == if Replaces(o, k) then o[k] else Field(base, k)
    ensures forall k :: k in r <==> k in base || Replaces(o, k)
  {
    map k | k in base.Keys + o.Keys && (k in base || Replaces(o, k)) :: if Replaces(o, k) then o[k] else base[k]
  }

  /** An override never renames: the merged record has the base name. */
  lemma MergeKeepsName(base: Record, o: Record)
    ensures Field(Merge(base, o), "name") == Field(base, "name")
    ensures NameKey(Merge(base, o)) == NameKey(base)
  {
  }

  /** Applying the same override twice is applying it once. */
  lemma MergeIdempotent(base: Record, o: Record)
    ensures Merge(Merge(base, o), o) == Merge(base, o)
  {
    var m := Merge(base, o);
    var mm := Merge(m, o);
    assert forall k :: k in mm <==> k in m;
    assert forall k :: k in mm ==> mm[k] == Field(mm, k) == Field(m, k) == m[k];
  }

  /** An override with nothing meaningful in it changes nothing. */
  lemma MergeEmptyOverride(base: Record, o: Record)
    requires forall k :: k in o ==> !Replaces(o, k)
    ensures Merge(base, o) == base
  {
    var m := Merge(base, o);
    assert forall k :: k in m ==> m[k] == Field(m, k) == Field(base, k) == base[k];
  }

  // ---------------------------------------------------------------------
  // The insertion-ordered map
  // ---------------------------------------------------------------------

  /** One entry of the `Map`. */
  datatype Entry = Entry(key: string, rec: Record)

  /** No key occurs twice. */
  predicate DistinctKeys(c: seq<Entry>) {
    forall i, j :: 0 <= i < j < |c| ==> c[i].key != c[j].key
  }

  /** The position of key `k`, if present. */
  function KeyIndex(c: seq<Entry>, k: string): (r: Option<nat>)
    ensures r.None? ==> forall i :: 0 <= i < |c| ==> c[i].key != k
    ensures r.Some? ==> r.value < |c| && c[r.value].key == k
  {
    if c == [] then None
    else if c[|c| - 1].key == k then Some(|c| - 1)
    else KeyIndex(c[..|c| - 1], k)
  }

  /** `map.get(k)`. */
  function Lookup(c: seq<Entry>, k: string): Option<Record> {
    match KeyIndex(c, k)
    case Some(i) => Some(c[i].rec)
    case None => None
  }

  /** `map.set(k, r)`: an existing key keeps its place and takes the new
      record; a new key goes to the end. */
  function Put(c: seq<Entry>, k: string, r: Record): (d: seq<Entry>)
    requires DistinctKeys(c)
    ensures DistinctKeys(d)
    ensures Lookup(c, k).Some? ==> |d| == |c|
    ensures Lookup(c, k).None? ==> |d| == |c| + 1 && d[|c|] == Entry(k, r)
    ensures forall i :: 0 <= i < |c| ==> d[i].key == c[i].key
    ensures forall i :: 0 <= i < |c| && c[i].key != k ==> d[i] == c[i]
  {
    match KeyIndex(c, k)
    case Some(i) => c[i := Entry(k, r)]
    case None => c + [Entry(k, r)]
  }

  /** After `map.set(k, r)`, `k` reads `r` and every other key reads as
      before. */
  lemma PutLookup(c: seq<Entry>, k: string, r: Record, k2: string)
    requires DistinctKeys(c)
    ensures Lookup(Put(c, k, r), k2) == if k2 == k then Some(r) else Lookup(c, k2)
  {
    var d := Put(c, k, r);
    var i2 := KeyIndex(d, k2);
    var j2 := KeyIndex(c, k2);
    if i2.Some? && i2.value < |c| {
      assert d[i2.value].key == c[i2.value].key;
    }
    if j2.Some? {
      assert d[j2.value].key == k2;
    }
  }

  // ---------------------------------------------------------------------
  // Building the roster
  // ---------------------------------------------------------------------

  /** The catalogue keyed by name (app.js:87): a later record with the same
      key replaces an earlier one in its place. */
  function BuildBase(base: seq<Record>): (c: seq<Entry>)
    ensures DistinctKeys(c)
    ensures |c| <= |base|
    ensures base != [] ==> Lookup(c, NameKey(base[|base| - 1])) == Some(base[|base| - 1])
  {
    if base == [] then []
    else
      var last := base[|base| - 1];
      var prev := BuildBase(base[..|base| - 1]);
      PutLookup(prev, NameKey(last), last, NameKey(last));
      Put(prev, NameKey(last), last)
  }

  /** The last catalogue record with key `k`. */
  function LastWithKey(base: seq<Record>, k: string): Option<Record> {
    if base == [] then None
    else if NameKey(base[|base| - 1]) == k then Some(base[|base| - 1])
    else LastWithKey(base[..|base| - 1], k)
  }

  /** Every key reads the last catalogue record that has it. */
  lemma {:induction false} BuildBaseLookup(base: seq<Record>, k: string)
    ensures Lookup(BuildBase(base), k) == LastWithKey(base, k)
  {
    if base != [] {
      var last := base[|base| - 1];
      BuildBaseLookup(base[..|base| - 1], k);
      PutLookup(BuildBase(base[..|base| - 1]), NameKey(last), last, k);
    }
  }

  /** One stored override (app.js:89-111). A `null` entry makes the
      property read throw, which abandons the whole load (`None`); entries
      that are not records, and records whose name normalises to `''`, are
      skipped. */
  function ApplyOverride(c: seq<Entry>, o: Json): (r: Option<seq<Entry>>)
    requires DistinctKeys(c)
    ensures r.Some? ==> DistinctKeys(r.value) && |r.value| >= |c|
    ensures r.None? <==> o.JNull?
  {
    match o
    case JNull => None
    case JObj(f) =>
      var key := NameKey(f);
      if key == [] then Some(c)
      else Some(Put(c, key, Merge(Lookup(c, key).GetOr(map[]), f)))
    case _ => Some(c)
  }

  /** An override for a name that is not in the catalogue adds a record
      without a `name` (the merge never copies it), which the repair names
      `'Unknown'`. */
  lemma OverrideOnlyIsUnknown(c: seq<Entry>, f: Record)
    requires DistinctKeys(c)
    requires NameKey(f) != [] && Lookup(c, NameKey(f)).None?
    ensures var r := ApplyOverride(c, JObj(f));
      r.Some? && |r.value| == |c| + 1 && NormalizeRecord(r.value[|c|].rec).name == "Unknown"
  {
    var m := Merge(map[], f);
    assert Field(m, "name") == JNull;
    NormalizeRecordFallbacks(m);
  }

  /** An override for a catalogue name merges into that record, in place,
      and keeps its name. */
  lemma OverrideKnownKeepsName(c: seq<Entry>, f: Record)
    requires DistinctKeys(c)
    requires NameKey(f) != [] && Lookup(c, NameKey(f)).Some?
    ensures var r := ApplyOverride(c, JObj(f)); var k := NameKey(f);
      r.Some? && |r.value| == |c|
      && Lookup(r.value, k) == Some(Merge(Lookup(c, k).value, f))
      && Field(Lookup(r.value, k).value, "name") == Field(Lookup(c, k).value, "name")
  {
    var k := NameKey(f);
    PutLookup(c, k, Merge(Lookup(c, k).value, f), k);
    MergeKeepsName(Lookup(c, k).value, f);
  }

  /** An override whose name is blank changes nothing. */
  lemma BlankOverrideSkipped(c: seq<Entry>, f: Record)
    requires DistinctKeys(c) && NameKey(f) == []
    ensures ApplyOverride(c, JObj(f)) == Some(c)
  {
  }

  /** Applying the same override a second time changes nothing more. */
  lemma ApplyOverrideTwice(c: seq<Entry>, f: Record)
    requires DistinctKeys(c)
    ensures var r := ApplyOverride(c, JObj(f));
      r.Some? && ApplyOverride(r.value, JObj(f)) == r
  {
    var k := NameKey(f);
    if k != [] {
      var m := Merge(Lookup(c, k).GetOr(map[]), f);
      var c1 := Put(c, k, m);
      PutLookup(c, k, m, k);
      MergeIdempotent(Lookup(c, k).GetOr(map[]), f);
      var i := KeyIndex(c1, k).value;
      assert c1[i] == Entry(k, m);
      assert c1[i := Entry(k, m)] == c1;
    }
  }

  /** All stored overrides in order. */
  function ApplyOverrides(c: seq<Entry>, os: seq<Json>): (r: Option<seq<Entry>>)
    requires DistinctKeys(c)
    ensures r.Some? ==> DistinctKeys(r.value) && |r.value| >= |c|
    ensures r.None? <==> JNull in os
    decreases |os|
  {
    if os == [] then Some(c)
    else
      match ApplyOverride(c, os[0])
      case None => None
      case Some(c1) =>
        assert os == [os[0]] + os[1..];
        ApplyOverrides(c1, os[1..])
  }

  /** The repaired roster (app.js:86-113 and 127-140). Overrides are used
      only when storage holds an array. */
  function LoadRoster(base: seq<Record>, stored: Option<Json>): (r: seq<Hero>)
    ensures stored.None? || !stored.value.JArr? ==> |r| == |BuildBase(base)|
  {
    var c := BuildBase(base);
    var merged := match stored
      case Some(JArr(items)) => ApplyOverrides(c, items)
      case _ => Some(c);
    match merged
    case None => []
    case Some(m) => seq(|m|, i requires 0 <= i < |m| => NormalizeRecord(m[i].rec))
  }

  /** Without overrides every hero is the repair of the last catalogue
      record with its key, in the order keys first appeared. */
  lemma LoadRosterWithoutOverrides(base: seq<Record>, i: nat)
    requires i < |BuildBase(base)|
    ensures var c := BuildBase(base); var last := LastWithKey(base, c[i].key);
      last.Some? && LoadRoster(base, None)[i] == NormalizeRecord(last.value)
  {
    var c := BuildBase(base);
    BuildBaseLookup(base, c[i].key);
    assert KeyIndex(c, c[i].key) == Some(i);
  }

  /** A `null` among the stored overrides empties the roster. */
  lemma NullOverrideEmptiesRoster(base: seq<Record>, items: seq<Json>)
    requires JNull in items
    ensures LoadRoster(base, Some(JArr(items))) == []
  {
  }
}

=== FILE: resolver.dfy ===
/** Resolving what the player typed: the exact lookup `findHeroByName`
    (app.js:341-352) and the ranked suggestion list of `updateSuggestions`
    (app.js:358-407). */
module Resolver {
  import opened Wrappers
  import Text
  import opened Heroes

  // ---------------------------------------------------------------------
  // Lookup
  // ---------------------------------------------------------------------

  /** The matching rule of `findHeroByName`: the normalised names agree, or
      the query has letters and the letters-only names agree. Initials play
      no part. */
  predicate Matches(h: Hero, query: string) {
    || Text.Normalize(h.name) == Text.Normalize(query)
    || (Text.Letters(query) != [] && Text.Letters(h.name) == Text.Letters(query))
  }

  /** With letters in the query, a hero matches exactly when its name has
      the same letters (equal normal forms already imply that); without
      letters, only the normal forms decide. */
  lemma MatchesByLetters(h: Hero, query: string)
    ensures Text.Letters(query) != [] ==> (Matches(h, query) <==> Text.Letters(h.name) == Text.Letters(query))
    ensures Text.Letters(query) == [] ==> (Matches(h, query) <==> Text.Normalize(h.name) == Text.Normalize(query))
  {
    if Text.Normalize(h.name) == Text.Normalize(query) {
      SameNormalSameLetters(h.name, query);
    }
  }

  /** The first true entry at or after `k`. */
  function FirstHit(hits: seq<bool>, k: nat): (r: Option<nat>)
    ensures r.None? ==> forall i :: k <= i < |hits| ==> !hits[i]
    ensures r.Some? ==> k <= r.value < |hits| && hits[r.value]
    ensures r.Some? ==> forall j :: k <= j < r.value ==> !hits[j]
    decreases |hits| - k
  {
    if k >= |hits| then None
    else if hits[k] then Some(k)
    else FirstHit(hits, k + 1)
  }

  /** Which heroes of the roster match the query. */
  function Hits(roster: seq<Hero>, query: string): (r: seq<bool>)
    ensures |r| == |roster|
    ensures forall i :: 0 <= i < |roster| ==> r[i] == Matches(roster[i], query)
  {
    seq(|roster|, i requires 0 <= i < |roster| => Matches(roster[i], query))
  }

  /** The position `heroes.find` stops at, if any: the first matching hero
      in roster order. */
  function FindIndex(roster: seq<Hero>, query: string): (r: Option<nat>)
    ensures r.None? ==> forall i :: 0 <= i < |roster| ==> !Matches(roster[i], query)
    ensures r.Some? ==> r.value < |roster| && Matches(roster[r.value], query)
    ensures r.Some? ==> forall j :: 0 <= j < r.value ==> !Matches(roster[j], query)
  {
    FirstHit(Hits(roster, query), 0)
  }

  /** `findHeroByName` (app.js:341-352). */
  function FindHeroByName(roster: seq<Hero>, query: string): (r: Option<Hero>)
    ensures r.Some? ==> r.value in roster && Matches(r.value, query)
    ensures r.None? <==> forall h :: h in roster ==> !Matches(h, query)
  {
    match FindIndex(roster, query)
    case Some(k) => Some(roster[k])
    case None => None
  }

  /** Two queries with the same normal form have the same letters. */
  lemma SameNormalSameLetters(a: string, b: string)
    requires Text.Normalize(a) == Text.Normalize(b)
    ensures Text.Letters(a) == Text.Letters(b)
  {
  }

  /** The lookup sees only the normal form of the query: spacing, case,
      dash and apostrophe variants of one query resolve alike. */
  lemma FindDependsOnNormalForm(roster: seq<Hero>, a: string, b: string)
    requires Text.Normalize(a) == Text.Normalize(b)
    ensures FindIndex(roster, a) == FindIndex(roster, b)
  {
    SameNormalSameLetters(a, b);
    forall i | 0 <= i < |roster| ensures Matches(roster[i], a) == Matches(roster[i], b) {
    }
    var ra, rb := FindIndex(roster, a), FindIndex(roster, b);
    if ra.Some? && rb.Some? {
      assert !(ra.value < rb.value) && !(rb.value < ra.value);
    }
  }

  /** Normalising a query first changes nothing. */
  lemma FindNormalizedQuery(roster: seq<Hero>, query: string)
    ensures FindIndex(roster, Text.Normalize(query)) == FindIndex(roster, query)
  {
    Text.NormalizeIdempotent(query);
    FindDependsOnNormalForm(roster, Text.Normalize(query), query);
  }

  /** Every hero can be found by its own name, at its position or earlier
      (an earlier hero may share its normal form or its letters). */
  lemma FindOwnName(roster: seq<Hero>, k: nat)
    requires k < |roster|
    ensures FindIndex(roster, roster[k].name).Some?
    ensures FindIndex(roster, roster[k].name).value <= k
  {
    assert Matches(roster[k], roster[k].name);
  }

  /** A query without letters or digits resolves only by its normal form. */
  lemma FindWithoutLetters(roster: seq<Hero>, query: string)
    requires Text.Letters(query) == []
    ensures FindIndex(roster, query).Some? ==>
      Text.Normalize(roster[FindIndex(roster, query).value].name) == Text.Normalize(query)
  {
  }

  // ---------------------------------------------------------------------
  // Suggestion scores
  // ---------------------------------------------------------------------

  /** The separator class `[\s\-]` of the word-start test. */
  predicate IsSeparator(c: char) {
    Text.IsSpace(c) || c == '-'
  }

  /** `/^.+[\s\-]/`: a separator after the first character. */
  predicate HasInnerSeparator(name: string) {
    exists j :: 1 <= j < |name| && IsSeparator(name[j])
  }

  /** The escaped pattern `[\s\-]q`: `q` right after a separator. */
  predicate StartsWord(name: string, q: string) {
    exists j :: 0 <= j < |name| && IsSeparator(name[j]) && Text.OccursAt(name, q, j + 1)
  }

  /** A hero with its suggestion score, its match position and its
      normalised name (the sort key of the last tie-break). */
  datatype Scored = Scored(hero: Hero, score: int, pos: int, key: string)

  /** The score tiers of app.js:367-400 for a normalised name, the
      initials of the name and a non-empty normalised query `q`: exact
      1000, prefix 900 minus the name length, word start 800, substring
      700, initials prefix 600, otherwise -1; with the match position. */
  function Tier(name: string, initials: string, q: string): (r: (int, int))
    ensures r.0 <= 1000
    ensures r.0 == 1000 <==> name == q
    ensures name != q && Text.IsPrefix(q, name) ==> r == (900 - |name|, 0)
    ensures r.1 >= 0 ==> Text.OccursAt(name, q, r.1)
    ensures r.0 in {700, 800} ==> r.1 == Text.IndexOf(name, q)
    ensures (name != q && !Text.IsPrefix(q, name) && HasInnerSeparator(name) && StartsWord(name, q))
      ==> r == (800, Text.IndexOf(name, q))
    ensures (name != q && !Text.IsPrefix(q, name) && !(HasInnerSeparator(name) && StartsWord(name, q))
      && Text.Contains(name, q)) ==> r == (700, Text.IndexOf(name, q))
    ensures (name != q && !Text.IsPrefix(q, name) && !(HasInnerSeparator(name) && StartsWord(name, q))
      && !Text.Contains(name, q)) ==> r == (if Text.IsPrefix(q, initials) then 600 else -1, -1)
  {
    if name == q then (1000, -1)
    else if Text.IsPrefix(q, name) then (900 - |name|, 0)
    else if HasInnerSeparator(name) && StartsWord(name, q) then
      WordStartOccurs(name, q);
      (800, Text.IndexOf(name, q))
    else if Text.Contains(name, q) then (700, Text.IndexOf(name, q))
    else if Text.IsPrefix(q, initials) then (600, -1)
    else (-1, -1)
  }

  /** A separator followed by the query is an occurrence of the query. */
  lemma WordStartOccurs(name: string, q: string)
    requires StartsWord(name, q)
    ensures Text.IndexOf(name, q) >= 0
  {
    var j :| 0 <= j < |name| && IsSeparator(name[j]) && Text.OccursAt(name, q, j + 1);
  }

  /** A hero scored against the query: the score tops out at an exact match
      of the normalised name, and only an exact match reaches it; a known
      position is where the query occurs in the normalised name. */
  function ScoreHero(h: Hero, q: string): (r: Scored)
    ensures r.hero == h && r.key == Text.Normalize(h.name)
    ensures r.score <= 1000
    ensures r.score == 1000 <==> Text.Normalize(h.name) == q
    ensures r.pos >= 0 ==> Text.OccursAt(Text.Normalize(h.name), q, r.pos)
    ensures var name := Text.Normalize(h.name);
      name != q && Text.IsPrefix(q, name) ==> r.score == 900 - |name| && r.pos == 0
    ensures var name := Text.Normalize(h.name);
      (name != q && !Text.IsPrefix(q, name) && HasInnerSeparator(name) && StartsWord(name, q))
      ==> r.score == 800 && r.pos == Text.IndexOf(name, q)
    ensures var name := Text.Normalize(h.name);
      (name != q && !Text.IsPrefix(q, name) && !(HasInnerSeparator(name) && StartsWord(name, q))
      && Text.Contains(name, q)) ==> r.score == 700 && r.pos == Text.IndexOf(name, q)
    ensures var name := Text.Normalize(h.name);
      (name != q && !Text.IsPrefix(q, name) && !(HasInnerSeparator(name) && StartsWord(name, q))
      && !Text.Contains(name, q))
      ==> (r.pos == -1 && r.score == (if Text.IsPrefix(q, Text.GetInitials(h.name)) then 600 else -1))
  {
    var name := Text.Normalize(h.name);
    var t := Tier(name, Text.GetInitials(h.name), q);
    Scored(h, t.0, t.1, name)
  }

  /** The tiers rank the kinds of match: when neither name is the query
      nor starts with it, a match at a word start beats any other match. */
  lemma WordStartRanksFirst(a: Hero, b: Hero, q: string)
    ensures var na, nb := Text.Normalize(a.name), Text.Normalize(b.name);
      (na != q && !Text.IsPrefix(q, na) && HasInnerSeparator(na) && StartsWord(na, q)
       && nb != q && !Text.IsPrefix(q, nb) && !(HasInnerSeparator(nb) && StartsWord(nb, q)))
      ==> ScoreHero(a, q).score > ScoreHero(b, q).score
  {
    var na, nb := Text.Normalize(a.name), Text.Normalize(b.name);
    if na != q && !Text.IsPrefix(q, na) && HasInnerSeparator(na) && StartsWord(na, q)
       && nb != q && !Text.IsPrefix(q, nb) && !(HasInnerSeparator(nb) && StartsWord(nb, q)) {
      TierWordStart(na, Text.GetInitials(a.name), nb, Text.GetInitials(b.name), q);
    }
  }

  /** ... and a match inside the name beats a match of the initials only. */
  lemma InnerMatchRanksAboveInitials(a: Hero, b: Hero, q: string)
    ensures var na, nb := Text.Normalize(a.name), Text.Normalize(b.name);
      (na != q && !Text.IsPrefix(q, na) && Text.Contains(na, q)
       && nb != q && !Text.IsPrefix(q, nb) && !Text.Contains(nb, q))
      ==> ScoreHero(a, q).score > ScoreHero(b, q).score
  {
    var na, nb := Text.Normalize(a.name), Text.Normalize(b.name);
    if na != q && !Text.IsPrefix(q, na) && Text.Contains(na, q)
       && nb != q && !Text.IsPrefix(q, nb) && !Text.Contains(nb, q) {
      TierInnerMatch(na, Text.GetInitials(a.name), nb, Text.GetInitials(b.name), q);
    }
  }

  lemma TierWordStart(na: string, ia: string, nb: string, ib: string, q: string)
    requires na != q && !Text.IsPrefix(q, na) && HasInnerSeparator(na) && StartsWord(na, q)
    requires nb != q && !Text.IsPrefix(q, nb) && !(HasInnerSeparator(nb) && StartsWord(nb, q))
    ensures Tier(na, ia, q).0 == 800 && Tier(nb, ib, q).0 <= 700
  {
  }

  lemma TierInnerMatch(na: string, ia: string, nb: string, ib: string, q: string)
    requires na != q && !Text.IsPrefix(q, na) && Text.Contains(na, q)
    requires nb != q && !Text.IsPrefix(q, nb) && !Text.Contains(nb, q)
    ensures Tier(na, ia, q).0 >= 700 && Tier(nb, ib, q).0 <= 600
  {
    if HasInnerSeparator(nb) && StartsWord(nb, q) {
      WordStartContains(nb, q);
    }
  }

  /** A match at a word start is a match inside the name. */
  lemma WordStartContains(name: string, q: string)
    requires StartsWord(name, q)
    ensures Text.Contains(name, q)
  {
    var j :| 0 <= j < |name| && IsSeparator(name[j]) && Text.OccursAt(name, q, j + 1);
    OccursContains(name, q, j + 1);
  }

  /** An occurrence makes `includes` true. */
  lemma OccursContains(s: string, t: string, k: int)
    requires Text.OccursAt(s, t, k)
    ensures Text.Contains(s, t)
  {
  }

  /** Which heroes are kept: those whose normalised name contains the query
      or whose initials start with it (names longer than 900 characters
      that start with the query would score below zero). */
  lemma ScoreKeeps(h: Hero, q: string)
    requires |Text.Normalize(h.name)| <= 900
    ensures ScoreHero(h, q).score >= 0 <==>
      Text.Contains(Text.Normalize(h.name), q) || Text.IsPrefix(q, Text.GetInitials(h.name))
  {
    TierKeeps(Text.Normalize(h.name), Text.GetInitials(h.name), q);
  }

  lemma TierKeeps(name: string, initials: string, q: string)
    requires |name| <= 900
    ensures Tier(name, initials, q).0 >= 0 <==> Text.Contains(name, q) || Text.IsPrefix(q, initials)
  {
    if name == q || Text.IsPrefix(q, name) {
      OccursContains(name, q, 0);
    } else if HasInnerSeparator(name) && StartsWord(name, q) {
      var j :| 0 <= j < |name| && IsSeparator(name[j]) && Text.OccursAt(name, q, j + 1);
      OccursContains(name, q, j + 1);
    }
  }

  // ---------------------------------------------------------------------
  // Suggestion order
  // ---------------------------------------------------------------------

  /** `a.localeCompare(b)`, taken as code-point order: -1, 0 or 1. */
  function LexCompare(a: string, b: string): (r: int)
    ensures -1 <= r <= 1
    ensures r == 0 <==> a == b
  {
    if a == [] && b == [] then 0
    else if a == [] then -1
    else if b == [] then 1
    else if a[0] < b[0] then -1
    else if a[0] > b[0] then 1
    else
      var r := LexCompare(a[1..], b[1..]);
      assert r == 0 ==> a == [a[0]] + a[1..] && b == [b[0]] + b[1..];
      r
  }

  /** Swapping the operands flips the order. */
  lemma {:induction false} LexCompareFlip(a: string, b: string)
    ensures LexCompare(b, a) == -LexCompare(a, b)
  {
    if a != [] && b != [] && a[0] == b[0] {
      LexCompareFlip(a[1..], b[1..]);
    }
  }

  /** The comparator of app.js:402-406: higher score first, then the
      earlier match position when both are known, then name order. */
  function Compare(a: Scored, b: Scored): (r: int)
    ensures a.score != b.score ==> (r < 0 <==> a.score > b.score)
    ensures a.score == b.score && a.pos >= 0 && b.pos >= 0 && a.pos != b.pos ==> (r < 0 <==> a.pos < b.pos)
    ensures r == 0 ==> a.score == b.score
    ensures a.score == b.score && (a.pos == b.pos || a.pos < 0 || b.pos < 0) ==> r == LexCompare(a.key, b.key)
  {
    if a.score != b.score then b.score - a.score
    else if a.pos != b.pos && a.pos >= 0 && b.pos >= 0 then a.pos - b.pos
    else LexCompare(a.key, b.key)
  }

  /** The comparator is antisymmetric: swapping the entries negates it. */
  lemma CompareFlip(a: Scored, b: Scored)
    ensures Compare(b, a) == -Compare(a, b)
  {
    LexCompareFlip(a.key, b.key);
  }

  /** `a` may stand before `b`. */
  predicate Before(a: Scored, b: Scored) {
    Compare(a, b) <= 0
  }

  /** The comparator is total: of any two entries one may stand first. */
  lemma BeforeTotal(a: Scored, b: Scored)
    ensures Before(a, b) || Before(b, a)
    ensures Before(a, b) ==> a.score >= b.score
  {
    LexCompareFlip(a.key, b.key);
  }

  /** Each entry may stand before the next. */
  predicate Sorted(s: seq<Scored>) {
    forall i :: 0 <= i < |s| - 1 ==> Before(s[i], s[i + 1])
  }

  /** Inserts `x` ahead of the first entry it may stand before. */
  function Insert(x: Scored, s: seq<Scored>): (r: seq<Scored>)
    requires Sorted(s)
    ensures Sorted(r)
    ensures multiset(r) == multiset(s) + multiset{x}
    ensures r[0] == x || (s != [] && r[0] == s[0])
  {
    if s == [] then [x]
    else if Before(x, s[0]) then
      ConsSorted(x, s);
      [x] + s
    else
      BeforeTotal(x, s[0]);
      TailSorted(s);
      var t := Insert(x, s[1..]);
      assert s == [s[0]] + s[1..];
      assert |s| > 1 ==> s[1..][0] == s[1];
      ConsSorted(s[0], t);
      [s[0]] + t
  }

  /** A sorted list stays sorted without its head. */
  lemma TailSorted(s: seq<Scored>)
    requires Sorted(s) && s != []
    ensures Sorted(s[1..])
  {
    assert forall i :: 0 <= i < |s| - 1 ==> s[1..][i] == s[i + 1];
  }

  /** An entry that may stand before the head extends a sorted list. */
  lemma ConsSorted(x: Scored, s: seq<Scored>)
    requires Sorted(s) && (s == [] || Before(x, s[0]))
    ensures Sorted([x] + s)
  {
    var r := [x] + s;
    assert forall i :: 1 <= i < |r| ==> r[i] == s[i - 1];
  }

  /** The stable sort: each entry is inserted ahead of the later entries it
      ties with, so ties keep roster order. */
  function Sort(s: seq<Scored>): (r: seq<Scored>)
    ensures Sorted(r)
    ensures multiset(r) == multiset(s)
  {
    if s == [] then []
    else
      assert s == [s[0]] + s[1..];
      Insert(s[0], Sort(s[1..]))
  }

  /** In a sorted list the scores never increase. */
  lemma {:induction false} SortedScores(s: seq<Scored>)
    requires Sorted(s)
    ensures forall i, j :: 0 <= i < j < |s| ==> s[i].score >= s[j].score
  {
    if |s| > 1 {
      SortedScores(s[1..]);
      BeforeTotal(s[0], s[1]);
      forall i, j | 0 <= i < j < |s| ensures s[i].score >= s[j].score {
        if i > 0 {
          assert s[i] == s[1..][i - 1] && s[j] == s[1..][j - 1];
        } else if j > 1 {
          assert s[1] == s[1..][0] && s[j] == s[1..][j - 1];
        }
      }
    }
  }

  // ---------------------------------------------------------------------
  // The suggestion list
  // ---------------------------------------------------------------------

  /** How many suggestions are shown. */
  const MaxSuggestions := 8

  /** `.filter(x => x.score >= 0)`. */
  function KeepScored(s: seq<Scored>): (r: seq<Scored>)
    ensures forall x :: x in r <==> x in s && x.score >= 0
    ensures multiset(r) <= multiset(s)
  {
    if s == [] then []
    else
      assert s == [s[0]] + s[1..];
      if s[0].score >= 0 then [s[0]] + KeepScored(s[1..]) else KeepScored(s[1..])
  }

  /** Every hero of the roster scored against `q`, in roster order. */
  function ScoreAll(roster: seq<Hero>, q: string): (r: seq<Scored>)
    ensures |r| == |roster|
    ensures forall i :: 0 <= i < |r| ==> r[i] == ScoreHero(roster[i], q)
  {
    seq(|roster|, i requires 0 <= i < |roster| => ScoreHero(roster[i], q))
  }

  /** The scored roster keeps its heroes and their scores. */
  lemma ScoreAllFacts(roster: seq<Hero>, q: string, x: Scored)
    requires x in ScoreAll(roster, q)
    ensures x.hero in roster && x == ScoreHero(x.hero, q)
  {
  }

  /** Sorting keeps exactly the entries it was given. */
  lemma SortMembers(s: seq<Scored>)
    ensures forall x :: x in Sort(s) <==> x in s
  {
    var r := Sort(s);
    assert forall x :: x in r <==> x in multiset(r);
    assert forall x :: x in s <==> x in multiset(s);
  }

  /** The ranked candidates for a normalised query, before truncation. */
  function Ranked(roster: seq<Hero>, q: string): (r: seq<Scored>)
    ensures Sorted(r)
    ensures forall x :: x in r <==> x in ScoreAll(roster, q) && x.score >= 0
    ensures forall i :: 0 <= i < |r| ==> r[i].hero in roster && r[i] == ScoreHero(r[i].hero, q)
  {
    var all := ScoreAll(roster, q);
    var kept := KeepScored(all);
    var r := Sort(kept);
    SortMembers(kept);
    forall i | 0 <= i < |r| ensures r[i].hero in roster && r[i] == ScoreHero(r[i].hero, q) {
      var x := r[i];
      assert x in r;
      assert x in all;
      ScoreAllFacts(roster, q, x);
    }
    r
  }

  /** The first `MaxSuggestions` entries. */
  function Truncate(s: seq<Scored>): (r: seq<Scored>)
    ensures |r| <= MaxSuggestions && |r| <= |s|
    ensures r == s[..|r|]
    ensures |s| <= MaxSuggestions ==> r == s
  {
    if |s| <= MaxSuggestions then s else s[..MaxSuggestions]
  }

  /** Truncation keeps the order. */
  lemma TruncateSorted(s: seq<Scored>)
    requires Sorted(s)
    ensures Sorted(Truncate(s))
  {
    var r := Truncate(s);
    assert forall i :: 0 <= i < |r| ==> r[i] == s[i];
  }

  /** The suggestions of `updateSuggestions` (app.js:358-407): nothing for
      a blank query, otherwise at most eight entries in comparator order. */
  function Suggest(roster: seq<Hero>, query: string): (r: seq<Scored>)
    ensures Text.Normalize(query) == [] ==> r == []
    ensures |r| <= MaxSuggestions
    ensures Sorted(r)
  {
    var q := Text.Trim(Text.Normalize(query));
    Text.TrimNormalize(query);
    if q == [] then []
    else
      var ranked := Ranked(roster, q);
      TruncateSorted(ranked);
      Truncate(ranked)
  }

  /** For a query with a normal form, the suggestions are the first
      entries of the ranking. */
  lemma SuggestRanked(roster: seq<Hero>, query: string)
    requires Text.Normalize(query) != []
    ensures Suggest(roster, query) == Truncate(Ranked(roster, Text.Normalize(query)))
  {
    Text.TrimNormalize(query);
  }

  /** Every suggestion is a roster hero with its own non-negative score. */
  lemma SuggestEntries(roster: seq<Hero>, query: string)
    ensures var r := Suggest(roster, query);
      forall i :: 0 <= i < |r| ==>
        r[i].score >= 0 && r[i].hero in roster && r[i] == ScoreHero(r[i].hero, Text.Normalize(query))
  {
    if Text.Normalize(query) != [] {
      SuggestRanked(roster, query);
      var ranked := Ranked(roster, Text.Normalize(query));
      var r := Truncate(ranked);
      forall i | 0 <= i < |r|
        ensures r[i].score >= 0 && r[i].hero in roster && r[i] == ScoreHero(r[i].hero, Text.Normalize(query))
      {
        assert r[i] == ranked[i] && ranked[i] in ranked;
      }
    }
  }

  /** The shown suggestions are in order of score. */
  lemma SuggestScoresDescend(roster: seq<Hero>, query: string)
    ensures var r := Suggest(roster, query);
      forall i, j :: 0 <= i < j < |r| ==> r[i].score >= r[j].score
  {
    SortedScores(Suggest(roster, query));
  }

  /** Truncating a list ordered by score keeps an entry unless the kept
      entries all score at least as high. */
  lemma TruncateKeepsBest(s: seq<Scored>, x: Scored)
    requires x in s
    requires forall i, j :: 0 <= i < j < |s| ==> s[i].score >= s[j].score
    ensures var r := Truncate(s);
      x in r || (|r| == MaxSuggestions && forall i :: 0 <= i < |r| ==> r[i].score >= x.score)
  {
    var r := Truncate(s);
    var m :| 0 <= m < |s| && s[m] == x;
    if m < |r| {
      assert r[m] == x;
    } else {
      assert forall i :: 0 <= i < |r| ==> r[i] == s[i];
    }
  }

  /** No candidate is dropped unless eight at least as good are shown. */
  lemma SuggestComplete(roster: seq<Hero>, query: string, h: Hero)
    requires Text.Normalize(query) != [] && h in roster
    requires ScoreHero(h, Text.Normalize(query)).score >= 0
    ensures var r := Suggest(roster, query); var x := ScoreHero(h, Text.Normalize(query));
      x in r || (|r| == MaxSuggestions && forall i :: 0 <= i < |r| ==> r[i].score >= x.score)
  {
    RankedHolds(roster, Text.Normalize(query), h);
    SuggestKeepsRanked(roster, query, ScoreHero(h, Text.Normalize(query)));
  }

  /** A ranked candidate is shown unless eight at least as good are. */
  lemma SuggestKeepsRanked(roster: seq<Hero>, query: string, x: Scored)
    requires Text.Normalize(query) != []
    requires x in Ranked(roster, Text.Normalize(query))
    ensures var r := Suggest(roster, query);
      x in r || (|r| == MaxSuggestions && forall i :: 0 <= i < |r| ==> r[i].score >= x.score)
  {
    SuggestRanked(roster, query);
    SuggestKeepsBest(Ranked(roster, Text.Normalize(query)), x);
  }

  lemma SuggestKeepsBest(ranked: seq<Scored>, x: Scored)
    requires Sorted(ranked) && x in ranked
    ensures var r := Truncate(ranked);
      x in r || (|r| == MaxSuggestions && forall i :: 0 <= i < |r| ==> r[i].score >= x.score)
  {
    SortedScores(ranked);
    TruncateKeepsBest(ranked, x);
  }

  /** Every hero that scores is among the ranked candidates. */
  lemma RankedHolds(roster: seq<Hero>, q: string, h: Hero)
    requires h in roster && ScoreHero(h, q).score >= 0
    ensures ScoreHero(h, q) in Ranked(roster, q)
  {
    var k :| 0 <= k < |roster| && roster[k] == h;
    var all := ScoreAll(roster, q);
    var x := ScoreHero(h, q);
    assert all[k] == x;
    KeptIsRanked(roster, q, x);
  }

  /** A scored entry with a non-negative score is ranked. */
  lemma KeptIsRanked(roster: seq<Hero>, q: string, x: Scored)
    requires x in ScoreAll(roster, q) && x.score >= 0
    ensures x in Ranked(roster, q)
  {
  }

  /** A hero whose normalised name is the query is suggested first. */
  lemma SuggestExactFirst(roster: seq<Hero>, query: string, h: Hero)
    requires h in roster && Text.Normalize(query) != []
    requires Text.Normalize(h.name) == Text.Normalize(query)
    ensures var r := Suggest(roster, query);
      r != [] && r[0].score == 1000 && Text.Normalize(r[0].hero.name) == Text.Normalize(query)
  {
    var q := Text.Normalize(query);
    SuggestTopsOut(roster, query, h);
    SuggestEntries(roster, query);
    var r := Suggest(roster, query);
    assert r[0] == ScoreHero(r[0].hero, q);
  }

  /** With an exact match on the roster the first suggestion scores at
      least as high as an exact match. */
  lemma SuggestTopsOut(roster: seq<Hero>, query: string, h: Hero)
    requires h in roster && Text.Normalize(query) != []
    requires Text.Normalize(h.name) == Text.Normalize(query)
    ensures var r := Suggest(roster, query); r != [] && r[0].score >= 1000
  {
    var x := ScoreHero(h, Text.Normalize(query));
    SuggestComplete(roster, query, h);
    TopsOutWith(roster, query, x);
  }

  /** The list starts at least as high as an entry it holds or is full of
      entries at least as good as. */
  lemma TopsOutWith(roster: seq<Hero>, query: string, x: Scored)
    requires x.score >= 1000
    requires var r := Suggest(roster, query);
      x in r || (|r| == MaxSuggestions && forall i :: 0 <= i < |r| ==> r[i].score >= x.score)
    ensures var r := Suggest(roster, query); r != [] && r[0].score >= 1000
  {
    SuggestScoresDescend(roster, query);
    HeadAtLeast(Suggest(roster, query), x);
  }

  /** A list ordered by score that holds `x`, or is full of entries at
      least as good, starts at least as high as `x`. */
  lemma HeadAtLeast(r: seq<Scored>, x: Scored)
    requires forall i, j :: 0 <= i < j < |r| ==> r[i].score >= r[j].score
    requires x in r || (|r| == MaxSuggestions && forall i :: 0 <= i < |r| ==> r[i].score >= x.score)
    ensures r != [] && r[0].score >= x.score
  {
    if x in r {
      var i :| 0 <= i < |r| && r[i] == x;
      assert i == 0 || r[0].score >= r[i].score;
    }
  }
}

=== FILE: secret.dfy ===
/** Choosing the hero to guess: the daily hero of `getDailyHero`
    (app.js:269-277), the same for everyone on one UTC day, and the random
    hero of `pickRandom` (app.js:265-267). */
module Secret {
  import opened Wrappers
  import opened Heroes

  /** Milliseconds in a day. */
  const DayMs: int := 86400000

  /** `Date.UTC(2024, 0, 1)`: 2024-01-01T00:00:00Z in milliseconds. */
  const EpochMs: int := 1704067200000

  /** JavaScript's `a % b` for a positive divisor: the remainder takes the
      sign of `a` (Dafny's `%` never goes negative). */
  function JsRem(a: int, b: int): (r: int)
    requires b > 0
    ensures -b < r < b
    ensures a >= 0 ==> r == a % b
    ensures a < 0 ==> r <= 0 && r == -((-a) % b)
    ensures (a - r) % b == 0
  {
    if a >= 0 then
      DivModUnique(a - a % b, b, a / b, 0);
      a % b
    else
      var q, r0 := (-a) / b, -((-a) % b);
      assert a - r0 == (-q) * b + 0;
      DivModUnique(a - r0, b, -q, 0);
      r0
  }

  /** A positive multiple of `b` is at least `b`. */
  lemma {:induction false} MultipleAtLeast(d: int, b: int)
    requires d >= 1 && b > 0
    ensures d * b >= b
    decreases d
  {
    if d > 1 {
      MultipleAtLeast(d - 1, b);
      assert d * b == (d - 1) * b + b;
    }
  }

  /** Euclidean division is determined by its quotient and remainder. */
  lemma DivModUnique(a: int, b: int, q: int, r: int)
    requires b > 0 && 0 <= r < b && a == q * b + r
    ensures a / b == q && a % b == r
  {
    var q0, r0 := a / b, a % b;
    assert a == q0 * b + r0;
    assert (q - q0) * b == r0 - r by {
      assert (q - q0) * b == q * b - q0 * b;
    }
    if q > q0 {
      MultipleAtLeast(q - q0, b);
    } else if q < q0 {
      MultipleAtLeast(q0 - q, b);
    }
  }

  /** `((days % n) + n) % n` (app.js:275). */
  function DailyIndex(days: int, n: int): int
    requires n > 0
  {
    JsRem(JsRem(days, n) + n, n)
  }

  /** The double remainder undoes JavaScript's sign: the index is the
      mathematical (never negative) remainder of the day count, so it is
      always a valid roster position, for days before the epoch too. */
  lemma DailyIndexIsModulo(days: int, n: int)
    requires n > 0
    ensures DailyIndex(days, n) == days % n
    ensures 0 <= DailyIndex(days, n) < n
  {
    var r1 := JsRem(days, n);
    if days >= 0 {
      DivModUnique(r1 + n, n, 1, r1);
    } else {
      var q, r := (-days) / n, (-days) % n;
      assert -days == q * n + r;
      if r == 0 {
        DivModUnique(days, n, -q, 0);
        DivModUnique(n, n, 1, 0);
      } else {
        DivModUnique(days, n, -q - 1, n - r);
        DivModUnique(n - r, n, 0, n - r);
      }
    }
  }

  /** The remainder of a successor. */
  lemma ModSucc(a: int, n: int)
    requires n > 0
    ensures (a + 1) % n == (a % n + 1) % n
  {
    var q, r := a / n, a % n;
    assert a == q * n + r;
    if r + 1 < n {
      DivModUnique(a + 1, n, q, r + 1);
      DivModUnique(r + 1, n, 0, r + 1);
    } else {
      assert a + 1 == (q + 1) * n;
      DivModUnique(a + 1, n, q + 1, 0);
      DivModUnique(r + 1, n, 1, 0);
    }
  }

  /** From one day to the next the daily hero moves one place along the
      roster, wrapping round at its end. */
  lemma DailyIndexRotates(days: int, n: int)
    requires n > 0
    ensures DailyIndex(days + 1, n) == (DailyIndex(days, n) + 1) % n
  {
    DailyIndexIsModulo(days, n);
    DailyIndexIsModulo(days + 1, n);
    ModSucc(days, n);
  }

  /** The start of the UTC day containing `nowMs` (`Date.UTC` of its UTC
      year, month and day). */
  function UtcMidnight(nowMs: int): int {
    nowMs - nowMs % DayMs
  }

  /** Whole days from the epoch to the UTC day of `nowMs` (app.js:271-274). */
  function DayCount(nowMs: int): int {
    (UtcMidnight(nowMs) - EpochMs) / DayMs
  }

  /** The day count is the floor of the time since the epoch in days. */
  lemma DayCountIsFloor(nowMs: int)
    ensures DayCount(nowMs) == (nowMs - EpochMs) / DayMs
    ensures DayCount(nowMs) == nowMs / DayMs - 19723
  {
    var q, r := nowMs / DayMs, nowMs % DayMs;
    assert EpochMs == 19723 * DayMs;
    DivModUnique(UtcMidnight(nowMs) - EpochMs, DayMs, q - 19723, 0);
    DivModUnique(nowMs - EpochMs, DayMs, q - 19723, r);
  }

  /** `getDailyHero` (app.js:269-277): no hero for an empty roster. */
  function GetDailyHero(roster: seq<Hero>, nowMs: int): (r: Option<Hero>)
    ensures r.None? <==> roster == []
    ensures r.Some? ==> r.value in roster
  {
    if roster == [] then None
    else
      DailyIndexIsModulo(DayCount(nowMs), |roster|);
      Some(roster[DailyIndex(DayCount(nowMs), |roster|)])
  }

  /** Two instants of the same UTC day have the same daily hero. */
  lemma SameDaySameHero(roster: seq<Hero>, a: int, b: int)
    requires a / DayMs == b / DayMs
    ensures GetDailyHero(roster, a) == GetDailyHero(roster, b)
  {
    DayCountIsFloor(a);
    DayCountIsFloor(b);
  }

  /** The daily hero is the roster entry at the day count modulo the
      roster length. */
  lemma DailyHeroPosition(roster: seq<Hero>, nowMs: int)
    requires roster != []
    ensures GetDailyHero(roster, nowMs) == Some(roster[(nowMs / DayMs - 19723) % |roster|])
  {
    DayCountIsFloor(nowMs);
    DailyIndexIsModulo(DayCount(nowMs), |roster|);
  }

  /** `pickRandom` (app.js:265-267) given the value `r` of `Math.random()`,
      which lies in [0, 1): the entry at `floor(r * length)`; an empty
      roster gives no hero. */
  function PickRandom(roster: seq<Hero>, r: real): (h: Option<Hero>)
    requires 0.0 <= r < 1.0
    ensures h.None? <==> roster == []
    ensures h.Some? ==> h.value in roster
  {
    var i := (r * |roster| as real).Floor;
    if roster == [] then None
    else
      assert 0 <= i < |roster| by {
        assert r * |roster| as real < |roster| as real;
      }
      Some(roster[i])
  }

  /** Every hero can be drawn: the value `k / length` draws entry `k`. */
  lemma PickRandomReachesAll(roster: seq<Hero>, k: nat)
    requires k < |roster|
    ensures PickRandom(roster, k as real / |roster| as real) == Some(roster[k])
  {
    var n := |roster| as real;
    assert (k as real / n) * n == k as real;
  }
}

=== FILE: session.dfy ===
/** The game itself (app.js:17-23, 127-145, 280-309, 575-714): one record
    holding the roster, the secret, the guesses so far and what storage
    holds, and one transition function per thing a player can do. The
    clock and `Math.random` come in through `Env`; the text shown to the
    player is reduced to a `Message` tag. */
module Session {
  import opened Wrappers
  import opened Json
  import Text
  import opened Heroes
  import Resolver
  import Evaluator
  import Secret
  import Overrides
  import opened Storage

  /** `HARD_MAX_ATTEMPTS` (app.js:23). */
  const HardMaxAttempts: nat := 6

  /** What the message line says. */
  datatype Message =
    | NoMessage
    | FailedToLoad
    | Started(hard: bool)
    | DailyStarted(hard: bool)
    | DailyCompleted
    | TypeName
    | NotFound
    | Correct(secretName: string)
    | NoAttemptsLeft(attempts: nat, secretName: string)
    | WrongGuess(guessName: string, hard: bool, attempts: nat)
    | GaveUp(secretName: string)

  /** The stored status of a finished daily game. */
  datatype Status = Won | Lost | Surrendered

  function StatusText(s: Status): string {
    match s
    case Won => "win"
    case Lost => "lose"
    case Surrendered => "surrender"
  }

  /** The page's state: the module-level variables of app.js:17-23, the
      rows of the guesses table (newest first) and the two storage slots
      the game writes. */
  datatype Game = Game(
    heroes: seq<Hero>,
    secret: Option<Hero>,
    gameOver: bool,
    settings: Settings,
    attempts: nat,
    rows: seq<Evaluator.HintRow>,
    message: Message,
    progress: Option<Json>,
    savedSettings: Option<Json>)

  /** The outside world at the moment of a transition: the current instant,
      today's local date key and the next value of `Math.random()`. */
  datatype Env = Env(nowMs: int, today: string, rand: real)

  predicate ValidEnv(env: Env) {
    0.0 <= env.rand < 1.0
  }

  /** What every reachable game satisfies: no secret only while the roster
      is empty and nothing has happened, the secret is a roster hero, a
      running hard-mode game has attempts left, and every attempt left a
      row. */
  predicate Inv(g: Game) {
    && (g.secret.None? ==> g.heroes == [] && !g.gameOver && g.attempts == 0 && g.rows == [])
    && (g.secret.Some? ==> g.secret.value in g.heroes)
    && (g.settings.hardMode && !g.gameOver ==> g.attempts < HardMaxAttempts)
    && g.attempts <= |g.rows|
  }

  /** `saveDailyProgress` in daily mode only. */
  function Saved(g: Game, today: string, s: Status): Option<Json> {
    if g.settings.mode == Daily then Some(SaveDailyProgress(today, StatusText(s))) else g.progress
  }

  // ---------------------------------------------------------------------
  // Starting a game
  // ---------------------------------------------------------------------

  /** `startNew` (app.js:280-309). An empty roster only sets the failure
      message. Otherwise the secret is the daily hero or a random one and
      the board is cleared; in daily mode a day already finished shows the
      secret's own row and ends the game at once. */
  function StartNew(g: Game, env: Env): (r: Game)
    requires ValidEnv(env)
    ensures r.heroes == g.heroes && r.settings == g.settings
    ensures r.progress == g.progress && r.savedSettings == g.savedSettings
    ensures g.heroes == [] ==> r == g.(message := FailedToLoad)
    ensures g.heroes != [] ==> r.secret.Some? && r.secret.value in g.heroes && r.attempts == 0
    ensures g.heroes != [] ==>
      (r.gameOver <==> g.settings.mode == Daily && DailyDone(g.progress, env.today))
    ensures g.heroes != [] ==>
      r.rows == (if r.gameOver then [Evaluator.Evaluate(r.secret.value, r.secret.value)] else [])
    ensures g.heroes != [] && r.gameOver ==> r.message == DailyCompleted
  {
    if g.heroes == [] then g.(message := FailedToLoad)
    else
      var daily := g.settings.mode == Daily;
      var secret := if daily then Secret.GetDailyHero(g.heroes, env.nowMs) else Secret.PickRandom(g.heroes, env.rand);
      var cleared := g.(secret := secret, attempts := 0, rows := [], gameOver := false);
      if daily && DailyDone(g.progress, env.today) then
        cleared.(rows := [Evaluator.Evaluate(secret.value, secret.value)], gameOver := true, message := DailyCompleted)
      else if daily then cleared.(message := DailyStarted(g.settings.hardMode))
      else cleared.(message := Started(g.settings.hardMode))
  }

  /** The daily secret is the daily hero of the roster. */
  lemma StartNewDailySecret(g: Game, env: Env)
    requires ValidEnv(env) && g.heroes != [] && g.settings.mode == Daily
    ensures StartNew(g, env).secret == Secret.GetDailyHero(g.heroes, env.nowMs)
  {
  }

  /** The page start-up after the roster loads (app.js:127-145): repair the
      roster, load the settings over the defaults and start a game. */
  function Boot(base: seq<Heroes.Record>, storedHeroes: Option<Json>, storedSettings: Option<Json>,
                progress: Option<Json>, env: Env): (r: Game)
    requires ValidEnv(env)
    ensures Inv(r)
    ensures r.heroes == Overrides.LoadRoster(base, storedHeroes)
    ensures r.settings == LoadSettings(storedSettings, DefaultSettings)
  {
    var g := Game(Overrides.LoadRoster(base, storedHeroes), None, false,
      LoadSettings(storedSettings, DefaultSettings), 0, [], NoMessage, progress, storedSettings);
    StartNewInv(g, env);
    StartNew(g, env)
  }

  // ---------------------------------------------------------------------
  // Guessing
  // ---------------------------------------------------------------------

  /** `processGuessWithHero` (app.js:575-605). Nothing happens once the game
      is over; an unknown hero only sets the message; a known one adds its
      row and an attempt, then wins on the secret's name, loses when hard
      mode has used up its attempts, and otherwise goes on. Without a
      secret (the roster never loaded) the source's `secret.name` throws
      before any change, so the game is left as it was. */
  function ProcessGuessWithHero(g: Game, hero: Option<Hero>, today: string): (r: Game)
    ensures r.heroes == g.heroes && r.settings == g.settings && r.secret == g.secret
    ensures r.savedSettings == g.savedSettings
  {
    if g.gameOver then g
    else if hero.None? then g.(message := NotFound)
    else match g.secret
      case None => g
      case Some(s) =>
        var h := hero.value;
        var next := g.(rows := [Evaluator.Evaluate(h, s)] + g.rows, attempts := g.attempts + 1);
        if h.name == s.name then
          next.(gameOver := true, message := Correct(s.name), progress := Saved(g, today, Won))
        else if g.settings.hardMode && next.attempts >= HardMaxAttempts then
          next.(gameOver := true, message := NoAttemptsLeft(next.attempts, s.name), progress := Saved(g, today, Lost))
        else next.(message := WrongGuess(h.name, g.settings.hardMode, next.attempts))
  }

  /** `processGuess` (app.js:607-614): the trimmed input, looked up. */
  function ProcessGuess(g: Game, input: string, today: string): (r: Game)
    ensures r.heroes == g.heroes && r.settings == g.settings && r.secret == g.secret
    ensures g.gameOver ==> r == g
    ensures !g.gameOver && Text.Trim(input) == [] ==> r == g.(message := TypeName)
    ensures !g.gameOver && Text.Trim(input) != [] && Resolver.FindHeroByName(g.heroes, Text.Trim(input)).None?
      ==> r == g.(message := NotFound)
    ensures !g.gameOver && Text.Trim(input) != [] && Resolver.FindHeroByName(g.heroes, Text.Trim(input)).Some?
      ==> r == ProcessGuessWithHero(g, Resolver.FindHeroByName(g.heroes, Text.Trim(input)), today)
  {
    if g.gameOver then g
    else
      var val := Text.Trim(input);
      if val == [] then g.(message := TypeName)
      else
        match Resolver.FindHeroByName(g.heroes, val)
        case None => g.(message := NotFound)
        case Some(h) => ProcessGuessWithHero(g, Some(h), today)
  }

  /** The Enter key (app.js:653-671): a hero found from the trimmed input is
      guessed at once, anything else goes through `processGuess`. */
  function EnterKey(g: Game, input: string, today: string): (r: Game)
    ensures r == ProcessGuess(g, input, today)
  {
    var val := Text.Trim(input);
    if val != [] && Resolver.FindHeroByName(g.heroes, val).Some? then
      ProcessGuessWithHero(g, Resolver.FindHeroByName(g.heroes, val), today)
    else ProcessGuess(g, input, today)
  }

  /** A finished game ignores guesses. */
  lemma GuessAfterGameOver(g: Game, input: string, hero: Option<Hero>, today: string)
    requires g.gameOver
    ensures ProcessGuess(g, input, today) == g
    ensures ProcessGuessWithHero(g, hero, today) == g
  {
  }

  /** Input that is blank or names no hero changes the message and nothing
      else: in particular no attempt is counted. */
  lemma UnresolvedGuessOnlyMessage(g: Game, input: string, today: string)
    requires !g.gameOver
    requires Text.Trim(input) == [] || Resolver.FindHeroByName(g.heroes, Text.Trim(input)).None?
    ensures ProcessGuess(g, input, today)
      == g.(message := if Text.Trim(input) == [] then TypeName else NotFound)
  {
  }

  /** A guess of a roster hero adds exactly one attempt and puts its hint
      row first. It ends the game exactly when it names the secret or uses
      up hard mode's attempts; a win is the only way a normal-mode game
      ends. */
  lemma ResolvedGuess(g: Game, h: Hero, today: string)
    requires !g.gameOver && g.secret.Some?
    ensures var r := ProcessGuessWithHero(g, Some(h), today); var s := g.secret.value;
      && r.attempts == g.attempts + 1
      && r.rows == [Evaluator.Evaluate(h, s)] + g.rows
      && (r.gameOver <==> h.name == s.name || (g.settings.hardMode && g.attempts + 1 >= HardMaxAttempts))
      && (r.message.Correct? <==> h.name == s.name)
      && (!g.settings.hardMode && r.gameOver ==> h.name == s.name)
  {
  }

  /** A finished daily game records its outcome for today; a classic game
      leaves storage alone. */
  lemma ResolvedGuessRecords(g: Game, h: Hero, today: string)
    requires !g.gameOver && g.secret.Some?
    ensures var r := ProcessGuessWithHero(g, Some(h), today);
      && (g.settings.mode == Classic ==> r.progress == g.progress)
      && (g.settings.mode == Daily && r.gameOver ==>
            r.progress == Some(SaveDailyProgress(today, if h.name == g.secret.value.name then "win" else "lose")))
      && (!r.gameOver ==> r.progress == g.progress)
  {
  }

  // ---------------------------------------------------------------------
  // Giving up and the settings controls
  // ---------------------------------------------------------------------

  /** The surrender button (app.js:678-688): shows the secret's row and ends
      the game. It does not look at `gameOver`, so it also acts on a game
      already won or lost. */
  function Surrender(g: Game, today: string): (r: Game)
    ensures r.heroes == g.heroes && r.settings == g.settings && r.secret == g.secret
    ensures r.attempts == g.attempts
    ensures g.secret.Some? ==> r.gameOver && |r.rows| == |g.rows| + 1
    ensures g.secret.Some? ==> r.rows == [Evaluator.Evaluate(g.secret.value, g.secret.value)] + g.rows
    ensures g.secret.Some? ==> r.message == GaveUp(g.secret.value.name)
    ensures g.secret.Some? ==>
      r.progress == (if g.settings.mode == Daily then Some(SaveDailyProgress(today, "surrender")) else g.progress)
    ensures g.secret.None? ==> r == g
  {
    match g.secret
    case None => g
    case Some(s) =>
      assert StatusText(Surrendered) == "surrender";
      g.(rows := [Evaluator.Evaluate(s, s)] + g.rows, gameOver := true, message := GaveUp(s.name),
         progress := Saved(g, today, Surrendered))
  }

  /** The mode buttons (app.js:690-705): choosing the current mode does
      nothing; another mode is saved and a new game started. */
  function SelectMode(g: Game, m: Mode, env: Env): (r: Game)
    requires ValidEnv(env)
    ensures r.settings.mode == m && r.settings.hardMode == g.settings.hardMode
    ensures g.settings.mode != m ==> r.savedSettings == Some(SaveSettings(r.settings))
  {
    if g.settings.mode == m then g
    else
      var s := g.settings.(mode := m);
      StartNew(g.(settings := s, savedSettings := Some(SaveSettings(s))), env)
  }

  /** The hard-mode switch (app.js:707-714): always saved, always a new
      game. */
  function ToggleHard(g: Game, on: bool, env: Env): (r: Game)
    requires ValidEnv(env)
    ensures r.settings == g.settings.(hardMode := on)
    ensures r.savedSettings == Some(SaveSettings(r.settings))
  {
    var s := g.settings.(hardMode := on);
    StartNew(g.(settings := s, savedSettings := Some(SaveSettings(s))), env)
  }

  /** Saved settings are the ones a reload picks up. */
  lemma ToggleHardSurvivesReload(g: Game, on: bool, env: Env, anything: Settings)
    requires ValidEnv(env)
    ensures var r := ToggleHard(g, on, env);
      LoadSettings(r.savedSettings, anything) == r.settings
  {
    SettingsRoundTrip(ToggleHard(g, on, env).settings, anything);
  }

  // ---------------------------------------------------------------------
  // The invariant
  // ---------------------------------------------------------------------

  /** Starting a game restores the invariant from any state with a roster,
      the boot state included. */
  lemma StartNewInv(g: Game, env: Env)
    requires ValidEnv(env) && (g.heroes != [] || Inv(g))
    ensures Inv(StartNew(g, env))
  {
  }

  lemma ProcessGuessWithHeroInv(g: Game, hero: Option<Hero>, today: string)
    requires Inv(g)
    ensures Inv(ProcessGuessWithHero(g, hero, today))
  {
  }

  lemma ProcessGuessInv(g: Game, input: string, today: string)
    requires Inv(g)
    ensures Inv(ProcessGuess(g, input, today))
  {
    if !g.gameOver && Text.Trim(input) != [] {
      ProcessGuessWithHeroInv(g, Resolver.FindHeroByName(g.heroes, Text.Trim(input)), today);
    }
  }

  lemma SurrenderInv(g: Game, today: string)
    requires Inv(g)
    ensures Inv(Surrender(g, today))
  {
  }

  lemma SelectModeInv(g: Game, m: Mode, env: Env)
    requires ValidEnv(env) && Inv(g)
    ensures Inv(SelectMode(g, m, env))
  {
    var s := g.settings.(mode := m);
    StartNewInv(g.(settings := s, savedSettings := Some(SaveSettings(s))), env);
  }

  lemma ToggleHardInv(g: Game, on: bool, env: Env)
    requires ValidEnv(env) && Inv(g)
    ensures Inv(ToggleHard(g, on, env))
  {
    var s := g.settings.(hardMode := on);
    StartNewInv(g.(settings := s, savedSettings := Some(SaveSettings(s))), env);
  }

  /** In a game with a roster, a typed name that resolves always reaches
      the secret branch: the no-secret case of `ProcessGuessWithHero`
      cannot be reached from the input box. */
  lemma FoundHeroHasSecret(g: Game, input: string)
    requires Inv(g)
    requires Resolver.FindHeroByName(g.heroes, input).Some?
    ensures g.secret.Some?
  {
  }

  // ---------------------------------------------------------------------
  // Runs of guesses
  // ---------------------------------------------------------------------

  /** Guessing the given heroes one after another. */
  function Play(g: Game, guesses: seq<Hero>, today: string): (r: Game)
    ensures r.heroes == g.heroes && r.settings == g.settings && r.secret == g.secret
    decreases |guesses|
  {
    if guesses == [] then g
    else Play(ProcessGuessWithHero(g, Some(guesses[0]), today), guesses[1..], today)
  }

  /** Hard mode cannot run past its limit: from any reachable game with a
      secret, as many guesses as there are attempts left end it. */
  lemma {:induction false} HardModeEnds(g: Game, guesses: seq<Hero>, today: string)
    requires Inv(g) && g.secret.Some? && g.settings.hardMode
    requires |guesses| >= HardMaxAttempts - g.attempts
    ensures Play(g, guesses, today).gameOver
    decreases |guesses|
  {
    if !g.gameOver {
      var g1 := ProcessGuessWithHero(g, Some(guesses[0]), today);
      ProcessGuessWithHeroInv(g, Some(guesses[0]), today);
      if g1.gameOver {
        PlayAfterGameOver(g1, guesses[1..], today);
      } else {
        HardModeEnds(g1, guesses[1..], today);
      }
    } else {
      PlayAfterGameOver(g, guesses, today);
    }
  }

  /** Once over, a game stays as it is whatever is guessed. */
  lemma {:induction false} PlayAfterGameOver(g: Game, guesses: seq<Hero>, today: string)
    requires g.gameOver
    ensures Play(g, guesses, today) == g
    decreases |guesses|
  {
    if guesses != [] {
      PlayAfterGameOver(g, guesses[1..], today);
    }
  }

  /** Wrong guesses in normal mode: each counts one attempt and leaves one
      row, and the game never ends. */
  lemma {:induction false} NormalModeWrongGuesses(g: Game, guesses: seq<Hero>, today: string)
    requires !g.gameOver && g.secret.Some? && !g.settings.hardMode
    requires forall i :: 0 <= i < |guesses| ==> guesses[i].name != g.secret.value.name
    ensures var r := Play(g, guesses, today);
      !r.gameOver && r.attempts == g.attempts + |guesses| && |r.rows| == |g.rows| + |guesses|
    decreases |guesses|
  {
    if guesses != [] {
      var g1 := ProcessGuessWithHero(g, Some(guesses[0]), today);
      NormalModeWrongGuesses(g1, guesses[1..], today);
    }
  }

  // ---------------------------------------------------------------------
  // The daily replay guard
  // ---------------------------------------------------------------------

  /** A daily game finished today, by a win, a loss or surrender, cannot be
      replayed today: restarting shows it finished again. */
  lemma FinishedDailyStaysFinished(g: Game, env: Env)
    requires ValidEnv(env) && g.settings.mode == Daily && g.heroes != []
    requires g.progress == Some(SaveDailyProgress(env.today, "win"))
          || g.progress == Some(SaveDailyProgress(env.today, "lose"))
          || g.progress == Some(SaveDailyProgress(env.today, "surrender"))
    ensures var r := StartNew(g, env); r.gameOver && r.message == DailyCompleted && r.attempts == 0
  {
    ProgressRoundTrip(env.today, "win", env.today);
    ProgressRoundTrip(env.today, "lose", env.today);
    ProgressRoundTrip(env.today, "surrender", env.today);
  }

  /** Winning today's daily game and pressing restart on the same day shows
      the game finished. */
  lemma WinThenRestartBlocked(g: Game, h: Hero, env: Env)
    requires ValidEnv(env) && Inv(g) && !g.gameOver && g.secret.Some? && g.settings.mode == Daily
    requires h.name == g.secret.value.name
    ensures StartNew(ProcessGuessWithHero(g, Some(h), env.today), env).gameOver
  {
    FinishedDailyStaysFinished(ProcessGuessWithHero(g, Some(h), env.today), env);
  }

  /** On another day the stored result no longer counts. */
  lemma NextDayPlaysAgain(g: Game, env: Env, saved: string, status: string)
    requires ValidEnv(env) && g.settings.mode == Daily && g.heroes != []
    requires g.progress == Some(SaveDailyProgress(saved, status)) && saved != env.today
    ensures !StartNew(g, env).gameOver
  {
    ProgressRoundTrip(saved, status, env.today);
  }

  /** Surrender after a daily win overwrites the stored `'win'`. */
  lemma SurrenderAfterWin(g: Game, today: string)
    requires g.gameOver && g.secret.Some? && g.settings.mode == Daily
    requires g.progress == Some(SaveDailyProgress(today, "win"))
    ensures Surrender(g, today).progress == Some(SaveDailyProgress(today, "surrender"))
    ensures Surrender(g, today).message.GaveUp?
  {
  }
}

=== FILE: storage.dfy ===
/** What the game keeps in browser storage and the text it derives from the
    clock: the settings record (app.js:146-162), the daily progress record
    (app.js:199-227) and the countdown text of `formatRemaining`
    (app.js:170-176). Storage contents arrive as already parsed JSON, `None`
    standing for a missing entry or text that does not parse. */
module Storage {
  import opened Wrappers
  import opened Json
  import opened Heroes
  import Secret

  // ---------------------------------------------------------------------
  // Settings
  // ---------------------------------------------------------------------

  /** The two game modes. */
  datatype Mode = Classic | Daily

  /** The persisted settings. */
  datatype Settings = Settings(mode: Mode, hardMode: bool)

  /** The settings before anything is loaded: daily mode, hard mode off
      (app.js:19-20). */
  const DefaultSettings := Settings(Daily, false)

  /** The stored spelling of a mode. */
  function ModeText(m: Mode): string {
    match m
    case Classic => "classic"
    case Daily => "daily"
  }

  /** `loadSettings` (app.js:146-156): each setting is taken from storage
      only when it holds a valid value; otherwise the current one stays. */
  function LoadSettings(stored: Option<Json>, current: Settings): (r: Settings)
    ensures r.mode != current.mode ==>
      stored.Some? && stored.value.JObj? && Field(stored.value.fields, "mode") == JStr(ModeText(r.mode))
    ensures r.hardMode != current.hardMode ==>
      stored.Some? && stored.value.JObj? && Field(stored.value.fields, "hardMode") == JBool(r.hardMode)
    ensures stored.Some? && stored.value.JObj? && Field(stored.value.fields, "mode") == JStr("classic") ==> r.mode == Classic
    ensures stored.Some? && stored.value.JObj? && Field(stored.value.fields, "mode") == JStr("daily") ==> r.mode == Daily
    ensures stored.Some? && stored.value.JObj? && Field(stored.value.fields, "hardMode").JBool? ==>
      r.hardMode == Field(stored.value.fields, "hardMode").b
  {
    match stored
    case Some(JObj(f)) =>
      var m := Field(f, "mode");
      var h := Field(f, "hardMode");
      Settings(
        if m == JStr("classic") then Classic else if m == JStr("daily") then Daily else current.mode,
        if h.JBool? then h.b else current.hardMode)
    case _ => current
  }

  /** `saveSettings` (app.js:158-162): the record written to storage. */
  function SaveSettings(s: Settings): Json {
    JObj(map["mode" := JStr(ModeText(s.mode)), "hardMode" := JBool(s.hardMode)])
  }

  /** Saved settings load back as they were, whatever was current. */
  lemma SettingsRoundTrip(s: Settings, current: Settings)
    ensures LoadSettings(Some(SaveSettings(s)), current) == s
  {
  }

  /** Nothing stored, or a stored value that is not a record, changes nothing. */
  lemma LoadSettingsIgnoresJunk(stored: Option<Json>, current: Settings)
    requires stored.None? || !stored.value.JObj?
    ensures LoadSettings(stored, current) == current
  {
  }

  // ---------------------------------------------------------------------
  // Daily progress
  // ---------------------------------------------------------------------

  /** `loadDailyProgress` (app.js:207-218): the stored record, if it is a
      record whose `date` is exactly today's key. */
  function LoadDailyProgress(stored: Option<Json>, today: string): (r: Option<Record>)
    ensures r.Some? ==> Field(r.value, "date") == JStr(today)
    ensures r.Some? <==> stored.Some? && stored.value.JObj? && Field(stored.value.fields, "date") == JStr(today)
  {
    match stored
    case Some(JObj(f)) => if Field(f, "date") == JStr(today) then Some(f) else None
    case _ => None
  }

  /** `saveDailyProgress` (app.js:220-227). */
  function SaveDailyProgress(today: string, status: string): Json {
    JObj(map["date" := JStr(today), "status" := JStr(status)])
  }

  /** Today's daily game is already finished: `progress && progress.status`
      (app.js:291-292). */
  predicate DailyDone(stored: Option<Json>, today: string) {
    var p := LoadDailyProgress(stored, today);
    p.Some? && Truthy(Field(p.value, "status"))
  }

  /** A finished day stays finished for the rest of that day and no
      longer: progress saved with a status counts only on its own date. */
  lemma ProgressRoundTrip(saved: string, status: string, today: string)
    ensures DailyDone(Some(SaveDailyProgress(saved, status)), today) <==> saved == today && status != []
    ensures LoadDailyProgress(Some(SaveDailyProgress(saved, status)), today).Some? ==>
      Field(LoadDailyProgress(Some(SaveDailyProgress(saved, status)), today).value, "status") == JStr(status)
  {
  }

  // ---------------------------------------------------------------------
  // Fixed-width fields
  // ---------------------------------------------------------------------

  /** `String(t).padStart(2, '0')`. */
  function PadStart2(t: string): (r: string)
    ensures |r| >= 2
    ensures |t| >= 2 ==> r == t
    ensures |t| < 2 ==> r == seq(2 - |t|, _ => '0') + t
  {
    if |t| >= 2 then t else if |t| == 1 then "0" + t else "00"
  }

  /** A number as a two-character field. */
  function Pad2(n: int): string {
    PadStart2(IntToText(n))
  }

  /** A number below 100 fills exactly two characters. */
  lemma Pad2Length(n: int)
    ensures 0 <= n < 100 ==> |Pad2(n)| == 2
  {
    if 0 <= n < 100 {
      DigitsValueOfNatToText(n);
      if n >= 10 {
        assert NatToText(n) == NatToText(n / 10) + [DigitChar(n % 10)];
      }
    }
  }

  /** A two-digit field reads back as its number. */
  lemma Pad2Reads(n: int)
    requires 0 <= n < 100
    ensures |Pad2(n)| == 2 && AllDigits(Pad2(n)) && DigitsValue(Pad2(n)) == n
  {
    var t := NatToText(n);
    DigitsValueOfNatToText(n);
    if n < 10 {
      var p := Pad2(n);
      assert p == ['0', t[0]];
      assert p[..1] == ['0'];
      assert p[..1][..0] == [];
    } else {
      assert t == NatToText(n / 10) + [DigitChar(n % 10)];
    }
  }

  /** A non-negative number's text is a non-empty run of digits. */
  lemma NatTextDigits(n: int)
    requires n >= 0
    ensures IntToText(n) != [] && AllDigits(IntToText(n)) && DigitsValue(IntToText(n)) == n
  {
    DigitsValueOfNatToText(n);
  }

  /** Reads `a<sep>bb<sep>cc` from the right: two-character fields after the
      last two separators, a non-empty run of digits before them. */
  function ReadFields(t: string, sep: char): Option<(int, int, int)> {
    if |t| >= 7 && t[|t| - 3] == sep && t[|t| - 6] == sep then
      var a, b, c := t[..|t| - 6], t[|t| - 5..|t| - 3], t[|t| - 2..];
      if AllDigits(a) && AllDigits(b) && AllDigits(c) then Some((DigitsValue(a), DigitsValue(b), DigitsValue(c)))
      else None
    else None
  }

  /** Joining a run of digits and two two-digit fields reads back. */
  lemma JoinedFieldsRead(a: string, b: int, c: int, sep: char)
    requires a != [] && AllDigits(a)
    requires 0 <= b < 100 && 0 <= c < 100
    ensures ReadFields(a + [sep] + Pad2(b) + [sep] + Pad2(c), sep) == Some((DigitsValue(a), b, c))
  {
    Pad2Reads(b);
    Pad2Reads(c);
    FieldsRead(a, Pad2(b), Pad2(c), sep);
  }

  /** The three fields of a joined text are where `ReadFields` looks. */
  lemma FieldsRead(a: string, p: string, q: string, sep: char)
    requires a != [] && |p| == 2 && |q| == 2
    requires AllDigits(a) && AllDigits(p) && AllDigits(q)
    ensures ReadFields(a + [sep] + p + [sep] + q, sep) == Some((DigitsValue(a), DigitsValue(p), DigitsValue(q)))
  {
    var t := a + [sep] + p + [sep] + q;
    var n := |a|;
    assert |t| == n + 6;
    assert t[n] == sep && t[n + 3] == sep;
    assert t[..n] == a;
    assert t[n + 1..n + 3] == p;
    assert t[n + 4..] == q;
  }

  // ---------------------------------------------------------------------
  // Date key and countdown
  // ---------------------------------------------------------------------

  /** `getTodayKey` (app.js:199-205) for a local year, month (1-12) and day:
      `YYYY-MM-DD`. */
  function DateKey(year: int, month: int, day: int): (r: string)
    ensures 1 <= month <= 12 && 1 <= day <= 31 ==>
      |r| == |IntToText(year)| + 6 && r[..|r| - 6] == IntToText(year) && r[|r| - 6] == '-' && r[|r| - 3] == '-'
  {
    Pad2Length(month);
    Pad2Length(day);
    IntToText(year) + "-" + Pad2(month) + "-" + Pad2(day)
  }

  /** The date key reads back as its date, so two dates share a key only
      when they are the same date. */
  lemma DateKeyReads(year: int, month: int, day: int)
    requires year >= 0 && 1 <= month <= 12 && 1 <= day <= 31
    ensures ReadFields(DateKey(year, month, day), '-') == Some((year, month, day))
  {
    NatTextDigits(year);
    JoinedFieldsRead(IntToText(year), month, day, '-');
  }

  lemma DateKeyInjective(y1: int, m1: int, d1: int, y2: int, m2: int, d2: int)
    requires y1 >= 0 && 1 <= m1 <= 12 && 1 <= d1 <= 31
    requires y2 >= 0 && 1 <= m2 <= 12 && 1 <= d2 <= 31
    requires DateKey(y1, m1, d1) == DateKey(y2, m2, d2)
    ensures y1 == y2 && m1 == m2 && d1 == d2
  {
    DateKeyReads(y1, m1, d1);
    DateKeyReads(y2, m2, d2);
  }

  /** `formatRemaining` (app.js:170-176): whole seconds as `HH:MM:SS`, with
      JavaScript's floor division and sign-keeping remainder. */
  function FormatRemaining(ms: int): (r: string)
    ensures |r| >= 8
    ensures ms >= 0 ==> r[|r| - 3] == ':' && r[|r| - 6] == ':'
    ensures 0 <= ms < 100 * 3600 * 1000 ==> |r| == 8 && r[2] == ':' && r[5] == ':'
  {
    var total := ms / 1000;
    var h := total / 3600;
    var m := Secret.JsRem(total, 3600) / 60;
    var s := Secret.JsRem(total, 60);
    ClockFields(ms, total, h, m, s);
    Pad2(h) + ":" + Pad2(m) + ":" + Pad2(s)
  }

  /** The fields of a non-negative duration: minutes and seconds fill two
      characters each, and so do the hours below 100 hours. */
  lemma ClockFields(ms: int, total: int, h: int, m: int, s: int)
    requires total == ms / 1000 && h == total / 3600
    requires m == Secret.JsRem(total, 3600) / 60 && s == Secret.JsRem(total, 60)
    ensures |Pad2(h)| >= 2 && |Pad2(m)| >= 2 && |Pad2(s)| >= 2
    ensures ms >= 0 ==> |Pad2(m)| == 2 && |Pad2(s)| == 2
    ensures 0 <= ms < 100 * 3600 * 1000 ==> |Pad2(h)| == 2
  {
    Pad2Length(h);
    Pad2Length(m);
    Pad2Length(s);
    if ms >= 0 {
      assert 0 <= m < 60 && 0 <= s < 60;
      if ms < 100 * 3600 * 1000 {
        assert total < 100 * 3600;
        assert h < 100;
      }
    }
  }

  /** For a non-negative duration the text reads back as hours, minutes
      below 60 and seconds below 60 that add up to the whole seconds. */
  lemma FormatRemainingReads(ms: int)
    requires ms >= 0
    ensures var c := ReadFields(FormatRemaining(ms), ':');
      c.Some? && c.value.1 < 60 && c.value.2 < 60 && c.value.0 * 3600 + c.value.1 * 60 + c.value.2 == ms / 1000
  {
    var total := ms / 1000;
    SecondsSplit(total);
    var h, m, s := total / 3600, (total % 3600) / 60, total % 60;
    NatTextDigits(h);
    var a := PadStart2(IntToText(h));
    assert a != [] && AllDigits(a) && DigitsValue(a) == h by {
      if |IntToText(h)| < 2 {
        Pad2Reads(h);
      }
    }
    JoinedFieldsRead(a, m, s, ':');
  }

  /** Whole seconds split into hours, minutes below 60 and seconds, the
      seconds being the remainder of the minutes' remainder too. */
  lemma SecondsSplit(total: int)
    requires total >= 0
    ensures (total % 3600) / 60 < 60
    ensures total % 60 == (total % 3600) % 60
    ensures (total / 3600) * 3600 + ((total % 3600) / 60) * 60 + total % 60 == total
  {
    var h, rem := total / 3600, total % 3600;
    var m, s := rem / 60, rem % 60;
    assert (h * 60 + m) * 60 == h * 3600 + m * 60;
    Secret.DivModUnique(total, 60, h * 60 + m, s);
  }
}

=== FILE: text.dfy ===
/** The text normaliser of app.js: `normalize`, `normalizeLetters`,
    `getInitials`, and the JavaScript string primitives they rely on
    (`trim`, `toLowerCase`, `startsWith`, `indexOf`/`includes`). */
module Text {

  // ---------------------------------------------------------------------
  // Character classes
  // ---------------------------------------------------------------------

  /** JavaScript's `\s` class (WhiteSpace plus LineTerminator); `trim`
      removes exactly these characters. */
  predicate IsSpace(c: char) {
    || c == ' ' || c == '\t' || c == '\n' || c == '\U{0B}' || c == '\U{0C}' || c == '\r'
    || c == '\U{A0}' || c == '\U{1680}' || ('\U{2000}' <= c <= '\U{200A}')
    || c == '\U{2028}' || c == '\U{2029}' || c == '\U{202F}' || c == '\U{205F}'
    || c == '\U{3000}' || c == '\U{FEFF}'
  }

  /** The dash family folded to '-': U+2010..U+2015 and U+2212. */
  predicate IsDash(c: char) {
    ('\U{2010}' <= c <= '\U{2015}') || c == '\U{2212}'
  }

  /** The apostrophe family of the folding pattern: ’ ‘ ` ʼ ⁄. The grave
      accent and U+02BC are diacritics as well, so the earlier pass has
      already removed them and only ’ ‘ ⁄ are ever folded. */
  predicate IsApostrophe(c: char) {
    c == '\U{2019}' || c == '\U{2018}' || c == '`' || c == '\U{02BC}' || c == '\U{2044}'
  }

  /** The characters removed as diacritics: the Unicode Diacritic property
      up to U+0362 (the spacing accents of ASCII and Latin-1, the spacing
      modifier letters U+02B0..U+02FF and the combining marks U+0300..U+034E,
      U+0350..U+0357 and U+035D..U+0362). */
  predicate IsDiacritic(c: char) {
    || c == '^' || c == '`' || c == '\U{A8}' || c == '\U{AF}' || c == '\U{B4}'
    || c == '\U{B7}' || c == '\U{B8}'
    || ('\U{02B0}' <= c <= '\U{034E}') || ('\U{0350}' <= c <= '\U{0357}') || ('\U{035D}' <= c <= '\U{0362}')
  }

  /** `toLowerCase` on one character, for ASCII and basic Cyrillic. */
  function LowerChar(c: char): (r: char)
    ensures r != c ==> ('A' <= c <= 'Z' && 'a' <= r <= 'z') || ('\U{0400}' <= c <= '\U{042F}' && '\U{0430}' <= r <= '\U{045F}')
  {
    if 'A' <= c <= 'Z' then (c as int + 32) as char
    else if '\U{0410}' <= c <= '\U{042F}' then (c as int + 32) as char
    else if '\U{0400}' <= c <= '\U{040F}' then (c as int + 80) as char
    else c
  }

  /** The class `[a-z0-9]`. */
  predicate IsLowerAlnum(c: char) {
    ('a' <= c <= 'z') || ('0' <= c <= '9')
  }

  // ---------------------------------------------------------------------
  // JavaScript string primitives
  // ---------------------------------------------------------------------

  /** `toLowerCase`. */
  function Lower(s: string): (r: string)
    ensures |r| == |s|
    ensures forall i :: 0 <= i < |s| ==> r[i] == LowerChar(s[i])
  {
    seq(|s|, i requires 0 <= i < |s| => LowerChar(s[i]))
  }

  /** The number of leading whitespace characters. */
  function Lead(s: string): (n: nat)
    ensures n <= |s|
    ensures forall i :: 0 <= i < n ==> IsSpace(s[i])
    ensures n < |s| ==> !IsSpace(s[n])
  {
    if s != [] && IsSpace(s[0]) then 1 + Lead(s[1..]) else 0
  }

  /** The number of trailing whitespace characters. */
  function Trail(s: string): (n: nat)
    ensures n <= |s|
    ensures forall i :: |s| - n <= i < |s| ==> IsSpace(s[i])
    ensures n < |s| ==> !IsSpace(s[|s| - n - 1])
  {
    if s != [] && IsSpace(s[|s| - 1]) then 1 + Trail(s[..|s| - 1]) else 0
  }

  /** `trim`: the slice of `s` between its leading and trailing whitespace. */
  function Trim(s: string): (r: string)
    ensures r == [] || (!IsSpace(r[0]) && !IsSpace(r[|r| - 1]))
    ensures Lead(s) + |r| <= |s| && r == s[Lead(s)..Lead(s) + |r|]
    ensures forall i :: 0 <= i < Lead(s) ==> IsSpace(s[i])
    ensures forall i :: Lead(s) + |r| <= i < |s| ==> IsSpace(s[i])
  {
    var a := Lead(s);
    if a == |s| then [] else s[a..|s| - Trail(s)]
  }

  /** `s.startsWith(p)`. */
  predicate IsPrefix(p: string, s: string) {
    |p| <= |s| && s[..|p|] == p
  }

  /** Whether `t` occurs in `s` at offset `k`. */
  predicate OccursAt(s: string, t: string, k: int) {
    0 <= k && k + |t| <= |s| && s[k..k + |t|] == t
  }

  /** The first offset at or after `k` where `t` occurs in `s`, or -1. */
  function IndexFrom(s: string, t: string, k: nat): (r: int)
    ensures r == -1 || (k <= r && OccursAt(s, t, r))
    ensures forall j :: k <= j && (r == -1 || j < r) ==> !OccursAt(s, t, j)
    decreases |s| - k
  {
    if k + |t| > |s| then -1
    else if s[k..k + |t|] == t then k
    else IndexFrom(s, t, k + 1)
  }

  /** `s.indexOf(t)`: the first occurrence of `t` in `s`, or -1. */
  function IndexOf(s: string, t: string): (r: int)
    ensures r == -1 || OccursAt(s, t, r)
    ensures forall j :: 0 <= j && (r == -1 || j < r) ==> !OccursAt(s, t, j)
  {
    IndexFrom(s, t, 0)
  }

  /** `s.includes(t)`. */
  predicate Contains(s: string, t: string) {
    IndexOf(s, t) >= 0
  }

  // ---------------------------------------------------------------------
  // The steps of `normalize`
  // ---------------------------------------------------------------------

  /** Removes every diacritic character (the `\p{Diacritic}` pass). */
  function StripDiacritics(s: string): (r: string)
    ensures forall c :: c in r ==> c in s && !IsDiacritic(c)
    ensures |s| == 1 ==> r == (if IsDiacritic(s[0]) then [] else s)
  {
    if s == [] then []
    else (if IsDiacritic(s[0]) then [] else [s[0]]) + StripDiacritics(s[1..])
  }

  /** Replaces each dash-family character by '-'. */
  function FoldDashes(s: string): (r: string)
    ensures |r| == |s|
    ensures forall i :: 0 <= i < |s| ==> r[i] == (if IsDash(s[i]) then '-' else s[i])
  {
    seq(|s|, i requires 0 <= i < |s| => if IsDash(s[i]) then '-' else s[i])
  }

  /** Replaces each apostrophe-family character by '\''. */
  function FoldApostrophes(s: string): (r: string)
    ensures |r| == |s|
    ensures forall i :: 0 <= i < |s| ==> r[i] == (if IsApostrophe(s[i]) then '\'' else s[i])
  {
    seq(|s|, i requires 0 <= i < |s| => if IsApostrophe(s[i]) then '\'' else s[i])
  }

  /** Drops the leading run of whitespace. */
  function DropSpaces(s: string): (r: string)
    ensures |r| <= |s| && r == s[|s| - |r|..]
    ensures r == [] || !IsSpace(r[0])
  {
    if s != [] && IsSpace(s[0]) then DropSpaces(s[1..]) else s
  }

  /** No whitespace but ' ', and never two spaces in a row. */
  predicate SingleSpaced(s: string) {
    && (forall i :: 0 <= i < |s| && IsSpace(s[i]) ==> s[i] == ' ')
    && (forall i :: 0 <= i < |s| - 1 ==> !(s[i] == ' ' && s[i + 1] == ' '))
  }

  /** Replaces each run of whitespace by one space (`replace(/\s+/g, ' ')`). */
  function CollapseSpaces(s: string): (r: string)
    ensures s == [] <==> r == []
    ensures s != [] ==> r[0] == (if IsSpace(s[0]) then ' ' else s[0])
    decreases |s|
  {
    if s == [] then []
    else if IsSpace(s[0]) then [' '] + CollapseSpaces(DropSpaces(s[1..]))
    else [s[0]] + CollapseSpaces(s[1..])
  }

  /** Putting one character in front of a single-spaced string keeps it
      single-spaced unless it makes a second space or is other whitespace. */
  lemma ConsSingleSpaced(c: char, rest: string)
    requires SingleSpaced(rest)
    requires IsSpace(c) ==> c == ' '
    requires c == ' ' && rest != [] ==> rest[0] != ' '
    ensures SingleSpaced([c] + rest)
  {
    var r := [c] + rest;
    assert forall i :: 1 <= i < |r| ==> r[i] == rest[i - 1];
  }

  /** After collapsing, whitespace is a lone ' '. */
  lemma {:induction false} CollapseSingleSpaced(s: string)
    ensures SingleSpaced(CollapseSpaces(s))
    decreases |s|
  {
    if s != [] {
      if IsSpace(s[0]) {
        var t := DropSpaces(s[1..]);
        CollapseSingleSpaced(t);
        ConsSingleSpaced(' ', CollapseSpaces(t));
      } else {
        CollapseSingleSpaced(s[1..]);
        ConsSingleSpaced(s[0], CollapseSpaces(s[1..]));
      }
    }
  }

  /** A character that `normalize` leaves as it is. */
  predicate NormalChar(c: char) {
    && !IsDiacritic(c) && !IsDash(c) && !IsApostrophe(c)
    && (IsSpace(c) ==> c == ' ')
    && LowerChar(c) == c
  }

  /** The strings `normalize` can return. */
  predicate IsNormal(s: string) {
    && (forall i :: 0 <= i < |s| ==> NormalChar(s[i]))
    && SingleSpaced(s)
    && (s == [] || (s[0] != ' ' && s[|s| - 1] != ' '))
  }

  /** No diacritic, dash-family or apostrophe-family character. */
  predicate Folded(s: string) {
    forall i :: 0 <= i < |s| ==> !IsDiacritic(s[i]) && !IsDash(s[i]) && !IsApostrophe(s[i])
  }

  lemma FoldingFolds(a: string)
    requires forall ch :: ch in a ==> !IsDiacritic(ch)
    ensures Folded(FoldApostrophes(FoldDashes(a)))
  {
    var b := FoldDashes(a);
    forall i | 0 <= i < |b| ensures !IsDiacritic(b[i]) && !IsDash(b[i]) {
      assert a[i] in a;
    }
  }

  lemma SuffixFolded(c: string, k: nat)
    requires Folded(c) && k <= |c|
    ensures Folded(c[k..])
  {
    assert forall i :: 0 <= i < |c| - k ==> c[k..][i] == c[k + i];
  }

  lemma ConsFolded(ch: char, rest: string)
    requires Folded(rest) && !IsDiacritic(ch) && !IsDash(ch) && !IsApostrophe(ch)
    ensures Folded([ch] + rest)
  {
    assert forall i :: 1 <= i < |rest| + 1 ==> ([ch] + rest)[i] == rest[i - 1];
  }

  /** Collapsing adds only spaces, so a folded string stays folded. */
  lemma {:induction false} CollapseKeepsFolded(c: string)
    requires Folded(c)
    ensures Folded(CollapseSpaces(c))
    decreases |c|
  {
    if c != [] {
      if IsSpace(c[0]) {
        var t := DropSpaces(c[1..]);
        assert t == c[|c| - |t|..];
        SuffixFolded(c, |c| - |t|);
        CollapseKeepsFolded(t);
        ConsFolded(' ', CollapseSpaces(t));
      } else {
        SuffixFolded(c, 1);
        CollapseKeepsFolded(c[1..]);
        ConsFolded(c[0], CollapseSpaces(c[1..]));
      }
    }
  }

  lemma TrimKeepsFolded(d: string)
    requires Folded(d) && SingleSpaced(d)
    ensures Folded(Trim(d)) && SingleSpaced(Trim(d))
  {
    var e := Trim(d);
    var k := Lead(d);
    assert forall i :: 0 <= i < |e| ==> e[i] == d[k + i];
  }

  lemma LowerIsNormal(e: string)
    requires Folded(e) && SingleSpaced(e)
    requires e == [] || (!IsSpace(e[0]) && !IsSpace(e[|e| - 1]))
    ensures IsNormal(Lower(e))
  {
    var l := Lower(e);
    forall i | 0 <= i < |e| ensures NormalChar(l[i]) && (e[i] == ' ' <==> l[i] == ' ') {
    }
  }

  lemma TrimLowerIsNormal(d: string)
    requires Folded(d) && SingleSpaced(d)
    ensures IsNormal(Lower(Trim(d)))
  {
    TrimKeepsFolded(d);
    LowerIsNormal(Trim(d));
  }

  /** `normalize` (app.js:311-325): strip diacritics, fold dashes and
      apostrophes, collapse whitespace, trim, lower-case. The empty string
      (JavaScript's falsy input) yields the empty string. */
  function Normalize(s: string): (r: string)
    ensures IsNormal(r)
    ensures s == [] ==> r == []
  {
    var a := StripDiacritics(s);
    var c := FoldApostrophes(FoldDashes(a));
    FoldingFolds(a);
    var d := CollapseSpaces(c);
    CollapseSingleSpaced(c);
    CollapseKeepsFolded(c);
    TrimLowerIsNormal(d);
    Lower(Trim(d))
  }

  // ---------------------------------------------------------------------
  // Idempotence of `normalize`
  // ---------------------------------------------------------------------

  lemma {:induction false} StripDiacriticsKeeps(s: string)
    requires forall i :: 0 <= i < |s| ==> !IsDiacritic(s[i])
    ensures StripDiacritics(s) == s
  {
    if s != [] {
      StripDiacriticsKeeps(s[1..]);
    }
  }

  lemma {:induction false} CollapseSpacesKeeps(s: string)
    requires SingleSpaced(s)
    ensures CollapseSpaces(s) == s
    decreases |s|
  {
    if s != [] {
      assert SingleSpaced(s[1..]) by {
        forall i | 0 <= i < |s[1..]| - 1 ensures !(s[1..][i] == ' ' && s[1..][i + 1] == ' ') {
          assert s[1..][i] == s[i + 1] && s[1..][i + 1] == s[i + 2];
        }
      }
      if IsSpace(s[0]) {
        assert s[1..] == [] || !IsSpace(s[1]);
        assert DropSpaces(s[1..]) == s[1..];
      }
      CollapseSpacesKeeps(s[1..]);
    }
  }

  lemma TrimKeeps(s: string)
    requires s == [] || (!IsSpace(s[0]) && !IsSpace(s[|s| - 1]))
    ensures Trim(s) == s
  {
    assert Lead(s) == 0 && Trail(s) == 0;
  }

  lemma FoldsKeep(s: string)
    requires IsNormal(s)
    ensures FoldApostrophes(FoldDashes(s)) == s
  {
    assert FoldDashes(s) == s;
  }

  lemma LowerKeeps(s: string)
    requires IsNormal(s)
    ensures Lower(s) == s
  {
  }

  /** A normal string is a fixed point of `normalize`. */
  lemma NormalizeKeepsNormal(s: string)
    requires IsNormal(s)
    ensures Normalize(s) == s
  {
    StripDiacriticsKeeps(s);
    FoldsKeep(s);
    CollapseSpacesKeeps(s);
    TrimKeeps(s);
    LowerKeeps(s);
  }

  /** `normalize(s).trim()` is `normalize(s)`. */
  lemma TrimNormalize(s: string)
    ensures Trim(Normalize(s)) == Normalize(s)
  {
    TrimKeeps(Normalize(s));
  }

  lemma NormalizeIdempotent(s: string)
    ensures Normalize(Normalize(s)) == Normalize(s)
  {
    NormalizeKeepsNormal(Normalize(s));
  }

  // ---------------------------------------------------------------------
  // Spelling variants
  // ---------------------------------------------------------------------

  /** Removing diacritics works character by character: it distributes
      over concatenation. */
  lemma {:induction false} StripDiacriticsAppend(s: string, t: string)
    ensures StripDiacritics(s + t) == StripDiacritics(s) + StripDiacritics(t)
  {
    if s == [] {
      assert s + t == t;
    } else {
      assert (s + t)[0] == s[0] && (s + t)[1..] == s[1..] + t;
      StripDiacriticsAppend(s[1..], t);
    }
  }

  /** Leading whitespace of any kind is dropped as one run. */
  lemma {:induction false} DropSpacesAppend(w: string, t: string)
    requires AllSpaces(w)
    ensures DropSpaces(w + t) == DropSpaces(t)
  {
    if w == [] {
      assert w + t == t;
    } else {
      assert (w + t)[1..] == w[1..] + t;
      DropSpacesAppend(w[1..], t);
    }
  }

  /** Once a non-space is reached, nothing further is dropped. */
  lemma {:induction false} DropSpacesPrefix(p: string, t: string)
    requires exists i :: 0 <= i < |p| && !IsSpace(p[i])
    ensures DropSpaces(p + t) == DropSpaces(p) + t
  {
    if IsSpace(p[0]) {
      assert (p + t)[1..] == p[1..] + t;
      var i :| 0 <= i < |p| && !IsSpace(p[i]);
      assert p[1..][i - 1] == p[i];
      DropSpacesPrefix(p[1..], t);
    }
  }

  /** A run of whitespace, of any length and kind, collapses to a single
      ' ' followed by the rest with its own leading whitespace merged in. */
  lemma CollapseSpaceRun(w: string, t: string)
    requires w != [] && AllSpaces(w)
    ensures CollapseSpaces(w + t) == [' '] + CollapseSpaces(DropSpaces(t))
  {
    assert (w + t)[0] == w[0] && (w + t)[1..] == w[1..] + t;
    DropSpacesAppend(w[1..], t);
  }

  /** Any other character is kept as it is. */
  lemma CollapseKeepsOther(c: char, t: string)
    requires !IsSpace(c)
    ensures CollapseSpaces([c] + t) == [c] + CollapseSpaces(t)
  {
    assert ([c] + t)[1..] == t;
  }

  /** Every character is whitespace. */
  predicate AllSpaces(w: string) {
    forall i :: 0 <= i < |w| ==> IsSpace(w[i])
  }

  /** A text that starts with a whitespace run of its own. */
  lemma CollapseAfterSpace(x: string, u: string)
    requires x != [] && IsSpace(x[0])
    ensures CollapseSpaces(x + u) == [' '] + CollapseSpaces(DropSpaces(x[1..] + u))
  {
    assert (x + u)[0] == x[0] && (x + u)[1..] == x[1..] + u;
  }

  /** After a leading whitespace run, either only whitespace is left
      before the inner run or a shorter text is. */
  lemma DropBeforeRun(x1: string, w: string, y: string)
    requires AllSpaces(w)
    ensures AllSpaces(x1) ==> DropSpaces(x1 + w + y) == DropSpaces(y)
    ensures !AllSpaces(x1) ==> DropSpaces(x1 + w + y) == DropSpaces(x1) + w + y
  {
    if AllSpaces(x1) {
      assert x1 + w + y == (x1 + w) + y;
      DropSpacesAppend(x1 + w, y);
    } else {
      assert x1 + w + y == x1 + (w + y);
      DropSpacesPrefix(x1, w + y);
    }
  }

  /** Two whitespace runs inside a text collapse alike, whatever their
      lengths and characters. */
  lemma {:induction false} CollapseRuns(x: string, w: string, v: string, y: string)
    requires w != [] && AllSpaces(w)
    requires v != [] && AllSpaces(v)
    ensures CollapseSpaces(x + w + y) == CollapseSpaces(x + v + y)
    decreases |x|
  {
    if x == [] {
      assert x + w + y == w + y && x + v + y == v + y;
      CollapseSpaceRun(w, y);
      CollapseSpaceRun(v, y);
    } else if !IsSpace(x[0]) {
      assert x + w + y == [x[0]] + (x[1..] + w + y);
      assert x + v + y == [x[0]] + (x[1..] + v + y);
      CollapseKeepsOther(x[0], x[1..] + w + y);
      CollapseKeepsOther(x[0], x[1..] + v + y);
      CollapseRuns(x[1..], w, v, y);
    } else {
      var x1 := x[1..];
      assert x + w + y == x + (w + y) && x + v + y == x + (v + y);
      assert x1 + (w + y) == x1 + w + y && x1 + (v + y) == x1 + v + y;
      CollapseAfterSpace(x, w + y);
      CollapseAfterSpace(x, v + y);
      DropBeforeRun(x1, w, y);
      DropBeforeRun(x1, v, y);
      if !AllSpaces(x1) {
        CollapseRuns(DropSpaces(x1), w, v, y);
      }
    }
  }

  /** What a character that survives the diacritic pass becomes in the
      normal form before whitespace runs are collapsed: whitespace of every
      kind is ' ', dashes and apostrophes fold, letters lower-case. */
  function KeyChar(c: char): char {
    if IsSpace(c) then ' '
    else if IsDash(c) then '-'
    else if IsApostrophe(c) then '\''
    else LowerChar(c)
  }

  /** `KeyChar` applied to every character. */
  function Keys(s: string): (r: string)
    ensures |r| == |s|
    ensures forall i :: 0 <= i < |s| ==> r[i] == KeyChar(s[i])
  {
    seq(|s|, i requires 0 <= i < |s| => KeyChar(s[i]))
  }

  lemma KeysAppend(s: string, t: string)
    ensures Keys(s + t) == Keys(s) + Keys(t)
  {
  }

  /** `k` is `c` lower-cased, with whitespace of any kind standing for
      whitespace. */
  predicate LowersTo(c: string, k: string) {
    && |c| == |k|
    && forall i :: 0 <= i < |c| ==>
      && (IsSpace(c[i]) <==> IsSpace(k[i]))
      && (!IsSpace(c[i]) ==> k[i] == LowerChar(c[i]))
  }

  lemma SuffixLowersTo(c: string, k: string, n: nat)
    requires LowersTo(c, k) && n <= |c|
    ensures LowersTo(c[n..], k[n..])
  {
    assert forall i :: 0 <= i < |c| - n ==> c[n..][i] == c[n + i] && k[n..][i] == k[n + i];
  }

  lemma {:induction false} DropSpacesLowersTo(c: string, k: string)
    requires LowersTo(c, k)
    ensures |DropSpaces(c)| == |DropSpaces(k)|
  {
    if c != [] && IsSpace(c[0]) {
      SuffixLowersTo(c, k, 1);
      DropSpacesLowersTo(c[1..], k[1..]);
    }
  }

  lemma LowerCons(ch: char, x: string)
    ensures Lower([ch] + x) == [LowerChar(ch)] + Lower(x)
  {
  }

  /** Lower-casing commutes with collapsing whitespace. */
  lemma {:induction false} LowerCollapse(c: string, k: string)
    requires LowersTo(c, k)
    ensures Lower(CollapseSpaces(c)) == CollapseSpaces(k)
    decreases |c|
  {
    if c != [] {
      SuffixLowersTo(c, k, 1);
      if IsSpace(c[0]) {
        var c1, k1 := DropSpaces(c[1..]), DropSpaces(k[1..]);
        DropSpacesLowersTo(c[1..], k[1..]);
        SuffixLowersTo(c[1..], k[1..], |c| - 1 - |c1|);
        LowerCollapse(c1, k1);
        LowerCons(' ', CollapseSpaces(c1));
      } else {
        LowerCollapse(c[1..], k[1..]);
        LowerCons(c[0], CollapseSpaces(c[1..]));
      }
    }
  }

  lemma {:induction false} LeadLower(x: string)
    ensures Lead(Lower(x)) == Lead(x)
  {
    if x != [] {
      assert Lower(x)[1..] == Lower(x[1..]);
      LeadLower(x[1..]);
    }
  }

  lemma {:induction false} TrailLower(x: string)
    ensures Trail(Lower(x)) == Trail(x)
  {
    if x != [] {
      assert Lower(x)[..|x| - 1] == Lower(x[..|x| - 1]);
      TrailLower(x[..|x| - 1]);
    }
  }

  /** Lower-casing commutes with trimming. */
  lemma LowerTrim(x: string)
    ensures Lower(Trim(x)) == Trim(Lower(x))
  {
    LeadLower(x);
    TrailLower(x);
    if Lead(x) < |x| {
      TrimLowerInner(x);
    } else {
      assert Trim(Lower(x)) == [];
    }
  }

  lemma TrimLowerInner(x: string)
    requires Lead(x) < |x|
    requires Lead(Lower(x)) == Lead(x) && Trail(Lower(x)) == Trail(x)
    ensures Lower(Trim(x)) == Trim(Lower(x))
  {
    var a, e := Lead(x), |x| - Trail(x);
    assert Trim(x) == x[a..e];
    assert Trim(Lower(x)) == Lower(x)[a..e];
    SliceLower(x, a, e);
  }

  /** Lower-casing commutes with slicing. */
  lemma SliceLower(x: string, a: int, e: int)
    requires 0 <= a <= e <= |x|
    ensures Lower(x[a..e]) == Lower(x)[a..e]
  {
  }

  /** Lower-casing twice is lower-casing once. */
  lemma LowerTwice(s: string)
    ensures Lower(Lower(s)) == Lower(s)
  {
    assert forall i :: 0 <= i < |s| ==> LowerChar(LowerChar(s[i])) == LowerChar(s[i]);
  }

  /** Trimmed, lower-cased text trims and lower-cases to itself. */
  lemma LowerTrimStable(g: string)
    ensures Lower(Trim(Lower(Trim(g)))) == Lower(Trim(g))
  {
    TrimKeeps(Trim(g));
    LowerTrim(Trim(g));
    LowerTwice(Trim(g));
  }

  /** The folded text lower-cases to its keys. */
  lemma FoldedLowersToKeys(a: string)
    ensures LowersTo(FoldApostrophes(FoldDashes(a)), Keys(a))
  {
  }

  /** `normalize` in two steps: the keys of the characters that survive the
      diacritic pass, then whitespace collapsing and trimming. Whatever
      agrees on those keys has the same normal form. */
  lemma NormalizeViaKeys(s: string)
    ensures Normalize(s) == Trim(CollapseSpaces(Keys(StripDiacritics(s))))
  {
    var a := StripDiacritics(s);
    var c := FoldApostrophes(FoldDashes(a));
    var d := CollapseSpaces(c);
    assert Normalize(s) == Lower(Trim(d));
    LowerTrim(d);
    FoldedLowersToKeys(a);
    LowerCollapse(c, Keys(a));
  }

  /** Two characters are spelling variants: both are diacritics, or
      neither is and they have the same key (the same letter in another
      case, two dashes, two apostrophes, two whitespace characters). */
  predicate VariantChars(a: char, b: char) {
    IsDiacritic(a) == IsDiacritic(b) && (IsDiacritic(a) || KeyChar(a) == KeyChar(b))
  }

  /** Texts that differ only by spelling variants, character for character. */
  predicate Variants(s: string, t: string) {
    |s| == |t| && forall i :: 0 <= i < |s| ==> VariantChars(s[i], t[i])
  }

  lemma {:induction false} VariantKeys(s: string, t: string)
    requires Variants(s, t)
    ensures Keys(StripDiacritics(s)) == Keys(StripDiacritics(t))
  {
    if s != [] {
      assert Variants(s[1..], t[1..]) by {
        assert forall i :: 0 <= i < |s| - 1 ==> s[1..][i] == s[i + 1] && t[1..][i] == t[i + 1];
      }
      VariantKeys(s[1..], t[1..]);
      var hs := if IsDiacritic(s[0]) then [] else [s[0]];
      var ht := if IsDiacritic(t[0]) then [] else [t[0]];
      KeysAppend(hs, StripDiacritics(s[1..]));
      KeysAppend(ht, StripDiacritics(t[1..]));
    }
  }

  /** Case, dash and apostrophe spellings and the kind of whitespace do not
      matter: texts that differ only by spelling variants, character for
      character, have the same normal form. */
  lemma NormalizeVariants(s: string, t: string)
    requires Variants(s, t)
    ensures Normalize(s) == Normalize(t)
  {
    VariantKeys(s, t);
    NormalizeViaKeys(s);
    NormalizeViaKeys(t);
  }

  /** Lower-casing first changes nothing. */
  lemma NormalizeIgnoresCase(s: string)
    ensures Normalize(Lower(s)) == Normalize(s)
  {
    assert Variants(Lower(s), s);
    NormalizeVariants(Lower(s), s);
  }

  /** The keys of a text with a whitespace run in the middle. */
  lemma KeysAroundRun(a: string, w: string, b: string)
    requires AllSpaces(w)
    ensures Keys(StripDiacritics(a + w + b)) == Keys(StripDiacritics(a)) + Keys(w) + Keys(StripDiacritics(b))
    ensures AllSpaces(Keys(w)) && |Keys(w)| == |w|
  {
    StripDiacriticsAppend(a + w, b);
    StripDiacriticsAppend(a, w);
    StripDiacriticsKeeps(w);
    KeysAppend(StripDiacritics(a) + w, StripDiacritics(b));
    KeysAppend(StripDiacritics(a), w);
  }

  /** The length of a whitespace run does not matter: one inside a text
      can be replaced by a single ' '. */
  lemma NormalizeExtraSpace(a: string, w: string, b: string)
    requires w != [] && AllSpaces(w)
    ensures Normalize(a + w + b) == Normalize(a + " " + b)
  {
    var x, y := Keys(StripDiacritics(a)), Keys(StripDiacritics(b));
    KeysAroundRun(a, w, b);
    KeysAroundRun(a, " ", b);
    CollapseRuns(x, Keys(w), Keys(" "), y);
    NormalizeViaKeys(a + w + b);
    NormalizeViaKeys(a + " " + b);
  }

  // ---------------------------------------------------------------------
  // `normalizeLetters` and `getInitials`
  // ---------------------------------------------------------------------

  /** `replace(/[^a-z0-9]/g, '')`. */
  function KeepLowerAlnum(s: string): (r: string)
    ensures forall c :: c in r <==> c in s && IsLowerAlnum(c)
    ensures |r| <= |s|
  {
    if s == [] then []
    else (if IsLowerAlnum(s[0]) then [s[0]] else []) + KeepLowerAlnum(s[1..])
  }

  lemma {:induction false} KeepLowerAlnumKeeps(s: string)
    requires forall i :: 0 <= i < |s| ==> IsLowerAlnum(s[i])
    ensures KeepLowerAlnum(s) == s
  {
    if s != [] {
      KeepLowerAlnumKeeps(s[1..]);
    }
  }

  /** `normalizeLetters` (app.js:327-330): the `[a-z0-9]` characters of the
      normalised text, and nothing else. */
  function Letters(s: string): (r: string)
    ensures forall i :: 0 <= i < |r| ==> IsLowerAlnum(r[i])
    ensures forall c :: c in r <==> c in Normalize(s) && IsLowerAlnum(c)
  {
    var r := KeepLowerAlnum(Normalize(s));
    assert forall i :: 0 <= i < |r| ==> r[i] in r;
    r
  }

  /** Compacting an already compacted key changes nothing. */
  lemma LettersIdempotent(s: string)
    ensures Letters(Letters(s)) == Letters(s)
  {
    var l := Letters(s);
    assert IsNormal(l) by {
      forall i | 0 <= i < |l| ensures NormalChar(l[i]) && l[i] != ' ' {
        assert IsLowerAlnum(l[i]);
      }
    }
    NormalizeKeepsNormal(l);
    KeepLowerAlnumKeeps(l);
  }

  /** Drops a leading run of characters outside `[a-z0-9]`. */
  function DropSeparators(s: string): (r: string)
    ensures |r| <= |s| && r == s[|s| - |r|..]
    ensures forall i :: 0 <= i < |s| - |r| ==> !IsLowerAlnum(s[i])
    ensures r == [] || IsLowerAlnum(r[0])
  {
    if s != [] && !IsLowerAlnum(s[0]) then
      var r := DropSeparators(s[1..]);
      assert s[1..][|s| - 1 - |r|..] == s[|s| - |r|..];
      assert forall i :: 1 <= i < |s| - |r| ==> s[i] == s[1..][i - 1];
      r
    else s
  }

  /** The leading run of `[a-z0-9]` characters. */
  function TakeWord(s: string): (r: string)
    ensures |r| <= |s| && r == s[..|r|]
    ensures forall i :: 0 <= i < |r| ==> IsLowerAlnum(r[i])
    ensures |r| < |s| ==> !IsLowerAlnum(s[|r|])
  {
    if s != [] && IsLowerAlnum(s[0]) then [s[0]] + TakeWord(s[1..]) else []
  }

  /** A token of `split(/[^a-z0-9]+/).filter(Boolean)`. */
  predicate IsWord(w: string) {
    |w| > 0 && forall i :: 0 <= i < |w| ==> IsLowerAlnum(w[i])
  }

  /** `s.split(/[^a-z0-9]+/g).filter(Boolean)`: the maximal runs of `[a-z0-9]`. */
  function Words(s: string): (r: seq<string>)
    ensures forall k :: 0 <= k < |r| ==> IsWord(r[k])
    decreases |s|
  {
    var t := DropSeparators(s);
    if t == [] then []
    else
      var w := TakeWord(t);
      [w] + Words(t[|w|..])
  }

  /** `join('')`. */
  function Concat(ws: seq<string>): string {
    if ws == [] then [] else ws[0] + Concat(ws[1..])
  }

  lemma {:induction false} KeepLowerAlnumAppend(a: string, b: string)
    ensures KeepLowerAlnum(a + b) == KeepLowerAlnum(a) + KeepLowerAlnum(b)
  {
    if a != [] {
      assert (a + b)[1..] == a[1..] + b;
      KeepLowerAlnumAppend(a[1..], b);
    } else {
      assert a + b == b;
    }
  }

  lemma {:induction false} KeepLowerAlnumDropsAll(s: string)
    requires forall i :: 0 <= i < |s| ==> !IsLowerAlnum(s[i])
    ensures KeepLowerAlnum(s) == []
  {
    if s != [] {
      KeepLowerAlnumDropsAll(s[1..]);
    }
  }

  /** Splitting into words loses exactly the separators: the words, joined,
      are the `[a-z0-9]` characters of the text in order. */
  lemma {:induction false} WordsJoinToLetters(s: string)
    ensures Concat(Words(s)) == KeepLowerAlnum(s)
    decreases |s|
  {
    var t := DropSeparators(s);
    SeparatorsDropped(s);
    if t != [] {
      var w := TakeWord(t);
      WordKept(t);
      WordsJoinToLetters(t[|w|..]);
      assert Words(s) == [w] + Words(t[|w|..]);
    }
  }

  lemma {:induction false} SeparatorsDropped(s: string)
    ensures KeepLowerAlnum(s) == KeepLowerAlnum(DropSeparators(s))
  {
    var t := DropSeparators(s);
    var n := |s| - |t|;
    var p := s[..n];
    assert t == s[n..];
    assert s == p + t;
    forall i | 0 <= i < |p| ensures !IsLowerAlnum(p[i]) {
      assert p[i] == s[i];
    }
    KeepLowerAlnumDropsAll(p);
    KeepLowerAlnumAppend(p, t);
  }

  lemma WordKept(t: string)
    ensures KeepLowerAlnum(t) == TakeWord(t) + KeepLowerAlnum(t[|TakeWord(t)|..])
  {
    var w := TakeWord(t);
    assert t == w + t[|w|..];
    KeepLowerAlnumAppend(w, t[|w|..]);
    KeepLowerAlnumKeeps(w);
  }

  /** The first character of each word. */
  function Heads(ws: seq<string>): (r: string)
    requires forall k :: 0 <= k < |ws| ==> |ws[k]| > 0
    ensures |r| == |ws|
    ensures forall k :: 0 <= k < |r| ==> r[k] == ws[k][0]
  {
    seq(|ws|, k requires 0 <= k < |ws| => ws[k][0])
  }

  /** `getInitials` (app.js:332-338): the first character of each word of
      the normalised name. */
  function GetInitials(name: string): (r: string)
    ensures forall k :: 0 <= k < |r| ==> IsLowerAlnum(r[k])
    ensures var ws := Words(Normalize(name));
      |r| == |ws| && forall k :: 0 <= k < |r| ==> |ws[k]| > 0 && r[k] == ws[k][0]
  {
    WordHeads(Words(Normalize(name)))
  }

  /** The first character of each of some words. */
  function WordHeads(ws: seq<string>): (r: string)
    requires forall k :: 0 <= k < |ws| ==> IsWord(ws[k])
    ensures |r| == |ws| && forall k :: 0 <= k < |r| ==> |ws[k]| > 0 && r[k] == ws[k][0] && IsLowerAlnum(r[k])
  {
    forall k | 0 <= k < |ws| ensures |ws[k]| > 0 && IsLowerAlnum(ws[k][0]) {
      assert IsWord(ws[k]);
    }
    Heads(ws)
  }

  lemma {:induction false} ConcatEmpty(ws: seq<string>)
    requires forall k :: 0 <= k < |ws| ==> IsWord(ws[k])
    ensures Concat(ws) == [] <==> ws == []
  {
    if ws != [] {
      assert |Concat(ws)| >= |ws[0]| > 0;
    }
  }

  /** A name has initials exactly when it has letters or digits. */
  lemma InitialsEmptyIffNoLetters(name: string)
    ensures GetInitials(name) == [] <==> Letters(name) == []
  {
    WordsJoinToLetters(Normalize(name));
    ConcatEmpty(Words(Normalize(name)));
  }

  // ---------------------------------------------------------------------
  // Splitting recovers the words
  // ---------------------------------------------------------------------

  /** The words joined with one separator character between them. */
  function JoinWords(ws: seq<string>, sep: char): string {
    if ws == [] then []
    else if |ws| == 1 then ws[0]
    else ws[0] + [sep] + JoinWords(ws[1..], sep)
  }

  /** A run of `[a-z0-9]` is its own leading word. */
  lemma {:induction false} TakeWordOf(w: string, rest: string)
    requires forall i :: 0 <= i < |w| ==> IsLowerAlnum(w[i])
    requires rest == [] || !IsLowerAlnum(rest[0])
    ensures TakeWord(w + rest) == w
  {
    if w == [] {
      assert w + rest == rest;
    } else {
      assert (w + rest)[0] == w[0] && (w + rest)[1..] == w[1..] + rest;
      TakeWordOf(w[1..], rest);
    }
  }

  /** A leading separator is skipped like the start of the text. */
  lemma WordsAfterSeparator(sep: char, t: string)
    requires !IsLowerAlnum(sep)
    ensures Words([sep] + t) == Words(t)
  {
    assert ([sep] + t)[1..] == t;
  }

  /** The first word of a joined text is the first word given. */
  lemma WordsOfJoinStep(ws: seq<string>, sep: char)
    requires |ws| > 1 && IsWord(ws[0])
    requires !IsLowerAlnum(sep)
    ensures Words(JoinWords(ws, sep)) == [ws[0]] + Words(JoinWords(ws[1..], sep))
  {
    var w, j := ws[0], JoinWords(ws[1..], sep);
    var s := JoinWords(ws, sep);
    assert s == w + ([sep] + j);
    TakeWordOf(w, [sep] + j);
    assert DropSeparators(s) == s;
    assert s[|w|..] == [sep] + j;
    WordsAfterSeparator(sep, j);
  }

  /** The split is maximal and complete: splitting words joined by any
      character outside `[a-z0-9]` gives back exactly those words. */
  lemma {:induction false} WordsOfJoin(ws: seq<string>, sep: char)
    requires forall k :: 0 <= k < |ws| ==> IsWord(ws[k])
    requires !IsLowerAlnum(sep)
    ensures Words(JoinWords(ws, sep)) == ws
  {
    if |ws| == 1 {
      WordsOfOne(ws[0]);
    } else if |ws| > 1 {
      var tail := ws[1..];
      assert forall k :: 0 <= k < |tail| ==> tail[k] == ws[k + 1];
      WordsOfJoin(tail, sep);
      WordsOfJoinCons(ws, sep);
    }
  }

  lemma WordsOfJoinCons(ws: seq<string>, sep: char)
    requires |ws| > 1 && IsWord(ws[0])
    requires !IsLowerAlnum(sep)
    requires Words(JoinWords(ws[1..], sep)) == ws[1..]
    ensures Words(JoinWords(ws, sep)) == ws
  {
    WordsOfJoinStep(ws, sep);
    ConsIs(Words(JoinWords(ws, sep)), Words(JoinWords(ws[1..], sep)), ws);
  }

  lemma ConsIs(a: seq<string>, t: seq<string>, ws: seq<string>)
    requires ws != [] && a == [ws[0]] + t && t == ws[1..]
    ensures a == ws
  {
    assert [ws[0]] + ws[1..] == ws;
  }

  /** A single word splits into itself. */
  lemma WordsOfOne(w: string)
    requires IsWord(w)
    ensures Words(w) == [w]
  {
    TakeWordOf(w, []);
    assert w + [] == w;
    assert DropSeparators(w) == w;
    assert w[|w|..] == [];
  }

  /** Words joined by single spaces form a normal text. */
  lemma {:induction false} JoinWordsNormal(ws: seq<string>)
    requires forall k :: 0 <= k < |ws| ==> IsWord(ws[k])
    ensures IsNormal(JoinWords(ws, ' '))
    ensures ws != [] ==> JoinWords(ws, ' ') != [] && IsLowerAlnum(JoinWords(ws, ' ')[0])
  {
    if |ws| > 1 {
      var w, j := ws[0], JoinWords(ws[1..], ' ');
      JoinWordsNormal(ws[1..]);
      var s := w + [' '] + j;
      assert s == JoinWords(ws, ' ');
      assert forall i :: 0 <= i < |w| ==> s[i] == w[i];
      assert s[|w|] == ' ';
      assert forall i :: |w| < i < |s| ==> s[i] == j[i - |w| - 1];
      assert forall i :: 0 <= i < |s| ==> NormalChar(s[i]) by {
        forall i | 0 <= i < |s| ensures NormalChar(s[i]) {
          if i < |w| {
            assert IsLowerAlnum(w[i]);
          } else if i > |w| {
            assert NormalChar(j[i - |w| - 1]);
          }
        }
      }
      assert forall i :: 0 <= i < |s| - 1 ==> !(s[i] == ' ' && s[i + 1] == ' ') by {
        forall i | 0 <= i < |s| - 1 ensures !(s[i] == ' ' && s[i + 1] == ' ') {
          if i < |w| {
            assert IsLowerAlnum(w[i]);
          } else if i == |w| {
            assert s[i + 1] == j[0];
          } else {
            assert !(j[i - |w| - 1] == ' ' && j[i - |w|] == ' ');
          }
        }
      }
      assert s[|s| - 1] == j[|j| - 1];
    } else if |ws| == 1 {
      var w := ws[0];
      assert forall i :: 0 <= i < |w| ==> IsLowerAlnum(w[i]);
    }
  }

  /** The initials of a name made of words are the first characters of
      those words, one per word. */
  lemma InitialsOfWords(ws: seq<string>)
    requires forall k :: 0 <= k < |ws| ==> IsWord(ws[k])
    ensures forall k :: 0 <= k < |ws| ==> |ws[k]| > 0
    ensures GetInitials(JoinWords(ws, ' ')) == Heads(ws)
  {
    JoinWordsNormal(ws);
    NormalizeKeepsNormal(JoinWords(ws, ' '));
    WordsOfJoin(ws, ' ');
  }
}

=== FILE: wrappers.dfy ===
/** Failure-compatible optional values, used wherever the original code
    returns `null`/`undefined` or a value. */
module Wrappers {

  /** `None` stands for JavaScript's `null` / `undefined`. */
  datatype Option<+T> = None | Some(value: T) {

    /** Returns the value in `Some`, or `default` for `None`. */
    function GetOr(default: T): T {
      match this
      case Some(v) => v
      case None => default
    }
  }
}
